=== FILE: README.md ===
# Bantuin backend: a verified model of its request logic

Bantuin is a personal productivity and finance backend: users register and log
in, then keep notes, todos and income/expense transactions. Each handler
validates a request body or query, reads or writes an owner-scoped collection,
and answers with a `{ meta: { status, message }, data }` envelope. This project
models that logic in Dafny as pure functions over immutable records.

- **Stores and handlers.** A collection is a sequence of records. A handler maps
  a store and a request to `Response.Step`: the store afterwards and the
  envelopes written, in order. Handlers whose not-found branch has no `return`
  write two envelopes, and the client receives the first.
- **Time.** Instants are integer milliseconds in one zone (`Timeline`).
  `Calendar` holds the epoch-day arithmetic and the reading of
  `YYYY-MM-DD` texts.
- **Opaque functions.** Password hashing and comparison, token signing and
  verification, and full-text search are function parameters.

The model covers these parts of the system:

- The bearer-token middleware and the four envelope constructors.
- Registration, login, "me" and password change over a user store with unique
  email and username. The user document's defaults and its pre-save hook.
- The note handlers, with the limit of three pinned notes per owner. The limit
  is proved to hold across any sequence of writes.
- The todo list filter: due date, named ranges, `upcoming`, and the today view.
  The todo handlers and the status toggle.
- The transaction body schema, which ties the category to the type, and the
  document schema. The month window `[YYYY-MM-01, next month's 01)`. The totals
  fold, which trims and lower-cases the type. The two-stage summary grouped by
  type and then by category. The transaction handlers.

The todo `today` range ends at 23:59:59.999 of today, not at the request
instant: the end taken at src/controllers/todo.controller.ts:84 is moved to the
last millisecond of its day at line 116, as for the other day-count ranges.

String lengths are counted as the validators count them, in UTF-16 code units
(`Text.Utf16Length`): a character outside the Basic Multilingual Plane counts
twice. The raw `isPinned` of a note body is a JSON value (`NoteModel.JsonValue`)
read three ways: by the body schema's boolean coercion, by JavaScript
truthiness in the pin-limit check, and by the store's boolean cast when the
note is saved.

## Model

| member | source | states |
|---|---|---|
| Response.Success | src/utils/response.ts:4-12 | `success` writes status 200 with the given data and message |
| Response.Error | src/utils/response.ts:14-22 | `error` writes status 400 with the message and null data |
| Response.NotFound | src/utils/response.ts:24-32 | `notFound` writes status 404 with the message and null data |
| Response.NotFoundDefault | src/utils/response.ts:24 | without a message, `notFound` says "Data not found!" |
| Response.Unauthorize | src/utils/response.ts:34-42 | `unauthorize` writes status 403 with the message and null data |
| Response.UnauthorizeDefault | src/utils/response.ts:34 | without a message, `unauthorize` says "Unauthorized" |
| Response.StatusIdentifiesConstructor | src/utils/response.ts:4-42 | the status code identifies the constructor that wrote an envelope; the message passes through; only `success` carries data |
| AuthMiddleware.BearerToken | src/middleware/auth.middleware.ts:17-21 | a token is found only when the header is "Bearer ", then a non-empty token without spaces, then the end or a space |
| AuthMiddleware.BearerTokenOfShape | src/middleware/auth.middleware.ts:17-21 | the converse: every header of that shape yields exactly its token |
| AuthMiddleware.Authenticate | src/middleware/auth.middleware.ts:9-30 | a missing, empty or malformed header gives 403 "Unauthorized"; for a well-formed header, a token the verifier accepts passes exactly its claims to the handler, and a token it rejects gives 400 with its message |
| AuthMiddleware.TrailingPiecesIgnored | src/middleware/auth.middleware.ts:17 | pieces after the token do not change the outcome |
| AuthMiddleware.PrefixIsCaseSensitive | src/middleware/auth.middleware.ts:19-21 | "bearer" in lower case is refused with 403 |
| AuthMiddleware.EmptyTokenRefused | src/middleware/auth.middleware.ts:19-21 | "Bearer" alone, or followed by two spaces, is refused with 403 |
| AuthMiddleware.VerificationFailureIsBadRequest | src/middleware/auth.middleware.ts:23-29 | a well-formed header whose token fails verification gives 400 with the verifier's message, not 403 |
| AuthMiddleware.VerifiedTokenAuthenticates | src/middleware/auth.middleware.ts:17-25 | a header "Bearer " + token, with anything after a space, whose token the verifier accepts reaches the handler with exactly the verified claims |
| UserModel.PreSave | src/models/user.model.ts:50-54 | saving replaces the password with its hash and changes nothing else |
| UserModel.CreateUser | src/models/user.model.ts:35-54 | a new user has role "user", the default profile picture and the hashed password |
| UserModel.SaveAgainHashesTwice | src/models/user.model.ts:50-54 | saving a stored user again hashes the stored hash |
| UserModel.Insert | src/models/user.model.ts:21-30 | the unique indexes refuse an insert exactly when the email or username is taken |
| UserModel.InsertKeepsUnique | src/models/user.model.ts:21-30 | an accepted insert keeps emails, usernames and ids pairwise distinct |
| AuthController.Required | src/controllers/auth.controller.ts:19-21 | a required string field fails exactly when it is empty |
| AuthController.NewPasswordCheck | src/controllers/auth.controller.ts:22-24 | a new password fails exactly when it is shorter than 8 UTF-16 code units; empty gives the required message, 1 to 7 units give "Password must be at least 8 characters" |
| AuthController.ConfirmationCheck | src/controllers/auth.controller.ts:25-30 | a confirmation passes exactly when it is non-empty and equal to the password |
| AuthController.ValidateRegister | src/controllers/auth.controller.ts:18-31 | a registration body passes exactly when every field is present, the password has at least 8 UTF-16 code units and the confirmation matches (its fields taken as strings) |
| AuthController.Register | src/controllers/auth.controller.ts:63-99 | succeeds exactly for a valid body with an unused email and username; the email is checked before the username; success appends one user with the hashed password; any failure keeps the store |
| AuthController.RegisterKeepsAccountsUnique | src/controllers/auth.controller.ts:77-94 | registration keeps emails and usernames unique |
| AuthController.RegisterTwiceEmailTaken | src/controllers/auth.controller.ts:77-80 | registering the same body twice fails the second time with "Email already registered!" |
| AuthController.MismatchRefused | src/controllers/auth.controller.ts:25-30 | a mismatched confirmation is refused with "Confirmation password must match with password!" and the store is kept |
| AuthController.ShortPasswordRefused | src/controllers/auth.controller.ts:22-24 | a password of 1 to 7 UTF-16 code units is refused with "Password must be at least 8 characters" and the store is kept |
| AuthController.AstralPasswordLength | src/controllers/auth.controller.ts:22-24 | four emoji make a password of 8 code units, which passes; seven ASCII letters are refused |
| AuthController.ValidateLogin | src/controllers/auth.controller.ts:38-41 | a login body passes exactly when identifier and password are non-empty (its fields taken as strings) |
| AuthController.Login | src/controllers/auth.controller.ts:101-138 | an invalid body gives 400 with the schema's message; no user with that email or username gives 404 "User not found!"; a first such user whose password does not compare gives 400 "Identifier or password is incorrect!"; success means it compared and the reply is the signed `{ id, role }` |
| AuthController.RegisterThenLogin | src/controllers/auth.controller.ts:87-133 | a user just registered can log in by email with the same password |
| AuthController.Me | src/controllers/auth.controller.ts:140-159 | a malformed id gives 404 "Id is not valid"; a well-formed id with no user gives 404 "User not found!"; an existing id gives that user |
| AuthController.ValidateChangePassword | src/controllers/auth.controller.ts:49-60 | the body passes exactly when the current password is given, the new one has at least 8 UTF-16 code units and the confirmation matches (its fields taken as strings) |
| AuthController.ChangePassword | src/controllers/auth.controller.ts:161-209 | an invalid body gives 400 with the schema's message; a well-formed caller with no record gets the default 404; any failure keeps the store; a valid body from an existing caller whose current password compares replies 200 "Update password success!"; on success only the caller's password changes, to the hash of the new one |
| NoteModel.ValidateNote | src/models/note.model.ts:7-13 | a note body (its `lastEdited` and `userId` taken as well-typed) passes exactly when the title has 1 to 100 UTF-16 code units, the content 1 to 5000, and `isPinned` is absent or a value the boolean schema accepts; a pin of another type gives the type error |
| NoteModel.AstralTitleLimit | src/models/note.model.ts:8 | a title of characters outside the Basic Multilingual Plane passes exactly when it has 1 to 50 of them |
| NoteModel.StoredPin | src/models/note.model.ts:31-34 | the store's cast: true, 1, "true", "1" and "yes" store true; false, 0, "false", "0", "no" and an absent value store false; anything else fails |
| NoteModel.StoredPinIsTruthy | src/controllers/note.controller.ts:18-34 | a value stored as pinned is truthy, so the limit check ran for it |
| NoteModel.FalseStringsAreTruthy | src/controllers/note.controller.ts:18-34 | "false" and "0" pass the body schema and store false, yet are truthy |
| NoteModel.UpperCaseTrueFailsCast | src/models/note.model.ts:10-34 | "TRUE" passes the body schema but the store's cast refuses it |
| NoteModel.PreSave | src/models/note.model.ts:47-53 | saving sets `lastEdited` to now exactly when the content was modified, and touches nothing else |
| NoteModel.NewNote | src/models/note.model.ts:31-53 | a new note carries the given pin, title, content and owner, and is stamped with `lastEdited` |
| NoteController.CreateNote | src/controllers/note.controller.ts:12-43 | an invalid body gives its error; a truthy pin with three pinned gives "Maximum pinned notes reached! (Max: 3)"; a pin the store cannot cast gives the cast error; otherwise one note of the caller's is appended with the cast pin and returned with "Create note success!" |
| NoteController.CreateKeepsPinLimit | src/controllers/note.controller.ts:20-36 | create keeps every owner at three pinned notes or fewer |
| NoteController.FalsePinRefusedAtLimit | src/controllers/note.controller.ts:18-31 | with three pinned, a body with `isPinned: "false"` is refused with the limit message and the store is kept |
| NoteController.SwitchPin | src/controllers/note.controller.ts:175-217 | a malformed id gives 404; a note that is absent or someone else's gives 404 "Note not found!"; a pinned note, or one below the limit, is flipped and the reply is its new pin with "Note pinned success!" or "Note unpinned success!"; only that note changes |
| NoteController.UnpinAlwaysSucceeds | src/controllers/note.controller.ts:191-211 | toggling a pinned note always unpins it, and nothing else changes |
| NoteController.FourthPinRefused | src/controllers/note.controller.ts:191-200 | pinning when three are pinned is refused and the store is kept |
| NoteController.SwitchPinKeepsPinLimit | src/controllers/note.controller.ts:191-203 | the toggle keeps every owner at three pinned notes or fewer |
| NoteController.DeleteNote | src/controllers/note.controller.ts:153-173 | removes the caller's note with that id when there is one, and then the store loses exactly it; otherwise the store is kept; the reply is success either way |
| NoteController.DeleteKeepsPinLimit | src/controllers/note.controller.ts:163-166 | delete keeps the pin limit |
| NoteController.FindOneNote | src/controllers/note.controller.ts:97-118 | an owned note is delivered with 200 "Success get one transaction!"; a missing note gets the 404 and then also the success reply; a delivered success has the requested id and the caller as owner |
| NoteController.ApplyUpdate | src/controllers/note.controller.ts:132-140 | an update writes the title and content that are given and keeps the rest |
| NoteController.UpdateNote | src/controllers/note.controller.ts:120-151 | as written: the store changes only for a note of the caller whose `lastEdited` equals the request instant; a valid request replies 200 either way |
| NoteController.UpdateMissesEarlierEdits | src/controllers/note.controller.ts:134-146 | when no note was last edited at the request instant, nothing is updated and the reply is 200 with null data |
| NoteController.UpdateNoteIntended | src/controllers/note.controller.ts:120-151 | the corrected update: the caller's note by id gets the new fields and a fresh `lastEdited` |
| NoteController.IntendedUpdateFindsOwnedNote | src/controllers/note.controller.ts:134-146 | the corrected update reaches every note of the caller's and stamps it with the request instant |
| NoteController.UpdateKeepsPinLimit | src/controllers/note.controller.ts:134-144 | neither update changes the pin limit |
| NoteController.RunKeepsPinLimit | src/controllers/note.controller.ts:12-217 | the pin limit holds after any sequence of creates, toggles, deletes and updates |
| NoteController.BuildNoteQuery | src/controllers/note.controller.ts:49-63 | the list filter always has the owner; search and pin filters only when non-empty |
| NoteModel.CastBoolean | src/controllers/note.controller.ts:58-59 | the pin filter reads "true", "1" and "yes" as true, "false", "0" and "no" as false, and nothing else |
| NoteController.FindAllNotes | src/controllers/note.controller.ts:45-95 | a pin filter that is not a boolean is refused; otherwise page `page` of the caller's notes matching search and pin, with current = page, totalPage = ceil(total / limit) and the total of all matches |
| NoteController.NotePagesCoverMatches | src/controllers/note.controller.ts:65-90 | requesting pages 1 to totalPage returns every matching note exactly once, in store order |
| TodoModel.ValidateTodo | src/models/todo.model.ts:9-15 | a todo body (its fields taken as well-typed) passes exactly when the title is non-empty, a due date is given, and a status, if any, is pending or completed |
| TodoModel.NewTodo | src/models/todo.model.ts:36-40 | a new todo is "pending" |
| TodoModel.SwitchStatus | src/controllers/todo.controller.ts:277-280 | the toggle gives a valid status, and gives "pending" exactly for "completed" |
| TodoModel.SwitchStatusTwice | src/controllers/todo.controller.ts:277-280 | toggling twice gives the status back exactly when it is pending or completed |
| TodoQuery.RangeDays | src/controllers/todo.controller.ts:83-100 | today is 0 days ahead, tomorrow 1, next7 7 and next30 30; no other token has a day count |
| TodoQuery.RangeStart | src/controllers/todo.controller.ts:69-81 | a range starts at the request instant when `upcoming` is "true", at midnight otherwise |
| TodoQuery.DueDateBound | src/controllers/todo.controller.ts:52-62 | a due date D selects `D <= x < 23:59:59.999 of D's day` |
| TodoQuery.ApplyRange | src/controllers/todo.controller.ts:64-123 | overdue gives `x < now`; the other tokens give `[start, 23:59:59.999 of the day n days ahead)`; anything else keeps the bound |
| TodoQuery.BuildQuery | src/controllers/todo.controller.ts:39-126 | the owner always; search and status only when given; the due-date bound, which a recognised range replaces |
| TodoQuery.TodayQuery | src/controllers/todo.controller.ts:294-310 | the today view selects exactly the instants of today's day |
| TodoQuery.DueDateSelectsDayButLastMs | src/controllers/todo.controller.ts:52-62 | a due date at midnight selects its whole day except its last millisecond |
| TodoQuery.RangeSelectsDays | src/controllers/todo.controller.ts:64-123 | without `upcoming`, a token selects the days from today to n days ahead, less the last millisecond |
| TodoQuery.UpcomingStartsNow | src/controllers/todo.controller.ts:73-122 | with `upcoming`, the same span starts at the request instant |
| TodoQuery.OverdueIsBeforeNow | src/controllers/todo.controller.ts:102-113 | overdue selects exactly the instants before now, whatever the other parameters |
| TodoQuery.RangeOverridesDueDate | src/controllers/todo.controller.ts:52-122 | a recognised token discards the due-date parameter; anything else keeps it |
| TodoQuery.TodayTokenVersusTodayHandler | src/controllers/todo.controller.ts:294-310 | the `today` token and the today view differ exactly at 23:59:59.999 of today |
| TodoController.CreateTodo | src/controllers/todo.controller.ts:13-33 | a valid body appends one pending todo of the caller's with its title, description and due date; an invalid one keeps the store |
| TodoController.CreateKeepsStatusesValid | src/controllers/todo.controller.ts:21-26 | create keeps every stored status pending or completed |
| TodoController.FindAllTodos | src/controllers/todo.controller.ts:35-167 | page `page` of the owner's matching todos in store order, with current = page, totalPage = ceil(total / limit) and the total of all matches |
| TodoController.TodoPagesCoverMatches | src/controllers/todo.controller.ts:143-162 | requesting pages 1 to totalPage returns every matching todo exactly once, in store order |
| TodoController.ToDoToday | src/controllers/todo.controller.ts:294-317 | exactly the caller's todos due today |
| TodoController.FindOneTodo | src/controllers/todo.controller.ts:169-190 | success exactly when the caller owns the id; a malformed id gives "Invalid id!" |
| TodoController.ApplyUpdate | src/controllers/todo.controller.ts:204-218 | an update writes title and due date, writes the description only when given, and never changes the status |
| TodoController.UpdateTodo | src/controllers/todo.controller.ts:192-230 | success exactly for a well-formed id, a valid body and an owned todo; that todo, and only it, becomes its update, which the reply carries with "Success update todo!" |
| TodoController.UpdateKeepsStatusesValid | src/controllers/todo.controller.ts:206-218 | update keeps every status valid |
| TodoController.RemoveTodo | src/controllers/todo.controller.ts:232-256 | a missing todo gets the 404 and then also the success reply; when the caller owns a todo with that id the removal succeeds, and success removes exactly the caller's todo |
| TodoController.RemoveKeepsStatusesValid | src/controllers/todo.controller.ts:242-245 | remove keeps every status valid |
| TodoController.SwitchTodoStatus | src/controllers/todo.controller.ts:258-292 | an owned todo always succeeds; success toggles exactly the caller's todo and names the new status in the message |
| TodoController.SwitchKeepsStatusesValid | src/controllers/todo.controller.ts:277-281 | the toggle keeps every status valid |
| TodoController.SwitchTwiceRestores | src/controllers/todo.controller.ts:277-281 | toggling the same todo twice restores the store |
| TransactionModel.CategoriesFor | src/models/transaction.model.ts:16-20 | "income" allows the income categories; every other type allows the expense categories |
| TransactionModel.ValidateBody | src/models/transaction.model.ts:8-22 | a body (its fields taken as well-typed) passes exactly when name, amount, date and type are given and the category is allowed for the type |
| TransactionModel.ValidateSchema | src/models/transaction.model.ts:30-70 | a document passes exactly when it has a name, its type is income or expense, and its category is in either list |
| TransactionModel.OtherFitsEveryType | src/constants/list.constants.ts:1-23 | "Lainnya" is allowed whatever the type |
| TransactionModel.BodySchemaAndTypeGiveSchemaValid | src/models/transaction.model.ts:8-60 | a valid body makes a valid document exactly when its type is income or expense |
| TransactionModel.BodySchemaAllowsForeignType | src/models/transaction.model.ts:13-20 | type "Income" with an expense category passes the body schema but not the document schema |
| TransactionQuery.NextMonth | src/controllers/transaction.controller.ts:58-59 | December rolls over to January of the next year; any other month moves to the next one |
| TransactionQuery.MonthWindowOfMonth | src/controllers/transaction.controller.ts:61-66 | the window runs from midnight of the 1st to midnight of the next month's 1st |
| TransactionQuery.NoWindowOutsideMonths | src/controllers/transaction.controller.ts:55-66 | a month outside 1 to 12 yields texts that are not dates |
| TransactionQuery.MonthWindowIsTheMonth | src/controllers/transaction.controller.ts:61-66 | an instant is in the window exactly when its day is in the month; the window spans the month's days |
| TransactionQuery.MonthWindowsTile | src/controllers/transaction.controller.ts:58-66 | consecutive months' windows meet with no gap and no overlap |
| TransactionQuery.BuildQuery | src/controllers/transaction.controller.ts:41-69 | the owner always; type and category only when given; the month window only when month and year are both given; an error when the window texts are not dates |
| TransactionQuery.MonthFilterSelectsMonth | src/controllers/transaction.controller.ts:197-217 | the month filter alone selects the owner's transactions dated in that month |
| TransactionAggregate.GroupTotalsAreSums | src/controllers/transaction.controller.ts:222-258 | the fold gives the sum of the amounts whose normalised type is income, the same for expense, and the number of records |
| TransactionAggregate.GroupTotalsAppend | src/controllers/transaction.controller.ts:222-258 | the totals of two batches add up |
| TransactionAggregate.AggregateTotals | src/controllers/transaction.controller.ts:222-258 | the pipeline yields no group when nothing matched, one group otherwise |
| TransactionAggregate.TotalsReply | src/controllers/transaction.controller.ts:260-264 | the reply is the group, or zero totals when there is none |
| TransactionAggregate.TotalsReplyIsFold | src/controllers/transaction.controller.ts:222-264 | the reply equals the fold, including on an empty match |
| TransactionAggregate.NormalizeEnumValues | src/controllers/transaction.controller.ts:232-246 | "income" and "expense" are unchanged by trimming and lower-casing |
| TransactionAggregate.ValidTotalsPartition | src/controllers/transaction.controller.ts:222-258 | over schema-valid records, income plus expense is the sum of all amounts |
| TransactionAggregate.StrayCaseCountsAsIncome | src/controllers/transaction.controller.ts:232 | " Income " counts as income |
| TransactionAggregate.OneSalaryTotals | src/controllers/transaction.controller.ts:222-266 | one income of 1000000 gives totals 1000000, 0 and 1 |
| TransactionAggregate.SummaryIsExact | src/controllers/transaction.controller.ts:311-333 | each type appears once, and each category once within its type; each category carries the sum of its amounts; the categories of a type add up to the type's sum; every record's type and category appear |
| TransactionAggregate.SummaryGroupsComeFromData | src/controllers/transaction.controller.ts:311-333 | every type group comes from some matched record |
| TransactionController.CreateTransaction | src/controllers/transaction.controller.ts:12-32 | success exactly for a well-formed caller, a valid body and type income or expense; success appends one schema-valid transaction of the caller's, carrying the body's fields under an id no stored transaction has |
| TransactionController.CreateKeepsSchemaValid | src/controllers/transaction.controller.ts:20-25 | create keeps every stored transaction schema-valid |
| TransactionController.FindAllTransactions | src/controllers/transaction.controller.ts:33-98 | a malformed caller gives 404 and an unreadable month gives 400; otherwise page `page` of the matching transactions, with current = page, totalPage = ceil(total / limit) and the total of all matches |
| TransactionController.TransactionPagesCoverMatches | src/controllers/transaction.controller.ts:74-91 | requesting pages 1 to totalPage returns every matching transaction exactly once, in store order |
| TransactionController.FindOneTransaction | src/controllers/transaction.controller.ts:99-123 | found by id alone; success exactly when the id exists, with the message "Succes get one transaction!" |
| TransactionController.FindOneIgnoresOwner | src/controllers/transaction.controller.ts:112 | a caller can read another owner's transaction |
| TransactionController.ApplyBody | src/controllers/transaction.controller.ts:140-147 | the update writes every body field and the caller as owner, and keeps the description when the body has none |
| TransactionController.UpdateTransaction | src/controllers/transaction.controller.ts:124-158 | as written: a missing transaction gets the 404 and then the success reply; a valid body for a transaction the caller owns succeeds; a success rewrites exactly the caller's transaction |
| TransactionController.UpdateStoresForeignType | src/controllers/transaction.controller.ts:138-153 | an update with type "Income" succeeds and leaves a document the schema forbids |
| TransactionController.UpdateTransactionValidated | src/controllers/transaction.controller.ts:124-158 | the corrected update: a type outside the enum is refused and the store kept; a valid body with type income or expense for a transaction the caller owns succeeds; a success stores a schema-valid document |
| TransactionController.ValidatedUpdateKeepsSchemaValid | src/controllers/transaction.controller.ts:140-147 | the corrected update keeps every stored transaction schema-valid |
| TransactionController.DeleteTransaction | src/controllers/transaction.controller.ts:159-187 | removes exactly the caller's transaction and returns it, or 404 "Transaction not found" with the store kept; when the caller owns a transaction with that id the removal succeeds |
| TransactionController.TotalTransactions | src/controllers/transaction.controller.ts:189-271 | the income and expense sums and the count over the caller's transactions in the month, with type and category ignored |
| TransactionController.SummaryByCategory | src/controllers/transaction.controller.ts:273-340 | groups only of the requested type; over the caller's matching transactions each type appears once and each category once within it, each category carries its sum, a type's categories add up to its sum, and every matching record is represented |
| Pagination.TotalPages | src/controllers/transaction.controller.ts:88 | the fewest pages of `limit` records that hold `count` |
| Pagination.Page | src/controllers/transaction.controller.ts:75-80 | at most `limit` records: the run that follows the first `(page - 1) * limit`, empty past the end |
| Pagination.PagesCoverAll | src/controllers/transaction.controller.ts:75-91 | pages 1 to totalPage together are exactly the matched records |
| Pagination.WalkCoversAll | src/controllers/transaction.controller.ts:75-91 | any handler that serves page p as that page of the records returns all of them, in order, over pages 1 to totalPage |
| Calendar.MonthFirstTextParses | src/controllers/transaction.controller.ts:62 | the text built for the 1st of a month reads back as midnight of that day |
| Calendar.OutOfRangeMonthTextFails | src/controllers/transaction.controller.ts:62 | with a four-digit year, a month outside 1 to 12 gives a text that is not a date |
| Calendar.MonthLength | src/controllers/transaction.controller.ts:58-66 | the next month's first day comes the month's length after this month's first day |
| Text.Trim | src/controllers/transaction.controller.ts:232 | `$trim` leaves the middle of the string, with the whitespace at both ends removed |
| Text.AsciiLower | src/controllers/transaction.controller.ts:232 | `$toLower` lower-cases each ASCII letter and keeps the length |
| Text.DecimalRoundTrip | src/controllers/transaction.controller.ts:62 | the decimal text of a number reads back as the number |
| Text.Utf16Length | src/controllers/auth.controller.ts:22-24 | a string's length in UTF-16 code units: at least its number of characters, at most twice that, and zero only for the empty string |
| Text.AstralLength | src/models/note.model.ts:8 | a string of characters outside the Basic Multilingual Plane is twice as long in code units |

## Left out

- Persistence, connection handling and the HTTP wiring are not modelled. A handler's `catch` for store or network failures is also outside the model. Only the auth routes are mounted in src/routes/api.ts.
- Object ids are abstract: `isValidObjectId` is the `Ids.IdParam` case a request arrives in. Todo and note handlers take the caller's id as already valid. Transaction handlers model their "Invalid userId!" branch.
- Token signing and verification, password hashing and comparison, and `$text` search are function parameters. Their behaviour is not modelled.
- Amounts are integers. Floating-point sums are not modelled.
- All times are in one zone. The todo bounds use local `setHours`, while the month window reads `YYYY-MM-DD` as UTC.
- The due-date parameter of the todo list arrives already read as an instant. A text the date parser rejects, which the store refuses to cast, is not modelled.
- Month and year arrive as the integers `parseInt` returns. `NaN` is not modelled.
- TransactionQuery.BuildQuery: texts other than `YYYY-MM-DD` naming a real day give no window. The date parser's fallback forms, such as years written with fewer than four digits, are not modelled.
- TransactionController.TotalTransactions: an unreadable month window is modelled as a 400. The aggregation pipeline is not cast by the document mapper, and what the driver sends for an invalid date is not part of this model.
- TransactionController.SummaryByCategory: the same holds for an unreadable month window here.
- TransactionController.SummaryByCategory: the store does not fix the order of groups. The model lists them in order of first appearance.
- TodoController.FindAllTodos: src/utils/response.ts defines no `pagination`, so the call at src/controllers/todo.controller.ts:153 throws and the `catch` answers 400 with the runtime's message. The model gives the listing the call evidently intends: the message, one page and the page meta.
- NoteController.FindAllNotes: the same holds for the call at src/controllers/note.controller.ts:81.
- TransactionController.FindAllTransactions: the same holds for the call at src/controllers/transaction.controller.ts:84.
- TodoController.FindAllTodos: page and limit are positive integers. `limit=0`, which the store reads as "no limit", is not modelled. Records come in store order; the sort by due date is not modelled.
- TransactionController.FindAllTransactions: positive page and limit, store order; the sort by date is not modelled.
- NoteController.FindAllNotes: positive page and limit, store order; the sort by creation time is not modelled.
- TransactionModel.ValidateBody: when several fields fail, the validation library's choice of which error to report is not modelled. The model reports the first failing field in declaration order, with the library's default wording.
- AuthController.ValidateRegister: the same holds for the register schema.
- AuthController.ValidateLogin: the same holds for the login schema.
- AuthController.ValidateChangePassword: the same holds for the change-password schema.
- AuthController.ValidateRegister: the fields are taken as strings. The schema casts a number to its digits before checking, but the handler then reads the raw body. So `password: 12345678` with `confirmPassword: "12345678"` passes the schema, and the raw comparison at src/controllers/auth.controller.ts:70 answers 400 "Confirmation password must match with password!". The model does not represent such a body.
- AuthController.ValidateLogin: the fields are taken as strings. A numeric password passes the schema, and the hash comparison at src/controllers/auth.controller.ts:122 then throws, which the `catch` answers with 400. The model does not represent such a body.
- AuthController.ValidateChangePassword: the fields are taken as strings. A numeric password passes the schema. The raw comparison at src/controllers/auth.controller.ts:168 or the hash comparison at :187 then answers 400. The model does not represent such a body.
- NoteModel.ValidateNote: the same holds for the note schema, and the wording of the pin's type error is approximate.
- TodoModel.ValidateTodo: the same holds for the todo schema.
- NoteModel.ValidateNote: the note schema also checks `lastEdited` as a date and `userId` as a string (src/models/note.model.ts:11-12). A body whose `lastEdited` is not a date, such as "yesterday", is refused with 400. The handler then ignores both fields, so the model has no such fields and does not express that refusal.
- TodoModel.ValidateTodo: `dueDate` arrives as an instant or absent, and `description` as a string or absent. The schema's type error for a `dueDate` that is not a date (src/models/todo.model.ts:12), or for a description that is not a string, is not modelled. Neither is a `userId` that is not a string.
- TransactionModel.ValidateBody: `amount` arrives as an integer or absent, and `date` as an instant or absent. The schema's type errors for an amount that is not a number or a date that is not a date (src/models/transaction.model.ts:11-12) are not modelled. Neither is a description or `userId` that is not a string.
- NoteModel.StoredPin: JSON `null` and fractional numbers for `isPinned` are not modelled, and the wording of the cast error (`NoteModel.PinCastError`) is approximate.
- TransactionAggregate.TotalsReply: when a record matched, the reply also carries the group's `_id: null` (src/controllers/transaction.controller.ts:226); the model keeps only the three totals.
- NoteController.UpdateNote: the update-body schema it uses is not defined in src/models/note.model.ts, so its verdict is the `invalid` parameter.
- Timestamps (`createdAt`, `updatedAt`) are not modelled. Body fields that no schema declares are not modelled either: the schemas drop them.
- `$trim` also strips Unicode spaces beyond the ASCII and control set modelled in `Text.IsTrimSpace`.
- Concurrency is not modelled: the count-then-write pin check and the un-awaited `todo.save()` are treated as sequential. The toggle's save is taken as done before the reply.
- A second envelope on the same response makes the framework throw. The model records both envelopes and nothing further.

## Findings

| source | as written | input that shows it | evidently intended | confidence | as-written member | corrected member |
|---|---|---|---|---|---|---|
| src/controllers/note.controller.ts:134-139 | the update's match filter includes `lastEdited: new Date()`, so it only matches a note last edited at the very request instant | any owned note edited earlier than the request: nothing is updated, and the reply is 200 with null data | match the caller's note by id and owner, and set `lastEdited` in the update | high (not executed) | NoteController.UpdateNote, NoteController.UpdateMissesEarlierEdits | NoteController.UpdateNoteIntended, NoteController.IntendedUpdateFindsOwnedNote |
| src/controllers/transaction.controller.ts:138-147 | the update checks only the body schema, and the store runs no document validators on update | body with type "Income" and category "Belanja": it passes the body schema and is stored with a type outside `["income", "expense"]` | validate the updated document against the schema before storing it | medium (not executed) | TransactionController.UpdateTransaction, TransactionController.UpdateStoresForeignType | TransactionController.UpdateTransactionValidated, TransactionController.ValidatedUpdateKeepsSchemaValid |

=== FILE: auth_controller.dfy ===
/** The account handlers: register, login, me and change-password, as
    transitions of the user store. Request-body fields are strings in which
    the empty string stands for an absent field. Hashing, the password
    comparison and token signing are opaque functions passed in. */
module AuthController {
  import opened Wrappers
  import opened Seqs
  import opened Ids
  import opened Response
  import opened UserModel
  import opened AuthMiddleware
  import opened Text

  const MinPasswordLength: nat := 8

  const PasswordTooShort: string := "Password must be at least 8 characters"
  const ConfirmationMismatch: string := "Confirmation password must match with password!"
  const EmailTaken: string := "Email already registered!"
  const UsernameTaken: string := "Username already taken!"
  const UserNotFound: string := "User not found!"
  const WrongCredentials: string := "Identifier or password is incorrect!"
  const WrongCurrentPassword: string := "Current password is incorrect!"
  const IdNotValid: string := "Id is not valid"

  /** The schema validator's default message for a missing required field. */
  function RequiredMessage(field: string): string {
    field + " is a required field"
  }

  /** A required field: absent or empty fails. */
  function Required(field: string, value: string): (r: Option<string>)
    ensures r.None? <==> value != ""
  {
    if value == "" then Some(RequiredMessage(field)) else None
  }

  /** The first of two checks that fails, if either does. */
  function FirstOf(a: Option<string>, b: Option<string>): (r: Option<string>)
    ensures r.None? <==> a.None? && b.None?
    ensures r.Some? ==> r == a || r == b
  {
    if a.Some? then a else b
  }

  /** A new password: required, then at least eight UTF-16 code units (the
      JavaScript length the validator's `min` compares). */
  function NewPasswordCheck(field: string, password: string): (r: Option<string>)
    ensures r.None? <==> Utf16Length(password) >= MinPasswordLength
    ensures password == "" ==> r == Some(RequiredMessage(field))
    ensures 0 < Utf16Length(password) < MinPasswordLength ==> r == Some(PasswordTooShort)
  {
    if password == "" then Some(RequiredMessage(field))
    else if Utf16Length(password) < MinPasswordLength then Some(PasswordTooShort)
    else None
  }

  /** A confirmation: required, then one of the password or the empty string. */
  function ConfirmationCheck(field: string, confirmation: string, password: string): (r: Option<string>)
    ensures r.None? <==> confirmation != "" && confirmation == password
  {
    if confirmation == "" then Some(RequiredMessage(field))
    else if confirmation != password then Some(ConfirmationMismatch)
    else None
  }

  // ---------------------------------------------------------------------
  // register

  datatype RegisterBody = RegisterBody(
    fullname: string, email: string, username: string, password: string, confirmPassword: string)

  /** The register body schema. When several fields fail, the first in
      declaration order supplies the message. */
  function ValidateRegister(b: RegisterBody): (r: Option<string>)
    ensures r.None? <==>
      b.fullname != "" && b.email != "" && b.username != ""
      && Utf16Length(b.password) >= MinPasswordLength && b.confirmPassword == b.password
  {
    FirstOf(Required("fullname", b.fullname),
    FirstOf(Required("email", b.email),
    FirstOf(Required("username", b.username),
    FirstOf(NewPasswordCheck("password", b.password),
            ConfirmationCheck("confirmPassword", b.confirmPassword, b.password)))))
  }

  /** `register`: validate, then the confirmation, then email before username,
      then create the user (hashing the password on save). */
  function Register(users: seq<User>, b: RegisterBody, hash: string -> string): (st: Step<seq<User>, User>)
    ensures |st.replies| == 1
    ensures st.Delivered().meta.status == StatusOk <==>
      ValidateRegister(b).None? && !EmailInUse(users, b.email) && !UsernameInUse(users, b.username)
    ensures st.Delivered().meta.status != StatusOk ==>
      st.store == users && st.Delivered().meta.status == StatusBadRequest
    ensures ValidateRegister(b).None? && EmailInUse(users, b.email) ==>
      st.Delivered().meta.message == "Email already registered!"
    ensures ValidateRegister(b).None? && !EmailInUse(users, b.email) && UsernameInUse(users, b.username) ==>
      st.Delivered().meta.message == "Username already taken!"
    ensures st.Delivered().meta.status == StatusOk ==>
      |st.store| == |users| + 1 && st.store[..|users|] == users
      && st.Delivered().data == Some(st.store[|users|])
      && st.store[|users|].email == b.email && st.store[|users|].username == b.username
      && st.store[|users|].fullname == b.fullname && st.store[|users|].password == hash(b.password)
      && st.store[|users|].role == "user"
  {
    var invalid := ValidateRegister(b);
    if invalid.Some? then Reply(users, Error(invalid.value))
    else if b.password != b.confirmPassword then Reply(users, Error(ConfirmationMismatch))
    else if EmailInUse(users, b.email) then Reply(users, Error(EmailTaken))
    else if UsernameInUse(users, b.username) then Reply(users, Error(UsernameTaken))
    else
      var u := CreateUser(NextId(users, (x: User) => x.id), b.fullname, b.email, b.username, b.password, hash);
      match Insert(users, u)
      case Err(msg) => Reply(users, Error(msg))
      case Ok(users') => Reply(users', Success(Some(u), "Registration Success"))
  }

  /** Registration keeps email, username and id unique across users. */
  lemma RegisterKeepsAccountsUnique(users: seq<User>, b: RegisterBody, hash: string -> string)
    requires UniqueAccounts(users)
    ensures UniqueAccounts(Register(users, b, hash).store)
  {
    var st := Register(users, b, hash);
    if st.Delivered().meta.status == StatusOk {
      var u := CreateUser(NextId(users, (x: User) => x.id), b.fullname, b.email, b.username, b.password, hash);
      InsertKeepsUnique(users, u);
    }
  }

  /** Registering the same body twice: the second attempt finds the email taken. */
  lemma RegisterTwiceEmailTaken(users: seq<User>, b: RegisterBody, hash: string -> string)
    requires Register(users, b, hash).Delivered().meta.status == StatusOk
    ensures Register(Register(users, b, hash).store, b, hash).Delivered()
      == Error("Email already registered!")
  {
    var s1 := Register(users, b, hash).store;
    assert s1[|users|].email == b.email;
  }

  /** Mismatched confirmation is refused with its message. With string fields
      the schema already refuses it, so the explicit comparison that follows
      can fire only on raw values of different types (a number against its
      own digits), which this model does not represent. */
  lemma MismatchRefused(users: seq<User>, b: RegisterBody, hash: string -> string)
    requires b.fullname != "" && b.email != "" && b.username != ""
    requires Utf16Length(b.password) >= MinPasswordLength && b.confirmPassword != "" && b.confirmPassword != b.password
    ensures Register(users, b, hash) == Reply(users, Error("Confirmation password must match with password!"))
  {
  }

  /** A password shorter than eight UTF-16 code units is refused. */
  lemma ShortPasswordRefused(users: seq<User>, b: RegisterBody, hash: string -> string)
    requires b.fullname != "" && b.email != "" && b.username != ""
    requires 0 < Utf16Length(b.password) < MinPasswordLength
    ensures Register(users, b, hash) == Reply(users, Error("Password must be at least 8 characters"))
  {
  }

  /** Four characters outside the Basic Multilingual Plane are eight code
      units, so they make a long enough password; seven plain characters do not. */
  lemma AstralPasswordLength()
    ensures NewPasswordCheck("password", "\U{1F600}\U{1F600}\U{1F600}\U{1F600}").None?
    ensures NewPasswordCheck("password", "abcdefg") == Some("Password must be at least 8 characters")
  {
    AstralLength("\U{1F600}\U{1F600}\U{1F600}\U{1F600}");
    BmpLength("abcdefg");
  }

  // ---------------------------------------------------------------------
  // login

  datatype LoginBody = LoginBody(identifier: string, password: string)

  function ValidateLogin(b: LoginBody): (r: Option<string>)
    ensures r.None? <==> b.identifier != "" && b.password != ""
  {
    FirstOf(Required("identifier", b.identifier), Required("password", b.password))
  }

  /** The identifier matches a user by email or by username. */
  predicate IdentifiedBy(u: User, identifier: string) {
    u.email == identifier || u.username == identifier
  }

  /** `login`: the first user whose email or username is the identifier; the
      password compared with the stored hash; a signed `{ id, role }` token. */
  function Login(users: seq<User>, b: LoginBody, compare: (string, string) -> bool,
                 sign: TokenClaims -> string): (e: Envelope<string>)
    ensures ValidateLogin(b).Some? ==> e == Error(ValidateLogin(b).value)
    ensures ValidateLogin(b).None? && (forall i :: 0 <= i < |users| ==> !IdentifiedBy(users[i], b.identifier)) ==>
      e == NotFound("User not found!")
    ensures e.meta.status == StatusOk <==>
      ValidateLogin(b).None?
      && (exists i :: 0 <= i < |users| && IdentifiedBy(users[i], b.identifier)
           && (forall j :: 0 <= j < i ==> !IdentifiedBy(users[j], b.identifier))
           && compare(b.password, users[i].password)
           && e == Success(Some(sign(TokenClaims(ObjectId(users[i].id), users[i].role))), "Login success!"))
    ensures e.meta.status == StatusBadRequest && ValidateLogin(b).None? ==>
      e.meta.message == "Identifier or password is incorrect!"
    ensures
      (&& ValidateLogin(b).None?
       && exists i :: 0 <= i < |users| && IdentifiedBy(users[i], b.identifier)
            && (forall j :: 0 <= j < i ==> !IdentifiedBy(users[j], b.identifier))
            && !compare(b.password, users[i].password))
      ==> e == Error("Identifier or password is incorrect!")
  {
    var invalid := ValidateLogin(b);
    if invalid.Some? then Error(invalid.value)
    else
      match FindFirst(users, (u: User) => IdentifiedBy(u, b.identifier))
      case None => NotFound(UserNotFound)
      case Some(i) =>
        if !compare(b.password, users[i].password) then Error(WrongCredentials)
        else Success(Some(sign(TokenClaims(ObjectId(users[i].id), users[i].role))), "Login success!")
  }

  /** A freshly registered user can log in with their email and password, when
      the opaque comparison accepts a password against its own hash and no
      earlier account uses that email as its username. */
  lemma RegisterThenLogin(users: seq<User>, b: RegisterBody, hash: string -> string,
                          compare: (string, string) -> bool, sign: TokenClaims -> string)
    requires Register(users, b, hash).Delivered().meta.status == StatusOk
    requires compare(b.password, hash(b.password))
    requires !UsernameInUse(users, b.email)
    ensures Login(Register(users, b, hash).store, LoginBody(b.email, b.password), compare, sign).meta.status == StatusOk
  {
    var s1 := Register(users, b, hash).store;
    var p := (u: User) => IdentifiedBy(u, b.email);
    forall j | 0 <= j < |users|
      ensures !p(s1[j])
    {
      assert s1[j] == users[j];
    }
    assert p(s1[|users|]);
  }

  // ---------------------------------------------------------------------
  // me

  /** `me`: the caller's own record. */
  function Me(users: seq<User>, caller: IdParam): (e: Envelope<User>)
    ensures caller.Malformed? ==> e == NotFound("Id is not valid")
    ensures caller.ObjectId? && (forall i :: 0 <= i < |users| ==> users[i].id != caller.id) ==>
      e == NotFound("User not found!")
    ensures e.meta.status == StatusOk ==>
      caller.ObjectId? && e.data.Some? && e.data.value in users && e.data.value.id == caller.id
    ensures caller.ObjectId? && (exists i :: 0 <= i < |users| && users[i].id == caller.id) ==>
      e.meta.status == StatusOk
  {
    match caller
    case Malformed => NotFound(IdNotValid)
    case ObjectId(id) =>
      match FindFirst(users, (u: User) => u.id == id)
      case None => NotFound(UserNotFound)
      case Some(i) => Success(Some(users[i]), "Get me success!")
  }

  // ---------------------------------------------------------------------
  // change password

  datatype ChangePasswordBody = ChangePasswordBody(
    currentPassword: string, newPassword: string, confirmNewPassword: string)

  function ValidateChangePassword(b: ChangePasswordBody): (r: Option<string>)
    ensures r.None? <==>
      b.currentPassword != "" && Utf16Length(b.newPassword) >= MinPasswordLength && b.confirmNewPassword == b.newPassword
  {
    FirstOf(Required("currentPassword", b.currentPassword),
    FirstOf(NewPasswordCheck("newPassword", b.newPassword),
            ConfirmationCheck("confirmNewPassword", b.confirmNewPassword, b.newPassword)))
  }

  /** `changePassword`: after validation, the caller's record is looked up, the
      current password compared, and only the password replaced by the hash of
      the new one (an update, so the save hook does not run). */
  function ChangePassword(users: seq<User>, caller: IdParam, b: ChangePasswordBody,
                          hash: string -> string, compare: (string, string) -> bool): (st: Step<seq<User>, User>)
    ensures |st.replies| == 1
    ensures st.Delivered().meta.status != StatusOk ==> st.store == users
    ensures ValidateChangePassword(b).Some? ==> st == Reply(users, Error(ValidateChangePassword(b).value))
    ensures ValidateChangePassword(b).None? && caller.Malformed? ==> st.Delivered() == NotFound("Id is not valid")
    ensures ValidateChangePassword(b).None? && caller.ObjectId? && (forall i :: 0 <= i < |users| ==> users[i].id != caller.id) ==>
      st == Reply(users, NotFoundDefault())
    ensures st.Delivered().meta.status == StatusOk ==>
      caller.ObjectId? && ValidateChangePassword(b).None?
      && (exists i :: 0 <= i < |users| && users[i].id == caller.id
           && compare(b.currentPassword, users[i].password)
           && st.store == users[i := users[i].(password := hash(b.newPassword))])
    ensures
      (&& ValidateChangePassword(b).None? && caller.ObjectId? && UniqueAccounts(users)
       && exists i :: 0 <= i < |users| && users[i].id == caller.id && !compare(b.currentPassword, users[i].password))
      ==> st.Delivered() == Error("Current password is incorrect!")
    ensures
      (&& ValidateChangePassword(b).None? && caller.ObjectId?
       && exists i :: 0 <= i < |users| && users[i].id == caller.id
            && (forall j :: 0 <= j < i ==> users[j].id != caller.id)
            && compare(b.currentPassword, users[i].password))
      ==> st.Delivered().meta == Meta(StatusOk, "Update password success!")
  {
    var invalid := ValidateChangePassword(b);
    if invalid.Some? then Reply(users, Error(invalid.value))
    else if b.newPassword != b.confirmNewPassword then Reply(users, Error(ConfirmationMismatch))
    else match caller
      case Malformed => Reply(users, NotFound(IdNotValid))
      case ObjectId(id) =>
        match FindFirst(users, (u: User) => u.id == id)
        case None => Reply(users, NotFoundDefault())
        case Some(i) =>
          if !compare(b.currentPassword, users[i].password) then Reply(users, Error(WrongCurrentPassword))
          else
            var updated := users[i].(password := hash(b.newPassword));
            Reply(users[i := updated], Success(Some(updated), "Update password success!"))
  }
}

=== FILE: auth_middleware.dfy ===
/** The bearer-token guard in front of the authenticated routes: read the
    `Authorization` header, split it on single spaces, require the first piece
    to be exactly `Bearer` and the second to be non-empty, then hand the token
    to the (opaque) verifier. */
module AuthMiddleware {
  import opened Wrappers
  import opened Text
  import opened Ids
  import opened Response

  /** The payload the login handler signs: `{ id, role }`. */
  datatype TokenClaims = TokenClaims(id: IdParam, role: string)

  datatype AuthOutcome =
    | Rejected(reply: Envelope<()>)
    | Authenticated(claims: TokenClaims)

  const BearerPrefix: string := "Bearer"

  /** The second space-separated piece of the header, when the first is exactly
      `Bearer` and the second is non-empty: the header is `Bearer `, the token,
      then nothing or a space and anything. */
  function BearerToken(h: string): (r: Option<string>)
    ensures r.Some? ==> r.value != [] && ' ' !in r.value
    ensures r.Some? ==> |h| >= 7 + |r.value| && h[..7] == "Bearer " && h[7..7 + |r.value|] == r.value
    ensures r.Some? ==> |h| == 7 + |r.value| || h[7 + |r.value|] == ' '
  {
    var parts := Split(h, ' ');
    var prefix := parts[0];
    var token := if |parts| > 1 then parts[1] else "";
    if prefix == BearerPrefix && token != "" then
      SplitJoin(h, ' ');
      var rest := Join(parts[1..], ' ');
      assert h == prefix + [' '] + rest;
      assert |parts[1..]| == 1 ==> rest == token;
      assert |parts[1..]| > 1 ==> rest == token + [' '] + Join(parts[2..], ' ') by {
        assert parts[1..][1..] == parts[2..];
      }
      Some(token)
    else None
  }

  /** The converse: every header of that shape yields its token. */
  lemma BearerTokenOfShape(token: string, rest: string)
    requires token != [] && ' ' !in token
    requires rest == [] || rest[0] == ' '
    ensures BearerToken("Bearer " + token + rest) == Some(token)
  {
    var h := "Bearer " + token + rest;
    assert h == BearerPrefix + [' '] + (token + rest);
    SplitFirst(BearerPrefix, token + rest, ' ');
    if rest == [] {
      assert token + rest == token;
      SplitNoSeparator(token, ' ');
    } else {
      assert token + rest == token + [' '] + rest[1..];
      SplitFirst(token, rest[1..], ' ');
    }
  }

  /** The middleware: `next()` with the verified claims, or the reply it writes. */
  function Authenticate(header: Option<string>, verify: string -> Result<TokenClaims>): (o: AuthOutcome)
    ensures header.None? || header == Some("") ==> o == Rejected(UnauthorizeDefault())
    ensures header.Some? && BearerToken(header.value).None? ==> o == Rejected(UnauthorizeDefault())
    ensures o.Authenticated? ==>
      header.Some? && BearerToken(header.value).Some? && verify(BearerToken(header.value).value) == Ok(o.claims)
    ensures o.Rejected? && o.reply.meta.status != StatusForbidden ==>
      header.Some? && BearerToken(header.value).Some?
      && verify(BearerToken(header.value).value).Err?
      && o.reply == Error(verify(BearerToken(header.value).value).message)
    ensures header.Some? && BearerToken(header.value).Some? && verify(BearerToken(header.value).value).Ok? ==>
      o == Authenticated(verify(BearerToken(header.value).value).value)
    ensures header.Some? && BearerToken(header.value).Some? && verify(BearerToken(header.value).value).Err? ==>
      o == Rejected(Error(verify(BearerToken(header.value).value).message))
  {
    match header
    case None => Rejected(UnauthorizeDefault())
    case Some(h) =>
      if h == "" then Rejected(UnauthorizeDefault())
      else
        match BearerToken(h)
        case None => Rejected(UnauthorizeDefault())
        case Some(token) =>
          match verify(token)
          case Err(msg) => Rejected(Error(msg))
          case Ok(claims) => Authenticated(claims)
  }

  /** Pieces after the second are ignored: only the token reaches the verifier. */
  lemma TrailingPiecesIgnored(token: string, rest: string, verify: string -> Result<TokenClaims>)
    requires token != [] && ' ' !in token
    requires rest == [] || rest[0] == ' '
    ensures Authenticate(Some("Bearer " + token + rest), verify) == Authenticate(Some("Bearer " + token), verify)
  {
    BearerTokenOfShape(token, rest);
    BearerTokenOfShape(token, []);
    assert "Bearer " + token + [] == "Bearer " + token;
  }

  /** The prefix is compared exactly: a lower-case `bearer` is refused with 403. */
  lemma PrefixIsCaseSensitive(token: string, verify: string -> Result<TokenClaims>)
    requires ' ' !in token
    ensures Authenticate(Some("bearer " + token), verify) == Rejected(UnauthorizeDefault())
  {
    assert "bearer " + token == "bearer" + [' '] + token;
    SplitFirst("bearer", token, ' ');
  }

  /** `Bearer` with no token, or with an empty second piece, is refused with 403. */
  lemma EmptyTokenRefused(rest: string, verify: string -> Result<TokenClaims>)
    ensures Authenticate(Some("Bearer"), verify) == Rejected(UnauthorizeDefault())
    ensures Authenticate(Some("Bearer  " + rest), verify) == Rejected(UnauthorizeDefault())
  {
    SplitNoSeparator("Bearer", ' ');
    assert "Bearer  " + rest == "Bearer" + [' '] + ([] + [' '] + rest);
    SplitFirst("Bearer", [] + [' '] + rest, ' ');
    SplitFirst([], rest, ' ');
  }

  /** A token the verifier rejects gives 400 with the verifier's message, not 403. */
  lemma VerificationFailureIsBadRequest(token: string, verify: string -> Result<TokenClaims>)
    requires token != [] && ' ' !in token
    requires verify(token).Err?
    ensures Authenticate(Some("Bearer " + token), verify) == Rejected(Error(verify(token).message))
  {
    BearerTokenOfShape(token, []);
    assert "Bearer " + token + [] == "Bearer " + token;
  }

  /** A well-formed header whose token the verifier accepts reaches the
      handler with exactly the verified claims, whatever follows the token. */
  lemma VerifiedTokenAuthenticates(token: string, rest: string, verify: string -> Result<TokenClaims>)
    requires token != [] && ' ' !in token
    requires rest == [] || rest[0] == ' '
    requires verify(token).Ok?
    ensures Authenticate(Some("Bearer " + token + rest), verify) == Authenticated(verify(token).value)
  {
    BearerTokenOfShape(token, rest);
  }
}

=== FILE: calendar.dfy ===
/** The proleptic Gregorian calendar, and the date-only strings
    `YYYY-MM-DD` that the transaction handlers build and hand to `new Date`.
    A date-only string denotes midnight of that day; the model has one zone,
    so that midnight is an `Instant` of the timeline. */
module Calendar {
  import opened Wrappers
  import opened Text
  import opened Timeline

  predicate IsLeapYear(y: int) {
    y % 4 == 0 && (y % 100 != 0 || y % 400 == 0)
  }

  function YearLength(y: int): int {
    if IsLeapYear(y) then 366 else 365
  }

  function DaysInMonth(y: int, m: int): (d: int)
    requires 1 <= m <= 12
    ensures 28 <= d <= 31
  {
    if m == 2 then (if IsLeapYear(y) then 29 else 28)
    else if m == 4 || m == 6 || m == 9 || m == 11 then 30
    else 31
  }

  /** Days of year `y` before the first of month `m`. */
  function DaysBeforeMonth(y: int, m: int): int
    requires 1 <= m <= 12
  {
    var table := [0, 31, 59, 90, 120, 151, 181, 212, 243, 273, 304, 334];
    table[m - 1] + (if m > 2 && IsLeapYear(y) then 1 else 0)
  }

  lemma DaysBeforeNextMonth(y: int, m: int)
    requires 1 <= m < 12
    ensures DaysBeforeMonth(y, m + 1) == DaysBeforeMonth(y, m) + DaysInMonth(y, m)
  {
  }

  lemma DecemberEndsYear(y: int)
    ensures DaysBeforeMonth(y, 12) + DaysInMonth(y, 12) == YearLength(y)
  {
  }

  /** Leap years among 1..x. */
  function LeapYearsThrough(x: int): int {
    x / 4 - x / 100 + x / 400
  }

  /** Days from 1970-01-01 to the first of January of year `y`. */
  function DaysBeforeYear(y: int): int {
    365 * (y - 1970) + LeapYearsThrough(y - 1) - LeapYearsThrough(1969)
  }

  /** Stepping from `y - 1` to `y` adds one multiple of 4, 100 or 400
      exactly when that number divides `y`. */
  lemma QuartersStep(y: int)
    ensures y / 4 - (y - 1) / 4 == if y % 4 == 0 then 1 else 0
  {
  }

  lemma CenturiesStep(y: int)
    ensures y / 100 - (y - 1) / 100 == if y % 100 == 0 then 1 else 0
  {
  }

  lemma FourCenturiesStep(y: int)
    ensures y / 400 - (y - 1) / 400 == if y % 400 == 0 then 1 else 0
  {
  }

  lemma LeapYearsStep(y: int)
    ensures LeapYearsThrough(y) - LeapYearsThrough(y - 1) == if IsLeapYear(y) then 1 else 0
  {
    QuartersStep(y);
    CenturiesStep(y);
    FourCenturiesStep(y);
    if y % 100 == 0 { assert y % 4 == 0; }
    if y % 400 == 0 { assert y % 100 == 0; }
  }

  lemma DaysBeforeNextYear(y: int)
    ensures DaysBeforeYear(y + 1) == DaysBeforeYear(y) + YearLength(y)
  {
    LeapYearsStep(y);
  }

  /** Days from 1970-01-01 to the given date. */
  function EpochDay(y: int, m: int, d: int): int
    requires 1 <= m <= 12
  {
    DaysBeforeYear(y) + DaysBeforeMonth(y, m) + d - 1
  }

  /** Midnight at the start of the given date. */
  function Midnight(y: int, m: int, d: int): (t: Instant)
    requires 1 <= m <= 12
    ensures StartOfDay(t) == t
    ensures DayOf(t) == EpochDay(y, m, d)
  {
    EpochDay(y, m, d) * DayMs
  }

  /** The first of the following month is `DaysInMonth` days after the first of this one. */
  lemma MonthLength(y: int, m: int)
    requires 1 <= m <= 12
    ensures m < 12 ==> EpochDay(y, m + 1, 1) == EpochDay(y, m, 1) + DaysInMonth(y, m)
    ensures m == 12 ==> EpochDay(y + 1, 1, 1) == EpochDay(y, 12, 1) + DaysInMonth(y, 12)
  {
    if m < 12 {
      DaysBeforeNextMonth(y, m);
    } else {
      DaysBeforeNextYear(y);
      DecemberEndsYear(y);
    }
  }

  // ---------------------------------------------------------------------
  // date-only text

  /** `${year}-${month.toString().padStart(2, "0")}-01` for the integers read
      from the query. */
  function MonthFirstText(year: int, month: int): string {
    IntText(year) + "-" + PadStart(IntText(month), 2, '0') + "-01"
  }

  /** `new Date(s)` for a date-only string `YYYY-MM-DD`: midnight of that date
      when the text names a real calendar day, nothing otherwise. */
  function ParseIsoDate(s: string): (r: Option<Instant>)
    ensures r.Some? ==> |s| == 10 && StartOfDay(r.value) == r.value
  {
    if |s| == 10 && s[4] == '-' && s[7] == '-'
       && AllDigits(s[..4]) && AllDigits(s[5..7]) && AllDigits(s[8..])
    then
      var y := DecimalValue(s[..4]);
      var m := DecimalValue(s[5..7]);
      var d := DecimalValue(s[8..]);
      if 1 <= m <= 12 && 1 <= d <= DaysInMonth(y, m) then Some(Midnight(y, m, d)) else None
    else None
  }

  /** A month field of 0 to 99 is two digits that read back as the month. */
  lemma PaddedMonthValue(month: nat)
    requires month <= 99
    ensures |PadStart(Decimal(month), 2, '0')| == 2
    ensures AllDigits(PadStart(Decimal(month), 2, '0'))
    ensures DecimalValue(PadStart(Decimal(month), 2, '0')) == month
  {
    var p := PadStart(Decimal(month), 2, '0');
    DecimalRoundTrip(month);
    if month < 10 {
      assert p == ['0'] + Decimal(month);
      assert p[..1] == ['0'];
      assert p[..1][..0] == [];
    } else {
      assert |Decimal(month / 10)| == 1;
      assert p == Decimal(month);
    }
  }

  /** Reading the three fields of a `YYYY-MM-DD` text that names a real day. */
  lemma ParseIsoFields(ys: string, ms: string, ds: string, y: nat, m: nat, d: nat)
    requires |ys| == 4 && |ms| == 2 && |ds| == 2
    requires AllDigits(ys) && AllDigits(ms) && AllDigits(ds)
    requires DecimalValue(ys) == y && DecimalValue(ms) == m && DecimalValue(ds) == d
    requires 1 <= m <= 12 && 1 <= d <= DaysInMonth(y, m)
    ensures ParseIsoDate(ys + "-" + ms + "-" + ds) == Some(Midnight(y, m, d))
  {
    var s := ys + "-" + ms + "-" + ds;
    assert s[..4] == ys;
    assert s[5..7] == ms;
    assert s[8..] == ds;
  }

  /** Round trip: the text the handlers build for the first of a month parses
      back to midnight of that day (for four-digit years). */
  lemma MonthFirstTextParses(year: nat, month: nat)
    requires 1000 <= year <= 9999 && 1 <= month <= 12
    ensures ParseIsoDate(MonthFirstText(year, month)) == Some(Midnight(year, month, 1))
  {
    var ys := Decimal(year);
    var ms := PadStart(Decimal(month), 2, '0');
    MonthFirstTextFields(year, month);
    DecimalLength4(year);
    DecimalRoundTrip(year);
    PaddedMonthValue(month);
    DayOneField();
    ParseIsoFields(ys, ms, "01", year, month, 1);
  }

  /** For non-negative fields the text is the two decimal fields and `-01`. */
  lemma MonthFirstTextFields(year: nat, month: nat)
    ensures MonthFirstText(year, month) == Decimal(year) + "-" + PadStart(Decimal(month), 2, '0') + "-" + "01"
  {
    assert IntText(year) == Decimal(year) && IntText(month) == Decimal(month);
  }

  /** The day field `01` is two digits reading 1. */
  lemma DayOneField()
    ensures |"01"| == 2 && AllDigits("01") && DecimalValue("01") == 1
  {
    assert "01"[..1] == "0";
    assert "0"[..0] == [];
  }

  /** With a four-digit year, a month outside 1 to 12 yields a text that does
      not parse: too long, signed, or a month field out of range. */
  lemma OutOfRangeMonthTextFails(year: int, month: int)
    requires 1000 <= year <= 9999 && !(1 <= month <= 12)
    ensures ParseIsoDate(MonthFirstText(year, month)).None?
  {
    var ms := PadStart(IntText(month), 2, '0');
    var s := MonthFirstText(year, month);
    DecimalLength4(year);
    assert s == Decimal(year) + "-" + ms + "-01";
    if |s| == 10 {
      assert s[5..7] == ms;
      MonthFieldRejected(month);
    }
  }

  /** Numbers from 100 on print with at least three digits. */
  lemma DecimalThreeDigits(n: nat)
    requires n >= 100
    ensures |Decimal(n)| >= 3
  {
    assert Decimal(n) == Decimal(n / 10) + [DigitChar(n % 10)];
    assert |Decimal(n / 10)| >= 2;
  }

  /** The month field of a month outside 1 to 12, when two characters long,
      is either not all digits or reads as a number outside 1 to 12. */
  lemma MonthFieldRejected(month: int)
    requires !(1 <= month <= 12)
    ensures var ms := PadStart(IntText(month), 2, '0');
      |ms| == 2 ==> !AllDigits(ms) || !(1 <= DecimalValue(ms) <= 12)
  {
    var ms := PadStart(IntText(month), 2, '0');
    if month < 0 {
      assert ms == IntText(month);
      assert !IsDigit(ms[0]);
    } else if month >= 100 {
      DecimalThreeDigits(month);
    } else {
      PaddedMonthValue(month);
    }
  }

}

=== FILE: ids.dfy ===
/** Identifiers. Document ids are abstract naturals; an id taken from a request
    path is either one that `isValidObjectId` accepts or one it rejects. */
module Ids {

  type UserId = nat

  type DocId = nat

  datatype IdParam = ObjectId(id: DocId) | Malformed
}

=== FILE: note_controller.dfy ===
/** The note handlers over an owner-scoped store: create and pin toggle with
    the limit of three pinned notes per owner, list, find, update and delete.
    Full-text search is an opaque predicate passed in. */
module NoteController {
  import opened Wrappers
  import opened Seqs
  import opened Ids
  import opened Timeline
  import opened Response
  import opened Pagination
  import opened NoteModel
  import opened Text

  const MaxPinned: nat := 3
  const MaxPinnedReached: string := "Maximum pinned notes reached! (Max: 3)"
  const NoteNotFound: string := "Note not found!"

  /** A note that counts toward `owner`'s pin limit. */
  function PinnedBy(owner: UserId): Note -> bool {
    (n: Note) => n.isPinned && n.userId == owner
  }

  /** `countDocuments({ isPinned: true, userId })`. */
  function PinnedCount(notes: seq<Note>, owner: UserId): nat {
    Count(notes, PinnedBy(owner))
  }

  /** The pin limit: no owner has more than three pinned notes. */
  ghost predicate WithinPinLimit(notes: seq<Note>) {
    forall owner: UserId :: PinnedCount(notes, owner) <= MaxPinned
  }

  /** The note `id` when it belongs to `owner`: `findOne({ _id: id, userId })`. */
  function OwnedBy(id: DocId, owner: UserId): Note -> bool {
    (n: Note) => n.id == id && n.userId == owner
  }

  // ---------------------------------------------------------------------
  // create

  /** `create`: validate; when the raw `isPinned` is truthy, refuse if the
      caller already has three or more pinned notes; then store the note with
      the pin the store casts from the raw value. */
  function CreateNote(notes: seq<Note>, caller: UserId, b: NoteBody, now: Instant): (st: Step<seq<Note>, Note>)
    ensures |st.replies| == 1
    ensures ValidateNote(b).Some? ==> st == Reply(notes, Error(ValidateNote(b).value))
    ensures ValidateNote(b).None? && Truthy(b.isPinned) && PinnedCount(notes, caller) >= MaxPinned ==>
      st == Reply(notes, Error("Maximum pinned notes reached! (Max: 3)"))
    ensures
      (&& ValidateNote(b).None? && !(Truthy(b.isPinned) && PinnedCount(notes, caller) >= MaxPinned)
       && StoredPin(b.isPinned).None?)
      ==> st == Reply(notes, Error(PinCastError(b.isPinned)))
    ensures st.Delivered().meta.status == StatusOk <==>
      ValidateNote(b).None? && (Truthy(b.isPinned) ==> PinnedCount(notes, caller) < MaxPinned)
      && StoredPin(b.isPinned).Some?
    ensures st.Delivered().meta.status != StatusOk ==> st.store == notes
    ensures st.Delivered().meta.status == StatusOk ==>
      |st.store| == |notes| + 1 && st.store[..|notes|] == notes
      && st.Delivered() == Success(Some(st.store[|notes|]), "Create note success!")
      && st.store[|notes|].userId == caller && st.store[|notes|].title == b.title
      && st.store[|notes|].content == b.content && Some(st.store[|notes|].isPinned) == StoredPin(b.isPinned)
      && (forall i :: 0 <= i < |notes| ==> notes[i].id != st.store[|notes|].id)
  {
    var invalid := ValidateNote(b);
    if invalid.Some? then Reply(notes, Error(invalid.value))
    else if Truthy(b.isPinned) && PinnedCount(notes, caller) >= MaxPinned then
      Reply(notes, Error(MaxPinnedReached))
    else
      match StoredPin(b.isPinned)
      case None => Reply(notes, Error(PinCastError(b.isPinned)))
      case Some(pinned) =>
        var n := NewNote(NextId(notes, (x: Note) => x.id), b, pinned, caller, now);
        Reply(notes + [n], Success(Some(n), "Create note success!"))
  }

  /** A body pin of "false" is truthy, so at the limit it is refused although
      the note it asks for would not be pinned. */
  lemma FalsePinRefusedAtLimit(notes: seq<Note>, caller: UserId, title: string, content: string, now: Instant)
    requires 0 < Utf16Length(title) <= 100 && 0 < Utf16Length(content) <= 5000
    requires PinnedCount(notes, caller) >= MaxPinned
    ensures CreateNote(notes, caller, NoteBody(title, content, JsonString("false")), now)
      == Reply(notes, Error("Maximum pinned notes reached! (Max: 3)"))
  {
    FalseStringsAreTruthy();
  }

  lemma CreateKeepsPinLimit(notes: seq<Note>, caller: UserId, b: NoteBody, now: Instant)
    requires WithinPinLimit(notes)
    ensures WithinPinLimit(CreateNote(notes, caller, b, now).store)
  {
    var st := CreateNote(notes, caller, b, now);
    if st.Delivered().meta.status == StatusOk {
      var n := st.store[|notes|];
      assert st.store == notes + [n];
      StoredPinIsTruthy(b.isPinned);
      forall owner: UserId
        ensures PinnedCount(st.store, owner) <= MaxPinned
      {
        assert PinnedCount(notes, owner) <= MaxPinned;
        CountAppend(notes, [n], PinnedBy(owner));
        CountSingleton(n, PinnedBy(owner));
        assert PinnedBy(owner)(n) ==> owner == caller && Truthy(b.isPinned);
      }
    }
  }

  // ---------------------------------------------------------------------
  // pin toggle

  /** The data of a toggle reply: `{ isPinned, noteId }`. */
  datatype PinState = PinState(isPinned: bool, noteId: DocId)

  /** `switchPinStatus`: the caller's note flips its pin; pinning is refused
      when the caller already has three or more pinned notes, unpinning never
      is. The save leaves `lastEdited` alone (the content is not modified). */
  function SwitchPin(notes: seq<Note>, caller: UserId, id: IdParam, now: Instant): (st: Step<seq<Note>, PinState>)
    ensures |st.replies| == 1
    ensures id.Malformed? ==> st == Reply(notes, NotFound("Id is not valid!"))
    ensures id.ObjectId? && (forall i :: 0 <= i < |notes| ==> !OwnedBy(id.id, caller)(notes[i])) ==>
      st == Reply(notes, NotFound("Note not found!"))
    ensures st.Delivered().meta.status != StatusOk ==> st.store == notes
    ensures st.Delivered().meta.status == StatusOk ==>
      id.ObjectId?
      && (exists i :: 0 <= i < |notes| && OwnedBy(id.id, caller)(notes[i])
           && st.store == notes[i := notes[i].(isPinned := !notes[i].isPinned)]
           && (!notes[i].isPinned ==> PinnedCount(notes, caller) < MaxPinned)
           && st.Delivered().data == Some(PinState(!notes[i].isPinned, id.id)))
    ensures id.ObjectId? && FindFirst(notes, OwnedBy(id.id, caller)).Some? ==>
      var i := FindFirst(notes, OwnedBy(id.id, caller)).value;
      (notes[i].isPinned || PinnedCount(notes, caller) < MaxPinned) ==>
        st.Delivered() == Success(Some(PinState(!notes[i].isPinned, id.id)),
                                  if notes[i].isPinned then "Note unpinned success!" else "Note pinned success!")
  {
    match id
    case Malformed => Reply(notes, NotFound("Id is not valid!"))
    case ObjectId(nid) =>
      match FindFirst(notes, OwnedBy(nid, caller))
      case None => Reply(notes, NotFound(NoteNotFound))
      case Some(i) =>
        var note := notes[i];
        if !note.isPinned && PinnedCount(notes, caller) >= MaxPinned then Reply(notes, Error(MaxPinnedReached))
        else
          var toggled := PreSave(note.(isPinned := !note.isPinned), false, now);
          Reply(notes[i := toggled],
                Success(Some(PinState(toggled.isPinned, toggled.id)),
                        if toggled.isPinned then "Note pinned success!" else "Note unpinned success!"))
  }

  /** Toggling a pinned note always succeeds and unpins it. */
  lemma UnpinAlwaysSucceeds(notes: seq<Note>, caller: UserId, nid: DocId, now: Instant, i: nat)
    requires i < |notes| && OwnedBy(nid, caller)(notes[i]) && notes[i].isPinned
    requires forall j :: 0 <= j < i ==> !OwnedBy(nid, caller)(notes[j])
    ensures SwitchPin(notes, caller, ObjectId(nid), now)
      == Reply(notes[i := notes[i].(isPinned := false)], Success(Some(PinState(false, nid)), "Note unpinned success!"))
  {
  }

  /** With three pinned notes, pinning a fourth is refused and nothing changes. */
  lemma FourthPinRefused(notes: seq<Note>, caller: UserId, nid: DocId, now: Instant, i: nat)
    requires i < |notes| && OwnedBy(nid, caller)(notes[i]) && !notes[i].isPinned
    requires forall j :: 0 <= j < i ==> !OwnedBy(nid, caller)(notes[j])
    requires PinnedCount(notes, caller) >= MaxPinned
    ensures SwitchPin(notes, caller, ObjectId(nid), now) == Reply(notes, Error("Maximum pinned notes reached! (Max: 3)"))
  {
  }

  lemma SwitchPinKeepsPinLimit(notes: seq<Note>, caller: UserId, id: IdParam, now: Instant)
    requires WithinPinLimit(notes)
    ensures WithinPinLimit(SwitchPin(notes, caller, id, now).store)
  {
    match id
    case Malformed =>
    case ObjectId(nid) =>
      match FindFirst(notes, OwnedBy(nid, caller))
      case None =>
      case Some(i) =>
        var note := notes[i];
        if note.isPinned || PinnedCount(notes, caller) < MaxPinned {
          var toggled := note.(isPinned := !note.isPinned);
          var after := notes[i := toggled];
          assert SwitchPin(notes, caller, id, now).store == after;
          forall owner: UserId
            ensures PinnedCount(after, owner) <= MaxPinned
          {
            assert PinnedCount(notes, owner) <= MaxPinned;
            CountUpdate(notes, i, toggled, PinnedBy(owner));
            assert PinnedBy(owner)(toggled) ==> owner == caller && !note.isPinned;
          }
        }
  }

  // ---------------------------------------------------------------------
  // delete

  /** `delete`: removes the caller's note `id` if there is one and replies
      success either way, with the deleted note or null. */
  function DeleteNote(notes: seq<Note>, caller: UserId, id: IdParam): (st: Step<seq<Note>, Note>)
    ensures |st.replies| == 1
    ensures id.Malformed? ==> st == Reply(notes, NotFound("Id is not found!"))
    ensures id.ObjectId? ==> st.Delivered().meta.status == StatusOk
    ensures id.ObjectId? && (forall i :: 0 <= i < |notes| ==> !OwnedBy(id.id, caller)(notes[i])) ==>
      st == Reply(notes, Success(None, "Delete note success!"))
    ensures |st.store| == |notes| || |st.store| == |notes| - 1
    ensures forall j :: 0 <= j < |st.store| ==> st.store[j] in notes
    ensures forall j :: 0 <= j < |notes| && notes[j].userId != caller ==> notes[j] in st.store
    ensures st.Delivered().data.None? ==> st.store == notes
    ensures id.ObjectId? && (exists i :: 0 <= i < |notes| && OwnedBy(id.id, caller)(notes[i])) ==>
      st.Delivered().data.Some?
    ensures st.Delivered().data.Some? ==>
      id.ObjectId? && st.Delivered().data.value.id == id.id && st.Delivered().data.value.userId == caller
      && multiset(st.store) + multiset{st.Delivered().data.value} == multiset(notes)
  {
    match id
    case Malformed => Reply(notes, NotFound("Id is not found!"))
    case ObjectId(nid) =>
      match FindFirst(notes, OwnedBy(nid, caller))
      case None => Reply(notes, Success(None, "Delete note success!"))
      case Some(i) =>
        var r := RemoveAt(notes, i);
        RemoveAtKeepsOthers(notes, i);
        Reply(r, Success(Some(notes[i]), "Delete note success!"))
  }

  lemma DeleteKeepsPinLimit(notes: seq<Note>, caller: UserId, id: IdParam)
    requires WithinPinLimit(notes)
    ensures WithinPinLimit(DeleteNote(notes, caller, id).store)
  {
    match id
    case Malformed =>
    case ObjectId(nid) =>
      match FindFirst(notes, OwnedBy(nid, caller))
      case None =>
      case Some(i) =>
        forall owner: UserId
          ensures PinnedCount(RemoveAt(notes, i), owner) <= MaxPinned
        {
          assert PinnedCount(notes, owner) <= MaxPinned;
          CountRemoveAt(notes, i, PinnedBy(owner));
        }
  }

  // ---------------------------------------------------------------------
  // find one

  /** `findOne`: the caller's note. When it is missing the handler writes the
      404 and then, with no `return`, also the success reply. */
  function FindOneNote(notes: seq<Note>, caller: UserId, id: IdParam): (st: Step<seq<Note>, Note>)
    ensures st.store == notes && |st.replies| >= 1
    ensures id.Malformed? ==> st.replies == [NotFound("Id is not found!")]
    ensures id.ObjectId? && (forall i :: 0 <= i < |notes| ==> !OwnedBy(id.id, caller)(notes[i])) ==>
      st.replies == [NotFoundDefault(), Success(None, "Success get one transaction!")]
    ensures st.Delivered().meta.status == StatusOk ==>
      |st.replies| == 1 && st.Delivered().data.Some?
      && st.Delivered().data.value in notes && st.Delivered().data.value.userId == caller
      && id.ObjectId? && st.Delivered().data.value.id == id.id
    ensures id.ObjectId? && (exists i :: 0 <= i < |notes| && OwnedBy(id.id, caller)(notes[i])) ==>
      st.Delivered().meta == Meta(StatusOk, "Success get one transaction!")
  {
    match id
    case Malformed => Reply(notes, NotFound("Id is not found!"))
    case ObjectId(nid) =>
      match FindFirst(notes, OwnedBy(nid, caller))
      case None => Step(notes, [NotFoundDefault(), Success(None, "Success get one transaction!")])
      case Some(i) => Reply(notes, Success(Some(notes[i]), "Success get one transaction!"))
  }

  // ---------------------------------------------------------------------
  // update

  /** An update body; an absent field is left as it is. */
  datatype NoteUpdate = NoteUpdate(title: Option<string>, content: Option<string>)

  function ApplyUpdate(n: Note, u: NoteUpdate): (r: Note)
    ensures r.title == u.title.GetOr(n.title) && r.content == u.content.GetOr(n.content)
    ensures r.(title := n.title, content := n.content) == n
  {
    n.(title := u.title.GetOr(n.title), content := u.content.GetOr(n.content))
  }

  /** The update filter as written: id, owner, and `lastEdited` equal to the
      request instant. */
  function UpdateFilterAsWritten(id: DocId, owner: UserId, now: Instant): Note -> bool {
    (n: Note) => n.id == id && n.userId == owner && n.lastEdited == Some(now)
  }

  /** `update` as written. The body's validity (its update schema is defined
      outside the note model file) is passed in as `invalid`. The filter
      requires `lastEdited` to equal the request instant, and the update does
      not touch `lastEdited` (an update runs no save hook). The reply is a
      success either way, with the updated note or null. */
  function UpdateNote(notes: seq<Note>, caller: UserId, id: IdParam, invalid: Option<string>,
                      u: NoteUpdate, now: Instant): (st: Step<seq<Note>, Note>)
    ensures |st.replies| == 1
    ensures id.Malformed? ==> st == Reply(notes, NotFound("Invalid Id!"))
    ensures id.ObjectId? && invalid.Some? ==> st == Reply(notes, Error(invalid.value))
    ensures id.ObjectId? && invalid.None? ==> st.Delivered().meta.status == StatusOk
    ensures st.store != notes ==>
      id.ObjectId? &&
      exists i :: 0 <= i < |notes| && notes[i].id == id.id && notes[i].userId == caller
        && notes[i].lastEdited == Some(now) && st.store == notes[i := ApplyUpdate(notes[i], u)]
  {
    match id
    case Malformed => Reply(notes, NotFound("Invalid Id!"))
    case ObjectId(nid) =>
      if invalid.Some? then Reply(notes, Error(invalid.value))
      else
        match FindFirst(notes, UpdateFilterAsWritten(nid, caller, now))
        case None => Reply(notes, Success(None, "Update note success!"))
        case Some(i) =>
          var updated := ApplyUpdate(notes[i], u);
          Reply(notes[i := updated], Success(Some(updated), "Update note success!"))
  }

  /** The discrepancy: a note whose last edit was at any other instant than the
      request's is never updated, and the client still gets 200 with null data. */
  lemma UpdateMissesEarlierEdits(notes: seq<Note>, caller: UserId, nid: DocId, u: NoteUpdate, now: Instant)
    requires forall i :: 0 <= i < |notes| ==> notes[i].lastEdited != Some(now)
    ensures UpdateNote(notes, caller, ObjectId(nid), None, u, now)
      == Reply(notes, Success(None, "Update note success!"))
  {
  }

  /** The evidently intended update: match the caller's note by id, write the
      new title and content, and stamp `lastEdited` with the request instant. */
  function UpdateNoteIntended(notes: seq<Note>, caller: UserId, id: IdParam, invalid: Option<string>,
                              u: NoteUpdate, now: Instant): (st: Step<seq<Note>, Note>)
    ensures |st.replies| == 1
    ensures id.Malformed? ==> st == Reply(notes, NotFound("Invalid Id!"))
    ensures id.ObjectId? && invalid.Some? ==> st == Reply(notes, Error(invalid.value))
    ensures id.ObjectId? && invalid.None? && (forall i :: 0 <= i < |notes| ==> !OwnedBy(id.id, caller)(notes[i])) ==>
      st == Reply(notes, Success(None, "Update note success!"))
    ensures st.store != notes || st.Delivered().data.Some? ==>
      id.ObjectId? && invalid.None? &&
      exists i :: 0 <= i < |notes| && OwnedBy(id.id, caller)(notes[i])
        && st.store == notes[i := ApplyUpdate(notes[i], u).(lastEdited := Some(now))]
        && st.Delivered().data == Some(st.store[i])
  {
    match id
    case Malformed => Reply(notes, NotFound("Invalid Id!"))
    case ObjectId(nid) =>
      if invalid.Some? then Reply(notes, Error(invalid.value))
      else
        match FindFirst(notes, OwnedBy(nid, caller))
        case None => Reply(notes, Success(None, "Update note success!"))
        case Some(i) =>
          var updated := ApplyUpdate(notes[i], u).(lastEdited := Some(now));
          Reply(notes[i := updated], Success(Some(updated), "Update note success!"))
  }

  /** The intended update reaches every note of the caller's, whatever its last edit time. */
  lemma IntendedUpdateFindsOwnedNote(notes: seq<Note>, caller: UserId, nid: DocId, u: NoteUpdate, now: Instant, i: nat)
    requires i < |notes| && OwnedBy(nid, caller)(notes[i])
    ensures UpdateNoteIntended(notes, caller, ObjectId(nid), None, u, now).Delivered().data.Some?
    ensures UpdateNoteIntended(notes, caller, ObjectId(nid), None, u, now).Delivered().data.value.lastEdited == Some(now)
  {
  }

  /** Replacing a note by one with the same pin and owner keeps the pin limit. */
  lemma ReplaceKeepsPinLimit(notes: seq<Note>, i: nat, x: Note)
    requires i < |notes| && WithinPinLimit(notes)
    requires x.isPinned == notes[i].isPinned && x.userId == notes[i].userId
    ensures WithinPinLimit(notes[i := x])
  {
    var after := notes[i := x];
    forall owner: UserId
      ensures PinnedCount(after, owner) <= MaxPinned
    {
      assert PinnedCount(notes, owner) <= MaxPinned;
      CountUpdate(notes, i, x, PinnedBy(owner));
    }
  }

  lemma UpdateKeepsPinLimit(notes: seq<Note>, caller: UserId, id: IdParam, invalid: Option<string>, u: NoteUpdate, now: Instant)
    requires WithinPinLimit(notes)
    ensures WithinPinLimit(UpdateNote(notes, caller, id, invalid, u, now).store)
    ensures WithinPinLimit(UpdateNoteIntended(notes, caller, id, invalid, u, now).store)
  {
    var s1 := UpdateNote(notes, caller, id, invalid, u, now).store;
    if s1 != notes {
      var i :| 0 <= i < |notes| && s1 == notes[i := ApplyUpdate(notes[i], u)];
      ReplaceKeepsPinLimit(notes, i, ApplyUpdate(notes[i], u));
    }
    var s2 := UpdateNoteIntended(notes, caller, id, invalid, u, now).store;
    if s2 != notes {
      var i :| 0 <= i < |notes| && s2 == notes[i := ApplyUpdate(notes[i], u).(lastEdited := Some(now))];
      ReplaceKeepsPinLimit(notes, i, ApplyUpdate(notes[i], u).(lastEdited := Some(now)));
    }
  }

  // ---------------------------------------------------------------------
  // any sequence of writes

  datatype NoteOp =
    | Create(caller: UserId, body: NoteBody, at: Instant)
    | Toggle(caller: UserId, id: IdParam, at: Instant)
    | Delete(caller: UserId, id: IdParam)
    | Update(caller: UserId, id: IdParam, invalid: Option<string>, change: NoteUpdate, at: Instant)

  function Apply(notes: seq<Note>, op: NoteOp): seq<Note> {
    match op
    case Create(c, b, t) => CreateNote(notes, c, b, t).store
    case Toggle(c, id, t) => SwitchPin(notes, c, id, t).store
    case Delete(c, id) => DeleteNote(notes, c, id).store
    case Update(c, id, inv, ch, t) => UpdateNoteIntended(notes, c, id, inv, ch, t).store
  }

  function Run(notes: seq<Note>, ops: seq<NoteOp>): seq<Note>
    decreases |ops|
  {
    if |ops| == 0 then notes else Run(Apply(notes, ops[0]), ops[1..])
  }

  /** The pin limit holds after any sequence of creates, toggles, deletes and
      updates performed one after another. */
  lemma {:induction false} RunKeepsPinLimit(notes: seq<Note>, ops: seq<NoteOp>)
    requires WithinPinLimit(notes)
    ensures WithinPinLimit(Run(notes, ops))
    decreases |ops|
  {
    if |ops| > 0 {
      match ops[0] {
        case Create(c, b, t) => CreateKeepsPinLimit(notes, c, b, t);
        case Toggle(c, id, t) => SwitchPinKeepsPinLimit(notes, c, id, t);
        case Delete(c, id) => DeleteKeepsPinLimit(notes, c, id);
        case Update(c, id, inv, ch, t) => UpdateKeepsPinLimit(notes, c, id, inv, ch, t);
      }
      RunKeepsPinLimit(Apply(notes, ops[0]), ops[1..]);
    }
  }

  // ---------------------------------------------------------------------
  // list

  /** The list predicate: always the owner; text search and the pin filter only
      when given (the pin filter is the raw query string). */
  datatype NoteQuery = NoteQuery(userId: UserId, search: Option<string>, isPinned: Option<string>)

  function BuildNoteQuery(caller: UserId, search: string, isPinned: string): (q: NoteQuery)
    ensures q.userId == caller
    ensures q.search.Some? <==> search != ""
    ensures q.search.Some? ==> q.search.value == search
    ensures q.isPinned.Some? <==> isPinned != ""
    ensures q.isPinned.Some? ==> q.isPinned.value == isPinned
  {
    NoteQuery(caller,
              if search != "" then Some(search) else None,
              if isPinned != "" then Some(isPinned) else None)
  }

  /** The notes a query selects (a pin filter that does not cast selects nothing). */
  function NoteMatches(q: NoteQuery, textHit: (string, Note) -> bool): Note -> bool {
    (n: Note) =>
      && n.userId == q.userId
      && (q.search.Some? ==> textHit(q.search.value, n))
      && (q.isPinned.Some? ==> CastBoolean(q.isPinned.value) == Some(n.isPinned))
  }

  /** `findAll`: the page of the caller's matching notes (in store order) and
      the page meta; a pin filter the store cannot read as a boolean is a cast
      error, answered with 400. */
  function FindAllNotes(notes: seq<Note>, caller: UserId, search: string, isPinned: string,
                        page: int, limit: int, textHit: (string, Note) -> bool): (r: ListReply<Note>)
    requires page >= 1 && limit > 0
    ensures r.Refused? <==> isPinned != "" && CastBoolean(isPinned).None?
    ensures r.Listed? ==> |r.listing.data| <= limit
    ensures r.Listed? ==> forall i :: 0 <= i < |r.listing.data| ==>
      r.listing.data[i] in notes && r.listing.data[i].userId == caller
      && (search != "" ==> textHit(search, r.listing.data[i]))
      && (isPinned != "" ==> Some(r.listing.data[i].isPinned) == CastBoolean(isPinned))
    ensures r.Listed? ==> r.listing.pagination.total == Count(notes, NoteMatches(BuildNoteQuery(caller, search, isPinned), textHit))
    ensures r.Listed? ==>
      && r.listing.message == "Get notes success!"
      && r.listing.data == Page(Filter(notes, NoteMatches(BuildNoteQuery(caller, search, isPinned), textHit)), page, limit)
      && |r.listing.data| == PageSize(r.listing.pagination.total, page, limit)
      && r.listing.pagination == PageMeta(page, TotalPages(r.listing.pagination.total, limit), r.listing.pagination.total)
  {
    var q := BuildNoteQuery(caller, search, isPinned);
    if q.isPinned.Some? && CastBoolean(q.isPinned.value).None? then
      Refused(Meta(StatusBadRequest, "Cast to Boolean failed for value \"" + isPinned + "\" (type string) at path \"isPinned\" for model \"Note\""))
    else
      var matched := Filter(notes, NoteMatches(q, textHit));
      var pageRecords := Page(matched, page, limit);
      PageOfFilter(notes, NoteMatches(q, textHit), page, limit);
      Listed(Listing("Get notes success!", pageRecords, PageMetaOf(|matched|, page, limit)))
  }

  /** The pages `findAll` serves for one search, pin filter and page size. */
  function NotePages(notes: seq<Note>, caller: UserId, search: string, isPinned: string, limit: int,
                     textHit: (string, Note) -> bool): int -> seq<Note>
    requires limit > 0
  {
    (p: int) =>
      if p >= 1 then
        match FindAllNotes(notes, caller, search, isPinned, p, limit, textHit)
        case Listed(l) => l.data
        case Refused(_) => []
      else []
  }

  /** Requesting pages 1 to `totalPage` returns every matching note exactly once. */
  lemma NotePagesCoverMatches(notes: seq<Note>, caller: UserId, search: string, isPinned: string, limit: int,
                              textHit: (string, Note) -> bool)
    requires limit > 0
    requires isPinned == "" || CastBoolean(isPinned).Some?
    ensures FindAllNotes(notes, caller, search, isPinned, 1, limit, textHit).Listed?
    ensures Walk(NotePages(notes, caller, search, isPinned, limit, textHit),
                 FindAllNotes(notes, caller, search, isPinned, 1, limit, textHit).listing.pagination.totalPage)
      == Filter(notes, NoteMatches(BuildNoteQuery(caller, search, isPinned), textHit))
  {
    var m := Filter(notes, NoteMatches(BuildNoteQuery(caller, search, isPinned), textHit));
    var pages := NotePages(notes, caller, search, isPinned, limit, textHit);
    forall p | p >= 1
      ensures pages(p) == Page(m, p, limit)
    {
      assert FindAllNotes(notes, caller, search, isPinned, p, limit, textHit).Listed?;
    }
    WalkCoversAll(pages, m, limit);
  }
}

=== FILE: note_model.dfy ===
/** The note record: body limits of the create schema, the `isPinned`
    default and casts, and the pre-save hook that stamps `lastEdited`. */
module NoteModel {
  import opened Wrappers
  import opened Ids
  import opened Timeline
  import opened Text

  const MaxTitleLength: nat := 100
  const MaxContentLength: nat := 5000

  datatype Note = Note(
    id: DocId,
    title: string,
    content: string,
    isPinned: bool,
    lastEdited: Option<Instant>,
    userId: UserId)

  /** A JSON body value as the request delivers it, before any cast. */
  datatype JsonValue = Missing | JsonBool(flag: bool) | JsonString(text: string) | JsonNumber(number: int)

  /** A create body; `isPinned` is the raw value the client sent. */
  datatype NoteBody = NoteBody(title: string, content: string, isPinned: JsonValue)

  /** JavaScript truthiness of a raw value, as `if (isPinned)` tests it. */
  predicate Truthy(v: JsonValue) {
    match v
    case Missing => false
    case JsonBool(b) => b
    case JsonString(s) => s != ""
    case JsonNumber(n) => n != 0
  }

  /** The validator's `boolean()`: booleans pass, and so do the values it can
      coerce, the strings "true", "1", "false" and "0" in any letter case and
      the numbers 1 and 0; an absent value passes, the field being optional. */
  predicate SchemaBoolean(v: JsonValue) {
    match v
    case Missing => true
    case JsonBool(_) => true
    case JsonString(s) => AsciiLower(s) in ["true", "1", "false", "0"]
    case JsonNumber(n) => n == 0 || n == 1
  }

  /** The store's cast of a string to a boolean. */
  function CastBoolean(s: string): (r: Option<bool>)
    ensures r == Some(true) <==> s == "true" || s == "1" || s == "yes"
    ensures r == Some(false) <==> s == "false" || s == "0" || s == "no"
  {
    if s == "true" || s == "1" || s == "yes" then Some(true)
    else if s == "false" || s == "0" || s == "no" then Some(false)
    else None
  }

  /** The pin a new document stores for the raw body value: the schema
      default `false` when absent, the store's boolean cast otherwise, and
      nothing when the cast fails. */
  function StoredPin(v: JsonValue): (r: Option<bool>)
    ensures v.Missing? ==> r == Some(false)
    ensures v.JsonBool? ==> r == Some(v.flag)
    ensures v.JsonString? ==> r == CastBoolean(v.text)
    ensures v.JsonNumber? ==> (r.Some? <==> v.number == 0 || v.number == 1)
    ensures v.JsonNumber? && r.Some? ==> (r.value <==> v.number == 1)
  {
    match v
    case Missing => Some(false)
    case JsonBool(b) => Some(b)
    case JsonString(s) => CastBoolean(s)
    case JsonNumber(n) => if n == 1 then Some(true) else if n == 0 then Some(false) else None
  }

  /** A value stored as pinned was truthy: the count check before create saw it. */
  lemma StoredPinIsTruthy(v: JsonValue)
    ensures StoredPin(v) == Some(true) ==> Truthy(v)
  {
  }

  /** The strings "false" and "0" pass the validator and are stored unpinned,
      yet as raw strings they are truthy. */
  lemma FalseStringsAreTruthy()
    ensures SchemaBoolean(JsonString("false")) && Truthy(JsonString("false"))
    ensures StoredPin(JsonString("false")) == Some(false)
    ensures SchemaBoolean(JsonString("0")) && Truthy(JsonString("0"))
    ensures StoredPin(JsonString("0")) == Some(false)
  {
    assert AsciiLower("false") == "false";
    assert AsciiLower("0") == "0";
  }

  /** The validator lower-cases before it compares and the store does not:
      "TRUE" passes the one and fails the other. */
  lemma UpperCaseTrueFailsCast()
    ensures SchemaBoolean(JsonString("TRUE")) && StoredPin(JsonString("TRUE")).None?
  {
    assert AsciiLower("TRUE") == "true";
  }

  /** How the validator prints a raw value in its type-error message. */
  function PrintValue(v: JsonValue): string {
    match v
    case Missing => "undefined"
    case JsonBool(b) => if b then "true" else "false"
    case JsonString(s) => "\"" + s + "\""
    case JsonNumber(n) => IntText(n)
  }

  /** The validator's type error for `isPinned`. */
  function PinTypeError(v: JsonValue): string {
    "isPinned must be a `boolean` type, but the final value was: `" + PrintValue(v) + "`."
  }

  /** The store's validation error when it cannot cast `isPinned`. */
  function PinCastError(v: JsonValue): string {
    "Note validation failed: isPinned: Cast to Boolean failed for value " + PrintValue(v)
      + " (type " + (if v.JsonNumber? then "number" else "string") + ") at path \"isPinned\""
  }

  /** The schema validator's message for a string over its maximum length. */
  function MaxMessage(field: string, max: nat): string {
    field + " must be at most " + (if max == 100 then "100" else "5000") + " characters"
  }

  /** A required string of bounded JavaScript length (UTF-16 code units). */
  function BoundedRequired(field: string, value: string, max: nat): (r: Option<string>)
    requires max == MaxTitleLength || max == MaxContentLength
    ensures r.None? <==> 0 < Utf16Length(value) <= max
  {
    if value == "" then Some(field + " is a required field")
    else if Utf16Length(value) > max then Some(MaxMessage(field, max))
    else None
  }

  /** The create schema: title of 1 to 100 code units, content of 1 to 5000,
      and a pin the validator reads as a boolean; the first failure in that
      order supplies the message. */
  function ValidateNote(b: NoteBody): (r: Option<string>)
    ensures r.None? <==>
      0 < Utf16Length(b.title) <= 100 && 0 < Utf16Length(b.content) <= 5000 && SchemaBoolean(b.isPinned)
    ensures 0 < Utf16Length(b.title) <= 100 && 0 < Utf16Length(b.content) <= 5000 && !SchemaBoolean(b.isPinned) ==>
      r == Some(PinTypeError(b.isPinned))
  {
    var t := BoundedRequired("title", b.title, MaxTitleLength);
    if t.Some? then t
    else
      var c := BoundedRequired("content", b.content, MaxContentLength);
      if c.Some? then c
      else if !SchemaBoolean(b.isPinned) then Some(PinTypeError(b.isPinned))
      else None
  }

  /** Fifty characters outside the Basic Multilingual Plane make a title of
      100 code units, the longest allowed; fifty-one are too long. */
  lemma AstralTitleLimit(title: string)
    requires forall i :: 0 <= i < |title| ==> title[i] as int >= 0x1_0000
    ensures 0 < |title| <= 50 <==> BoundedRequired("title", title, MaxTitleLength).None?
  {
    AstralLength(title);
  }

  /** The pre-save hook: `lastEdited` becomes the save instant exactly when the
      content was modified; nothing else changes. */
  function PreSave(n: Note, contentModified: bool, now: Instant): (r: Note)
    ensures contentModified ==> r.lastEdited == Some(now)
    ensures !contentModified ==> r == n
    ensures r.(lastEdited := n.lastEdited) == n
  {
    if contentModified then n.(lastEdited := Some(now)) else n
  }

  /** `NoteModel.create` once `isPinned` has been cast to `pinned`: on a new
      document every given path counts as modified, so the hook stamps
      `lastEdited`. */
  function NewNote(id: DocId, b: NoteBody, pinned: bool, userId: UserId, now: Instant): (n: Note)
    ensures n.id == id && n.userId == userId && n.title == b.title && n.content == b.content
    ensures n.isPinned == pinned
    ensures n.lastEdited == Some(now)
  {
    PreSave(Note(id, b.title, b.content, pinned, None, userId), true, now)
  }
}

=== FILE: pagination.dfy ===
/** Pagination of list handlers: `.skip((page - 1) * limit).limit(limit)` and
    the meta `{ current: page, totalPage: Math.ceil(count / limit), total: count }`. */
module Pagination {
  import opened Seqs
  import opened Response

  datatype PageMeta = PageMeta(current: int, totalPage: nat, total: nat)

  /** A list reply `{ meta, data, pagination }`: one page of records and the
      page meta, with its success message. */
  datatype Listing<T> = Listing(message: string, data: seq<T>, pagination: PageMeta)

  /** A list handler's reply: a listing, or an envelope with no data. */
  datatype ListReply<T> = Listed(listing: Listing<T>) | Refused(meta: Meta)

  /** The number of records before page `page`. */
  function Skip(page: int, limit: int): nat
    requires page >= 1 && limit > 0
  {
    var before: nat := page - 1;
    var size: nat := limit;
    before * size
  }

  /** `Math.ceil(count / limit)`: the fewest pages of `limit` records that hold `count`. */
  function TotalPages(count: nat, limit: int): (n: nat)
    requires limit > 0
    ensures count <= n * limit
    ensures n > 0 ==> (n - 1) * limit < count
  {
    var n := (count + limit - 1) / limit;
    assert n * limit <= count + limit - 1 < (n + 1) * limit;
    n
  }

  function PageMetaOf(count: nat, page: int, limit: int): (m: PageMeta)
    requires limit > 0
    ensures m.current == page && m.total == count
    ensures m.total <= m.totalPage * limit
  {
    PageMeta(page, TotalPages(count, limit), count)
  }

  /** How many records page `page` holds when `total` records match: `limit`,
      fewer on the last page, none past it. */
  function PageSize(total: nat, page: int, limit: int): nat
    requires page >= 1 && limit > 0
  {
    var from := Skip(page, limit);
    if from >= total then 0 else if total - from < limit then total - from else limit
  }

  /** The records of page `page`: at most `limit` of them, starting after the
      first `(page - 1) * limit`. */
  function Page<T>(rs: seq<T>, page: int, limit: int): (r: seq<T>)
    requires page >= 1 && limit > 0
    ensures |r| <= limit
    ensures |r| > 0 ==> Skip(page, limit) + |r| <= |rs| && r == rs[Skip(page, limit)..Skip(page, limit) + |r|]
    ensures Skip(page, limit) < |rs| ==>
      |r| == if |rs| - Skip(page, limit) < limit then |rs| - Skip(page, limit) else limit
    ensures Skip(page, limit) >= |rs| ==> r == []
    ensures |r| == PageSize(|rs|, page, limit)
  {
    var from := Skip(page, limit);
    if from >= |rs| then []
    else
      var to := if from + limit <= |rs| then from + limit else |rs|;
      rs[from..to]
  }

  /** Every record of a page is a record of the list it pages. */
  lemma PageWithin<T>(m: seq<T>, page: int, limit: int)
    requires page >= 1 && limit > 0
    ensures forall i :: 0 <= i < |Page(m, page, limit)| ==>
      Page(m, page, limit)[i] in m
  {
    var pg := Page(m, page, limit);
    forall i | 0 <= i < |pg|
      ensures pg[i] in m
    {
      var k := Skip(page, limit) + i;
      assert pg[i] == m[k];
    }
  }

  /** Every record of a page of filtered records is a record that passes the filter. */
  lemma PageOfFilter<T>(rs: seq<T>, p: T -> bool, page: int, limit: int)
    requires page >= 1 && limit > 0
    ensures forall i :: 0 <= i < |Page(Filter(rs, p), page, limit)| ==>
      Page(Filter(rs, p), page, limit)[i] in rs && p(Page(Filter(rs, p), page, limit)[i])
  {
    var m := Filter(rs, p);
    var pg := Page(m, page, limit);
    PageWithin(m, page, limit);
    forall i | 0 <= i < |pg|
      ensures pg[i] in rs && p(pg[i])
    {
      assert pg[i] in m;
    }
  }

  /** Pages 1 to k, concatenated. */
  function PagesUpTo<T>(rs: seq<T>, limit: int, k: nat): seq<T>
    requires limit > 0
  {
    if k == 0 then [] else PagesUpTo(rs, limit, k - 1) + Page(rs, k, limit)
  }

  lemma MulSucc(x: nat, y: int)
    ensures (x + 1) * y == x * y + y
  {
  }

  /** Appending the page that starts at `before` to the prefix of that length
      gives the prefix `limit` longer. */
  lemma PrefixGrow<T>(rs: seq<T>, before: nat, limit: int, p: seq<T>)
    requires limit > 0
    requires p == if before >= |rs| then [] else rs[before..if before + limit <= |rs| then before + limit else |rs|]
    ensures (if before <= |rs| then rs[..before] else rs) + p
      == if before + limit <= |rs| then rs[..before + limit] else rs
  {
    if before >= |rs| {
      assert (if before <= |rs| then rs[..before] else rs) == rs;
    } else if before + limit <= |rs| {
      assert rs[..before] + rs[before..before + limit] == rs[..before + limit];
    } else {
      assert rs[..before] + rs[before..|rs|] == rs;
    }
  }

  lemma {:induction false} PagesUpToIsPrefix<T>(rs: seq<T>, limit: int, k: nat)
    requires limit > 0
    ensures PagesUpTo(rs, limit, k) == if k * limit <= |rs| then rs[..k * limit] else rs
  {
    if k > 0 {
      PagesUpToIsPrefix(rs, limit, k - 1);
      var before := Skip(k, limit);
      MulSucc(k - 1, limit);
      PrefixGrow(rs, before, limit, Page(rs, k, limit));
    }
  }

  lemma MulMonotone(a: int, b: int, c: int)
    requires a <= b && c >= 0
    ensures a * c <= b * c
  {
    assert b * c - a * c == (b - a) * c;
  }

  /** Walking pages 1 to `totalPage` returns every matched record exactly once,
      in order; any page after the last one is empty. */
  lemma PagesCoverAll<T>(rs: seq<T>, limit: int)
    requires limit > 0
    ensures PagesUpTo(rs, limit, TotalPages(|rs|, limit)) == rs
    ensures forall page :: page > TotalPages(|rs|, limit) ==> Page(rs, page, limit) == []
  {
    var n := TotalPages(|rs|, limit);
    PagesUpToIsPrefix(rs, limit, n);
    forall page | page > n
      ensures Page(rs, page, limit) == []
    {
      MulMonotone(n, page - 1, limit);
    }
  }

  /** The records of pages 1 to `k` of a listing served page by page. */
  function Walk<T>(pageOf: int -> seq<T>, k: nat): seq<T> {
    if k == 0 then [] else Walk(pageOf, k - 1) + pageOf(k)
  }

  lemma {:induction false} WalkIsPagesUpTo<T>(pageOf: int -> seq<T>, rs: seq<T>, limit: int, k: nat)
    requires limit > 0
    requires forall p :: p >= 1 ==> pageOf(p) == Page(rs, p, limit)
    ensures Walk(pageOf, k) == PagesUpTo(rs, limit, k)
  {
    if k > 0 {
      WalkIsPagesUpTo(pageOf, rs, limit, k - 1);
    }
  }

  /** A listing that serves each page as `Page` does yields, over pages 1 to
      `totalPage`, every record exactly once and in order. */
  lemma WalkCoversAll<T>(pageOf: int -> seq<T>, rs: seq<T>, limit: int)
    requires limit > 0
    requires forall p :: p >= 1 ==> pageOf(p) == Page(rs, p, limit)
    ensures Walk(pageOf, TotalPages(|rs|, limit)) == rs
  {
    WalkIsPagesUpTo(pageOf, rs, limit, TotalPages(|rs|, limit));
    PagesCoverAll(rs, limit);
  }
}

=== FILE: response.dfy ===
/** The response envelope `{ meta: { status, message }, data }` written by the
    four constructors of `utils/response.ts`, and the record of what a handler
    did: the store after it ran and the envelopes it wrote, in order. */
module Response {
  import opened Wrappers

  const StatusOk: int := 200
  const StatusBadRequest: int := 400
  const StatusForbidden: int := 403
  const StatusNotFound: int := 404

  const DataNotFound: string := "Data not found!"
  const Unauthorized: string := "Unauthorized"

  datatype Meta = Meta(status: int, message: string)

  /** `data` is `None` where the source writes `data: null`. */
  datatype Envelope<+T> = Envelope(meta: Meta, data: Option<T>)

  /** `success`: status 200, the given data (which may itself be null) and message. */
  function Success<T>(data: Option<T>, message: string): (e: Envelope<T>)
    ensures e.meta.status == StatusOk && e.meta.message == message && e.data == data
  {
    Envelope(Meta(StatusOk, message), data)
  }

  /** `error`: status 400, no data. */
  function Error<T>(message: string): (e: Envelope<T>)
    ensures e.meta.status == StatusBadRequest && e.meta.message == message && e.data.None?
  {
    Envelope(Meta(StatusBadRequest, message), None)
  }

  /** `notFound`: status 404, no data. */
  function NotFound<T>(message: string): (e: Envelope<T>)
    ensures e.meta.status == StatusNotFound && e.meta.message == message && e.data.None?
  {
    Envelope(Meta(StatusNotFound, message), None)
  }

  /** `notFound` with its default message. */
  function NotFoundDefault<T>(): (e: Envelope<T>)
    ensures e.meta.status == StatusNotFound && e.meta.message == "Data not found!" && e.data.None?
  {
    NotFound(DataNotFound)
  }

  /** `unauthorize`: status 403, no data. */
  function Unauthorize<T>(message: string): (e: Envelope<T>)
    ensures e.meta.status == StatusForbidden && e.meta.message == message && e.data.None?
  {
    Envelope(Meta(StatusForbidden, message), None)
  }

  /** `unauthorize` with its default message. */
  function UnauthorizeDefault<T>(): (e: Envelope<T>)
    ensures e.meta.status == StatusForbidden && e.meta.message == "Unauthorized" && e.data.None?
  {
    Unauthorize(Unauthorized)
  }

  /** The four kinds of envelope the constructors write. */
  datatype Kind = SuccessKind | ErrorKind | NotFoundKind | UnauthorizeKind

  function Build<T>(k: Kind, data: Option<T>, message: string): Envelope<T> {
    match k
    case SuccessKind => Success(data, message)
    case ErrorKind => Error(message)
    case NotFoundKind => NotFound(message)
    case UnauthorizeKind => Unauthorize(message)
  }

  /** Reading an envelope's status back to the constructor that wrote it. */
  function KindOf<T>(e: Envelope<T>): Option<Kind> {
    if e.meta.status == StatusOk then Some(SuccessKind)
    else if e.meta.status == StatusBadRequest then Some(ErrorKind)
    else if e.meta.status == StatusNotFound then Some(NotFoundKind)
    else if e.meta.status == StatusForbidden then Some(UnauthorizeKind)
    else None
  }

  /** The status code identifies the constructor, the message is passed through,
      and only `success` can carry data. */
  lemma StatusIdentifiesConstructor<T>(k: Kind, data: Option<T>, message: string)
    ensures KindOf(Build(k, data, message)) == Some(k)
    ensures Build(k, data, message).meta.message == message
    ensures Build(k, data, message).data.Some? ==> k == SuccessKind
  {
  }

  /** What a handler did: the store after it and the envelopes it wrote, in
      order. Express delivers the first; writing a second one to the same
      response fails because the headers have already been sent. */
  datatype Step<S, T> = Step(store: S, replies: seq<Envelope<T>>) {
    /** The envelope the client receives. */
    function Delivered(): Envelope<T>
      requires |replies| > 0
    {
      replies[0]
    }
  }

  /** A handler that writes exactly one envelope. */
  function Reply<S, T>(store: S, e: Envelope<T>): (st: Step<S, T>)
    ensures st.store == store && st.replies == [e]
  {
    Step(store, [e])
  }
}

=== FILE: seqs.dfy ===
/** Sequence helpers shared by every record store of the model: counting,
    first-match lookup, filtering, summing, removal and fresh identifiers. */
module Seqs {
  import opened Wrappers

  /** 1 when `p` holds of `x`, else 0. */
  function Indicator<T>(p: T -> bool, x: T): nat {
    if p(x) then 1 else 0
  }

  /** Number of elements of `s` that satisfy `p`. */
  function Count<T>(s: seq<T>, p: T -> bool): (n: nat)
    ensures n <= |s|
    ensures n == 0 <==> forall i :: 0 <= i < |s| ==> !p(s[i])
  {
    if |s| == 0 then 0
    else Count(s[..|s| - 1], p) + Indicator(p, s[|s| - 1])
  }

  lemma {:induction false} CountAppend<T>(a: seq<T>, b: seq<T>, p: T -> bool)
    ensures Count(a + b, p) == Count(a, p) + Count(b, p)
    decreases |b|
  {
    if |b| == 0 {
      assert a + b == a;
    } else {
      var b' := b[..|b| - 1];
      assert (a + b)[..|a + b| - 1] == a + b';
      CountAppend(a, b', p);
    }
  }

  lemma CountSingleton<T>(x: T, p: T -> bool)
    ensures Count([x], p) == Indicator(p, x)
  {
    assert [x][..0] == [];
  }

  /** Replacing one element changes the count by exactly that element's share. */
  lemma CountUpdate<T>(s: seq<T>, i: nat, x: T, p: T -> bool)
    requires i < |s|
    ensures Count(s[i := x], p) == Count(s, p) - Indicator(p, s[i]) + Indicator(p, x)
  {
    assert s == s[..i] + [s[i]] + s[i + 1..];
    assert s[i := x] == s[..i] + [x] + s[i + 1..];
    CountAppend(s[..i] + [s[i]], s[i + 1..], p);
    CountAppend(s[..i], [s[i]], p);
    CountAppend(s[..i] + [x], s[i + 1..], p);
    CountAppend(s[..i], [x], p);
    CountSingleton(s[i], p);
    CountSingleton(x, p);
  }

  /** `s` without its element at index `i`, order kept. */
  function RemoveAt<T>(s: seq<T>, i: nat): (r: seq<T>)
    requires i < |s|
    ensures |r| == |s| - 1
    ensures forall j :: 0 <= j < i ==> r[j] == s[j]
    ensures forall j :: i <= j < |r| ==> r[j] == s[j + 1]
  {
    s[..i] + s[i + 1..]
  }

  lemma CountRemoveAt<T>(s: seq<T>, i: nat, p: T -> bool)
    requires i < |s|
    ensures Count(RemoveAt(s, i), p) == Count(s, p) - Indicator(p, s[i])
  {
    var before, after := s[..i], s[i + 1..];
    SplitAt(s, i);
    CountAppend(before + [s[i]], after, p);
    CountAppend(before, [s[i]], p);
    CountAppend(before, after, p);
    CountSingleton(s[i], p);
  }

  lemma SplitAt<T>(s: seq<T>, i: nat)
    requires i < |s|
    ensures s == (s[..i] + [s[i]]) + s[i + 1..]
    ensures RemoveAt(s, i) == s[..i] + s[i + 1..]
  {
    assert s == (s[..i] + [s[i]]) + s[i + 1..];
  }

  /** Removing index `i` loses exactly `s[i]` and keeps every other element. */
  lemma RemoveAtKeepsOthers<T>(s: seq<T>, i: nat)
    requires i < |s|
    ensures multiset(RemoveAt(s, i)) + multiset{s[i]} == multiset(s)
    ensures forall j :: 0 <= j < |s| && j != i ==> s[j] in RemoveAt(s, i)
  {
    var r := RemoveAt(s, i);
    SplitAt(s, i);
    forall j | 0 <= j < |s| && j != i
      ensures s[j] in r
    {
      if j < i { assert r[j] == s[j]; } else { assert r[j - 1] == s[j]; }
    }
  }

  /** Index of the first element satisfying `p`, as a store's `findOne` in natural order. */
  function FindFirst<T>(s: seq<T>, p: T -> bool): (r: Option<nat>)
    ensures r.Some? ==> r.value < |s| && p(s[r.value])
    ensures r.Some? ==> forall j :: 0 <= j < r.value ==> !p(s[j])
    ensures r.None? <==> forall j :: 0 <= j < |s| ==> !p(s[j])
  {
    if |s| == 0 then None
    else if p(s[0]) then Some(0)
    else match FindFirst(s[1..], p)
      case None => None
      case Some(k) => Some(k + 1)
  }

  /** The elements of `s` satisfying `p`, in their original order. */
  function Filter<T>(s: seq<T>, p: T -> bool): (r: seq<T>)
    ensures |r| == Count(s, p)
    ensures forall i :: 0 <= i < |r| ==> p(r[i]) && r[i] in s
    ensures forall i :: 0 <= i < |s| && p(s[i]) ==> s[i] in r
  {
    if |s| == 0 then []
    else
      var init := Filter(s[..|s| - 1], p);
      assert forall i :: 0 <= i < |s| - 1 ==> s[..|s| - 1][i] == s[i];
      if p(s[|s| - 1]) then init + [s[|s| - 1]] else init
  }

  lemma {:induction false} FilterAppend<T>(a: seq<T>, b: seq<T>, p: T -> bool)
    ensures Filter(a + b, p) == Filter(a, p) + Filter(b, p)
    decreases |b|
  {
    if |b| == 0 {
      assert a + b == a;
    } else {
      var b' := b[..|b| - 1];
      assert (a + b)[..|a + b| - 1] == a + b';
      FilterAppend(a, b', p);
    }
  }

  /** Sum of `f` over the elements of `s`. */
  function Sum<T>(s: seq<T>, f: T -> int): int {
    if |s| == 0 then 0 else Sum(s[..|s| - 1], f) + f(s[|s| - 1])
  }

  lemma {:induction false} SumAppend<T>(a: seq<T>, b: seq<T>, f: T -> int)
    ensures Sum(a + b, f) == Sum(a, f) + Sum(b, f)
    decreases |b|
  {
    if |b| == 0 {
      assert a + b == a;
    } else {
      var b' := b[..|b| - 1];
      assert (a + b)[..|a + b| - 1] == a + b';
      SumAppend(a, b', f);
    }
  }

  /** An identifier above every identifier already in `s`: the stand-in for the
      store generating a new document id. */
  function NextId<T>(s: seq<T>, key: T -> nat): (r: nat)
    ensures forall i :: 0 <= i < |s| ==> key(s[i]) < r
  {
    if |s| == 0 then 0
    else
      var m := NextId(s[..|s| - 1], key);
      assert forall i :: 0 <= i < |s| - 1 ==> s[..|s| - 1][i] == s[i];
      if key(s[|s| - 1]) < m then m else key(s[|s| - 1]) + 1
  }
}

=== FILE: text.dfy ===
/** String operations the source takes from JavaScript and from the document
    store: decimal rendering of integers, `padStart`, `split(" ")`, and the
    `$trim` / `$toLower` aggregation operators. */
module Text {

  predicate IsDigit(c: char) {
    '0' <= c <= '9'
  }

  predicate AllDigits(s: string) {
    forall i :: 0 <= i < |s| ==> IsDigit(s[i])
  }

  function DigitValue(c: char): nat
    requires IsDigit(c)
  {
    c as int - '0' as int
  }

  function DigitChar(d: nat): (c: char)
    requires d < 10
    ensures IsDigit(c) && DigitValue(c) == d
  {
    ('0' as int + d) as char
  }

  /** `n.toString()` for a non-negative integer: its decimal digits, no leading zero. */
  function Decimal(n: nat): (s: string)
    ensures 1 <= |s| && AllDigits(s)
    ensures n < 10 <==> |s| == 1
    ensures |s| > 1 ==> s[0] != '0'
  {
    if n < 10 then [DigitChar(n)] else Decimal(n / 10) + [DigitChar(n % 10)]
  }

  /** `i.toString()` for any integer: a minus sign before the digits of a negative one. */
  function IntText(i: int): (s: string)
    ensures i >= 0 ==> s == Decimal(i)
    ensures i < 0 ==> |s| >= 2 && s[0] == '-'
  {
    if i < 0 then "-" + Decimal(-i) else Decimal(i)
  }

  /** The number a string of decimal digits denotes (most significant first). */
  function DecimalValue(s: string): nat
    requires AllDigits(s)
  {
    if |s| == 0 then 0 else DecimalValue(s[..|s| - 1]) * 10 + DigitValue(s[|s| - 1])
  }

  lemma {:induction false} DecimalRoundTrip(n: nat)
    ensures DecimalValue(Decimal(n)) == n
    decreases n
  {
    if n >= 10 {
      var s := Decimal(n);
      assert s[..|s| - 1] == Decimal(n / 10);
      DecimalRoundTrip(n / 10);
    } else {
      assert Decimal(n)[..0] == [];
    }
  }

  /** Four-digit numbers print as exactly four digits. */
  lemma DecimalLength4(n: nat)
    requires 1000 <= n <= 9999
    ensures |Decimal(n)| == 4
  {
    assert |Decimal(n / 1000)| == 1;
    assert n / 10 / 10 / 10 == n / 1000;
    assert |Decimal(n / 100)| == 2 by { assert n / 10 / 10 == n / 100; }
  }

  /** `s.padStart(width, fill)` for a one-character fill. */
  function PadStart(s: string, width: nat, fill: char): (r: string)
    ensures |r| == if |s| >= width then |s| else width
    ensures r[|r| - |s|..] == s
    ensures forall i :: 0 <= i < |r| - |s| ==> r[i] == fill
  {
    if |s| >= width then s else [fill] + PadStart(s, width - 1, fill)
  }

  // ---------------------------------------------------------------------
  // JavaScript `.length`

  /** The UTF-16 code units of one character: two for a character outside
      the Basic Multilingual Plane (a surrogate pair), one otherwise. */
  function CodeUnits(c: char): nat {
    if c as int >= 0x1_0000 then 2 else 1
  }

  /** `s.length` in JavaScript, which the schema validator's `min` and `max`
      compare: the number of UTF-16 code units, not of characters. */
  function Utf16Length(s: string): (n: nat)
    ensures |s| <= n <= 2 * |s|
    ensures n == 0 <==> s == []
  {
    if |s| == 0 then 0 else Utf16Length(s[..|s| - 1]) + CodeUnits(s[|s| - 1])
  }

  /** Within the Basic Multilingual Plane, code units and characters agree. */
  lemma {:induction false} BmpLength(s: string)
    requires forall i :: 0 <= i < |s| ==> s[i] as int < 0x1_0000
    ensures Utf16Length(s) == |s|
  {
    if |s| > 0 {
      BmpLength(s[..|s| - 1]);
    }
  }

  /** Every character outside the Basic Multilingual Plane counts twice. */
  lemma {:induction false} AstralLength(s: string)
    requires forall i :: 0 <= i < |s| ==> s[i] as int >= 0x1_0000
    ensures Utf16Length(s) == 2 * |s|
  {
    if |s| > 0 {
      AstralLength(s[..|s| - 1]);
    }
  }

  // ---------------------------------------------------------------------
  // split / join on a separator character

  /** `s.split(sep)` with a one-character separator: the maximal separator-free
      pieces, including empty ones, so there is always at least one piece. */
  function Split(s: string, sep: char): (parts: seq<string>)
    ensures |parts| >= 1
    ensures forall k :: 0 <= k < |parts| ==> sep !in parts[k]
  {
    if |s| == 0 then [""]
    else
      var rest := Split(s[1..], sep);
      if s[0] == sep then [""] + rest
      else [[s[0]] + rest[0]] + rest[1..]
  }

  /** The inverse of `Split`: the pieces glued back with the separator. */
  function Join(parts: seq<string>, sep: char): string
    requires |parts| >= 1
  {
    if |parts| == 1 then parts[0] else parts[0] + [sep] + Join(parts[1..], sep)
  }

  lemma {:induction false} SplitJoin(s: string, sep: char)
    ensures Join(Split(s, sep), sep) == s
    decreases |s|
  {
    if |s| > 0 {
      SplitJoin(s[1..], sep);
      var rest := Split(s[1..], sep);
      if s[0] == sep {
        assert ([""] + rest)[1..] == rest;
      } else {
        var parts := [[s[0]] + rest[0]] + rest[1..];
        if |rest| == 1 {
          assert parts == [[s[0]] + rest[0]];
        } else {
          assert parts[1..] == rest[1..];
          assert Join(rest, sep) == rest[0] + [sep] + Join(rest[1..], sep);
        }
      }
    }
  }

  /** A separator-free string is a single piece. */
  lemma {:induction false} SplitNoSeparator(a: string, sep: char)
    requires sep !in a
    ensures Split(a, sep) == [a]
    decreases |a|
  {
    if |a| > 0 {
      SplitNoSeparator(a[1..], sep);
      assert [a[0]] + a[1..] == a;
    }
  }

  /** Splitting at the first separator: the first piece is everything before it. */
  lemma {:induction false} SplitFirst(a: string, b: string, sep: char)
    requires sep !in a
    ensures Split(a + [sep] + b, sep) == [a] + Split(b, sep)
    decreases |a|
  {
    var s := a + [sep] + b;
    if |a| == 0 {
      assert s[1..] == b;
    } else {
      assert s[1..] == a[1..] + [sep] + b;
      SplitFirst(a[1..], b, sep);
      assert [a[0]] + a[1..] == a;
    }
  }

  // ---------------------------------------------------------------------
  // $trim and $toLower of the aggregation pipeline

  /** The whitespace `$trim` removes by default (its ASCII members). */
  predicate IsTrimSpace(c: char) {
    c == ' ' || c == '\t' || c == '\n' || c == '\r' || c == '\U{B}' || c == '\U{C}' || c == '\0'
  }

  /** Drops leading whitespace: the longest suffix of `s` not starting with it. */
  function TrimStart(s: string): (r: string)
    ensures |r| <= |s| && r == s[|s| - |r|..]
    ensures forall i :: 0 <= i < |s| - |r| ==> IsTrimSpace(s[i])
    ensures |r| > 0 ==> !IsTrimSpace(r[0])
  {
    if |s| > 0 && IsTrimSpace(s[0]) then
      var r := TrimStart(s[1..]);
      assert s[1..][|s| - 1 - |r|..] == s[|s| - |r|..];
      r
    else s
  }

  /** Drops trailing whitespace: the longest prefix of `s` not ending with it. */
  function TrimEnd(s: string): (r: string)
    ensures |r| <= |s| && r == s[..|r|]
    ensures forall i :: |r| <= i < |s| ==> IsTrimSpace(s[i])
    ensures |r| > 0 ==> !IsTrimSpace(r[|r| - 1])
  {
    if |s| > 0 && IsTrimSpace(s[|s| - 1]) then TrimEnd(s[..|s| - 1]) else s
  }

  /** How many whitespace characters `$trim` removes from the front of `s`. */
  function LeadingSpaces(s: string): (k: nat)
    ensures k <= |s|
  {
    |s| - |TrimStart(s)|
  }

  /** `$trim` with the default character set: the slice of `s` left once the
      whitespace at both ends is gone. */
  function Trim(s: string): (r: string)
    ensures LeadingSpaces(s) + |r| <= |s|
    ensures r == s[LeadingSpaces(s)..LeadingSpaces(s) + |r|]
    ensures forall i :: 0 <= i < LeadingSpaces(s) ==> IsTrimSpace(s[i])
    ensures forall i :: LeadingSpaces(s) + |r| <= i < |s| ==> IsTrimSpace(s[i])
    ensures |r| > 0 ==> !IsTrimSpace(r[0]) && !IsTrimSpace(r[|r| - 1])
  {
    TrimEnd(TrimStart(s))
  }

  /** A string with no whitespace at either end is its own trim. */
  lemma TrimUnchanged(s: string)
    requires |s| > 0 ==> !IsTrimSpace(s[0]) && !IsTrimSpace(s[|s| - 1])
    ensures Trim(s) == s
  {
  }

  function LowerChar(c: char): char {
    if 'A' <= c <= 'Z' then (c as int - 'A' as int + 'a' as int) as char else c
  }

  /** `$toLower`, which is defined on ASCII letters only. */
  function AsciiLower(s: string): (r: string)
    ensures |r| == |s|
    ensures forall i :: 0 <= i < |s| ==> r[i] == LowerChar(s[i])
  {
    if |s| == 0 then [] else [LowerChar(s[0])] + AsciiLower(s[1..])
  }
}

=== FILE: timeline.dfy ===
/** The abstract clock of the model: instants are integer milliseconds in one
    fixed zone with 24-hour days (no daylight-saving shifts). `StartOfDay` is
    `setHours(0, 0, 0, 0)`, `EndOfDay` is `setHours(23, 59, 59, 999)` and
    `AddDays` is `setDate(getDate() + n)`. */
module Timeline {

  type Instant = int

  const DayMs: int := 86_400_000

  /** Milliseconds from midnight to 23:59:59.999. */
  const LastMsOfDay: int := 86_399_999

  /** The index of the day an instant falls in (day 0 starts at instant 0). */
  function DayOf(t: Instant): int {
    t / DayMs
  }

  /** Midnight of the day `t` falls in. */
  function StartOfDay(t: Instant): (r: Instant)
    ensures r <= t < r + DayMs
    ensures r % DayMs == 0
    ensures r == DayOf(t) * DayMs
  {
    t - t % DayMs
  }

  /** 23:59:59.999 of the day `t` falls in: the last instant of that day. */
  function EndOfDay(t: Instant): (r: Instant)
    ensures t <= r
    ensures DayOf(r) == DayOf(t)
    ensures DayOf(r + 1) == DayOf(t) + 1
  {
    StartOfDay(t) + LastMsOfDay
  }

  /** The same time of day, `n` days later (earlier when `n` is negative). */
  function AddDays(t: Instant, n: int): (r: Instant)
    ensures DayOf(r) == DayOf(t) + n
    ensures r - StartOfDay(r) == t - StartOfDay(t)
  {
    t + n * DayMs
  }

  /** Lower bound at midnight: `StartOfDay(t) <= x` holds exactly for the
      instants of `t`'s day and of later days. */
  lemma AtOrAfterStartOfDay(t: Instant, x: Instant)
    ensures StartOfDay(t) <= x <==> DayOf(t) <= DayOf(x)
  {
  }

  /** Upper bound strictly below 23:59:59.999: it admits every earlier day and
      every instant of `t`'s own day except the last millisecond. */
  lemma BeforeEndOfDay(t: Instant, x: Instant)
    ensures x < EndOfDay(t) <==> DayOf(x) < DayOf(t) || (DayOf(x) == DayOf(t) && x != EndOfDay(t))
  {
  }

  /** Upper bound at or below 23:59:59.999: exactly the instants of `t`'s day
      and of earlier days. */
  lemma AtOrBeforeEndOfDay(t: Instant, x: Instant)
    ensures x <= EndOfDay(t) <==> DayOf(x) <= DayOf(t)
  {
  }

  /** A span of whole days: `[a, b)` in days is `[a * DayMs, b * DayMs)` in instants. */
  lemma DaySpan(a: int, b: int, x: Instant)
    ensures a * DayMs <= x < b * DayMs <==> a <= DayOf(x) < b
  {
  }
}

=== FILE: todo_controller.dfy ===
/** The todo handlers over an owner-scoped store: create, list, today, find,
    update, delete and the status toggle. */
module TodoController {
  import opened Wrappers
  import opened Seqs
  import opened Ids
  import opened Timeline
  import opened Response
  import opened Pagination
  import opened TodoModel
  import opened TodoQuery

  /** The todo `id` when it belongs to `owner`: `findOne({ _id: id, userId })`. */
  function OwnedBy(id: DocId, owner: UserId): Todo -> bool {
    (t: Todo) => t.id == id && t.userId == owner
  }

  /** Every stored todo has one of the two statuses. */
  ghost predicate StatusesValid(todos: seq<Todo>) {
    forall i :: 0 <= i < |todos| ==> IsTodoStatus(todos[i].status)
  }

  // ---------------------------------------------------------------------
  // create

  /** `create`: validate the body, then store a pending todo for the caller;
      a status in the body is validated but not stored. */
  function CreateTodo(todos: seq<Todo>, caller: UserId, b: TodoBody): (st: Step<seq<Todo>, Todo>)
    ensures |st.replies| == 1
    ensures st.Delivered().meta.status == StatusOk <==> ValidateTodo(b).None?
    ensures ValidateTodo(b).Some? ==> st == Reply(todos, Error(ValidateTodo(b).value))
    ensures ValidateTodo(b).None? ==>
      |st.store| == |todos| + 1 && st.store[..|todos|] == todos
      && st.Delivered() == Success(Some(st.store[|todos|]), "Create todo success!")
      && st.store[|todos|].userId == caller && st.store[|todos|].title == b.title
      && st.store[|todos|].description == b.description && st.store[|todos|].dueDate == b.dueDate.value
      && st.store[|todos|].status == "pending"
      && (forall i :: 0 <= i < |todos| ==> todos[i].id != st.store[|todos|].id)
  {
    match ValidateTodo(b)
    case Some(msg) => Reply(todos, Error(msg))
    case None =>
      var t := NewTodo(NextId(todos, (x: Todo) => x.id), b, caller);
      Reply(todos + [t], Success(Some(t), "Create todo success!"))
  }

  lemma CreateKeepsStatusesValid(todos: seq<Todo>, caller: UserId, b: TodoBody)
    requires StatusesValid(todos)
    ensures StatusesValid(CreateTodo(todos, caller, b).store)
  {
    var st := CreateTodo(todos, caller, b);
    if ValidateTodo(b).None? {
      forall i | 0 <= i < |st.store|
        ensures IsTodoStatus(st.store[i].status)
      {
        if i < |todos| { assert st.store[i] == st.store[..|todos|][i]; }
      }
    }
  }

  // ---------------------------------------------------------------------
  // list and today

  /** The caller's todos that a list request selects, in store order. */
  function Selected(todos: seq<Todo>, caller: UserId, f: TodoFilter, now: Instant,
                    textHit: (string, Todo) -> bool): seq<Todo> {
    Filter(todos, (t: Todo) => Matches(BuildQuery(f, caller, now), t, textHit))
  }

  /** `findAll`: a page of the caller's todos matching the filter (in store
      order) and the page meta over all matching todos. */
  function FindAllTodos(todos: seq<Todo>, caller: UserId, f: TodoFilter, page: int, limit: int,
                        now: Instant, textHit: (string, Todo) -> bool): (r: Listing<Todo>)
    requires page >= 1 && limit > 0
    ensures r.message == "Success get all todo!"
    ensures r.data == Page(Selected(todos, caller, f, now, textHit), page, limit)
    ensures |r.data| == PageSize(|Selected(todos, caller, f, now, textHit)|, page, limit)
    ensures forall i :: 0 <= i < |r.data| ==>
      r.data[i] in todos && Matches(BuildQuery(f, caller, now), r.data[i], textHit)
    ensures r.pagination == PageMeta(page, TotalPages(r.pagination.total, limit), r.pagination.total)
    ensures r.pagination.total == |Selected(todos, caller, f, now, textHit)|
  {
    var q := BuildQuery(f, caller, now);
    var p := (t: Todo) => Matches(q, t, textHit);
    var matched := Filter(todos, p);
    PageOfFilter(todos, p, page, limit);
    Listing("Success get all todo!", Page(matched, page, limit), PageMetaOf(|matched|, page, limit))
  }

  /** The pages `findAll` serves for one filter and page size. */
  function TodoPages(todos: seq<Todo>, caller: UserId, f: TodoFilter, limit: int, now: Instant,
                     textHit: (string, Todo) -> bool): int -> seq<Todo>
    requires limit > 0
  {
    (p: int) => if p >= 1 then FindAllTodos(todos, caller, f, p, limit, now, textHit).data else []
  }

  /** Requesting pages 1 to `totalPage` returns every matching todo exactly once. */
  lemma TodoPagesCoverMatches(todos: seq<Todo>, caller: UserId, f: TodoFilter, limit: int, now: Instant,
                              textHit: (string, Todo) -> bool)
    requires limit > 0
    ensures Walk(TodoPages(todos, caller, f, limit, now, textHit),
                 FindAllTodos(todos, caller, f, 1, limit, now, textHit).pagination.totalPage)
      == Selected(todos, caller, f, now, textHit)
  {
    var m := Selected(todos, caller, f, now, textHit);
    var pages := TodoPages(todos, caller, f, limit, now, textHit);
    forall p | p >= 1
      ensures pages(p) == Page(m, p, limit)
    {
    }
    WalkCoversAll(pages, m, limit);
  }

  /** `toDoToday`: every todo of the caller due today, midnight to 23:59:59.999
      inclusive, and nothing else. */
  function ToDoToday(todos: seq<Todo>, caller: UserId, now: Instant): (e: Envelope<seq<Todo>>)
    ensures e.meta == Meta(StatusOk, "Success get today todo!") && e.data.Some?
    ensures forall i :: 0 <= i < |e.data.value| ==>
      e.data.value[i] in todos && e.data.value[i].userId == caller && DayOf(e.data.value[i].dueDate) == DayOf(now)
    ensures forall i :: 0 <= i < |todos| && todos[i].userId == caller && DayOf(todos[i].dueDate) == DayOf(now) ==>
      todos[i] in e.data.value
  {
    var q := TodayQuery(caller, now);
    var noSearch := (s: string, t: Todo) => false;
    Success(Some(Filter(todos, (t: Todo) => Matches(q, t, noSearch))), "Success get today todo!")
  }

  // ---------------------------------------------------------------------
  // find one

  /** `findOne`: the caller's todo, 404 when the id is malformed or the todo
      is not the caller's. */
  function FindOneTodo(todos: seq<Todo>, caller: UserId, id: IdParam): (e: Envelope<Todo>)
    ensures id.Malformed? ==> e == NotFound("Invalid id!")
    ensures id.ObjectId? && (forall i :: 0 <= i < |todos| ==> !OwnedBy(id.id, caller)(todos[i])) ==>
      e == NotFoundDefault()
    ensures e.meta.status == StatusOk <==>
      id.ObjectId? && exists i :: 0 <= i < |todos| && OwnedBy(id.id, caller)(todos[i])
    ensures e.meta.status == StatusOk ==>
      e.meta.message == "Success get One!" && e.data.Some?
      && e.data.value in todos && e.data.value.id == id.id && e.data.value.userId == caller
  {
    match id
    case Malformed => NotFound("Invalid id!")
    case ObjectId(nid) =>
      match FindFirst(todos, OwnedBy(nid, caller))
      case None => NotFoundDefault()
      case Some(i) => Success(Some(todos[i]), "Success get One!")
  }

  // ---------------------------------------------------------------------
  // update

  /** The fields an update writes: title and due date, and the description when
      the body has one (an undefined field is dropped from the update). */
  function ApplyUpdate(t: Todo, b: TodoBody): (r: Todo)
    requires b.dueDate.Some?
    ensures r.id == t.id && r.userId == t.userId && r.status == t.status
    ensures r.title == b.title && r.dueDate == b.dueDate.value
    ensures r.description == if b.description.Some? then b.description else t.description
  {
    t.(title := b.title,
       description := if b.description.Some? then b.description else t.description,
       dueDate := b.dueDate.value)
  }

  /** `update`: id check, body validation, then the caller's todo rewritten in
      place; the status is never touched. */
  function UpdateTodo(todos: seq<Todo>, caller: UserId, id: IdParam, b: TodoBody): (st: Step<seq<Todo>, Todo>)
    ensures |st.replies| == 1
    ensures id.Malformed? ==> st == Reply(todos, NotFound("Invalid Id!"))
    ensures id.ObjectId? && ValidateTodo(b).Some? ==> st == Reply(todos, Error(ValidateTodo(b).value))
    ensures st.Delivered().meta.status != StatusOk ==> st.store == todos
    ensures st.Delivered().meta.status == StatusOk <==>
      id.ObjectId? && ValidateTodo(b).None? && exists i :: 0 <= i < |todos| && OwnedBy(id.id, caller)(todos[i])
    ensures |st.store| == |todos|
    ensures forall i :: 0 <= i < |todos| ==>
      st.store[i].id == todos[i].id && st.store[i].userId == todos[i].userId && st.store[i].status == todos[i].status
    ensures forall i :: 0 <= i < |todos| && !(id.ObjectId? && OwnedBy(id.id, caller)(todos[i])) ==>
      st.store[i] == todos[i]
    ensures st.Delivered().meta.status == StatusOk ==>
      st.Delivered().meta.message == "Success update todo!" && st.Delivered().data.Some?
      && st.Delivered().data.value in st.store && st.Delivered().data.value.title == b.title
    ensures id.ObjectId? && ValidateTodo(b).None? && FindFirst(todos, OwnedBy(id.id, caller)).Some? ==>
      var i := FindFirst(todos, OwnedBy(id.id, caller)).value;
      && st.store == todos[i := ApplyUpdate(todos[i], b)]
      && st.Delivered() == Success(Some(st.store[i]), "Success update todo!")
  {
    match id
    case Malformed => Reply(todos, NotFound("Invalid Id!"))
    case ObjectId(nid) =>
      match ValidateTodo(b)
      case Some(msg) => Reply(todos, Error(msg))
      case None =>
        match FindFirst(todos, OwnedBy(nid, caller))
        case None => Reply(todos, NotFoundDefault())
        case Some(i) =>
          var updated := ApplyUpdate(todos[i], b);
          var after := todos[i := updated];
          assert after[i] == updated;
          Reply(after, Success(Some(updated), "Success update todo!"))
  }

  lemma UpdateKeepsStatusesValid(todos: seq<Todo>, caller: UserId, id: IdParam, b: TodoBody)
    requires StatusesValid(todos)
    ensures StatusesValid(UpdateTodo(todos, caller, id, b).store)
  {
  }

  // ---------------------------------------------------------------------
  // delete

  /** `remove`: deletes the caller's todo. When there is none the handler
      writes the 404 and then, with no `return`, also the success reply. */
  function RemoveTodo(todos: seq<Todo>, caller: UserId, id: IdParam): (st: Step<seq<Todo>, Todo>)
    ensures |st.replies| >= 1
    ensures id.Malformed? ==> st == Reply(todos, NotFound("Invalid Id!"))
    ensures id.ObjectId? && (forall i :: 0 <= i < |todos| ==> !OwnedBy(id.id, caller)(todos[i])) ==>
      st == Step(todos, [NotFoundDefault(), Success(None, "Success delete todo!")])
    ensures st.Delivered().meta.status == StatusOk ==>
      |st.replies| == 1 && st.Delivered().meta.message == "Success delete todo!"
      && st.Delivered().data.Some? && st.Delivered().data.value in todos
      && |st.store| == |todos| - 1
      && multiset(st.store) + multiset{st.Delivered().data.value} == multiset(todos)
      && st.Delivered().data.value.userId == caller && st.Delivered().data.value.id == id.id
    ensures id.ObjectId? && (exists i :: 0 <= i < |todos| && OwnedBy(id.id, caller)(todos[i])) ==>
      st.Delivered().meta.status == StatusOk
  {
    match id
    case Malformed => Reply(todos, NotFound("Invalid Id!"))
    case ObjectId(nid) =>
      match FindFirst(todos, OwnedBy(nid, caller))
      case None => Step(todos, [NotFoundDefault(), Success(None, "Success delete todo!")])
      case Some(i) =>
        var r := RemoveAt(todos, i);
        assert todos == todos[..i] + [todos[i]] + todos[i + 1..];
        assert r == todos[..i] + todos[i + 1..];
        Reply(r, Success(Some(todos[i]), "Success delete todo!"))
  }

  lemma RemoveKeepsStatusesValid(todos: seq<Todo>, caller: UserId, id: IdParam)
    requires StatusesValid(todos)
    ensures StatusesValid(RemoveTodo(todos, caller, id).store)
  {
    var st := RemoveTodo(todos, caller, id);
    forall i | 0 <= i < |st.store|
      ensures IsTodoStatus(st.store[i].status)
    {
      assert st.store[i] in multiset(st.store);
      assert st.store[i] in multiset(todos);
      assert st.store[i] in todos;
    }
  }

  // ---------------------------------------------------------------------
  // status toggle

  /** `switchStatus`: the caller's todo with its status toggled, stored, and
      announced in the message. */
  function SwitchTodoStatus(todos: seq<Todo>, caller: UserId, id: IdParam): (st: Step<seq<Todo>, Todo>)
    ensures |st.replies| == 1
    ensures id.Malformed? ==> st == Reply(todos, NotFound("Invalid Id!"))
    ensures id.ObjectId? && (forall i :: 0 <= i < |todos| ==> !OwnedBy(id.id, caller)(todos[i])) ==>
      st == Reply(todos, NotFoundDefault())
    ensures st.Delivered().meta.status != StatusOk ==> st.store == todos
    ensures st.Delivered().meta.status == StatusOk ==>
      (exists i :: 0 <= i < |todos| && OwnedBy(id.id, caller)(todos[i])
         && st.store == todos[i := todos[i].(status := SwitchStatus(todos[i].status))]
         && st.Delivered() == Success(Some(st.store[i]),
                                      "Success switch todo status to " + SwitchStatus(todos[i].status) + "!"))
    ensures id.ObjectId? && (exists i :: 0 <= i < |todos| && OwnedBy(id.id, caller)(todos[i])) ==>
      st.Delivered().meta.status == StatusOk
  {
    match id
    case Malformed => Reply(todos, NotFound("Invalid Id!"))
    case ObjectId(nid) =>
      match FindFirst(todos, OwnedBy(nid, caller))
      case None => Reply(todos, NotFoundDefault())
      case Some(i) =>
        var s := SwitchStatus(todos[i].status);
        var after := todos[i := todos[i].(status := s)];
        assert after[i] == todos[i].(status := s);
        Reply(after, Success(Some(after[i]), "Success switch todo status to " + s + "!"))
  }

  lemma SwitchKeepsStatusesValid(todos: seq<Todo>, caller: UserId, id: IdParam)
    requires StatusesValid(todos)
    ensures StatusesValid(SwitchTodoStatus(todos, caller, id).store)
  {
  }

  /** Toggling the same todo twice restores the store when every status is
      one of the two. */
  lemma SwitchTwiceRestores(todos: seq<Todo>, caller: UserId, id: IdParam)
    requires StatusesValid(todos)
    ensures SwitchTodoStatus(SwitchTodoStatus(todos, caller, id).store, caller, id).store == todos
  {
    match id
    case Malformed =>
    case ObjectId(nid) =>
      match FindFirst(todos, OwnedBy(nid, caller))
      case None =>
      case Some(i) =>
        var once := SwitchTodoStatus(todos, caller, id).store;
        assert once == todos[i := todos[i].(status := SwitchStatus(todos[i].status))];
        assert forall j :: 0 <= j < |todos| ==> OwnedBy(nid, caller)(once[j]) == OwnedBy(nid, caller)(todos[j]);
        assert FindFirst(once, OwnedBy(nid, caller)) == Some(i);
        SwitchStatusTwice(todos[i].status);
  }
}

=== FILE: todo_model.dfy ===
/** The todo record: the two statuses, the body schema, the schema default
    status, and the status toggle. */
module TodoModel {
  import opened Wrappers
  import opened Ids
  import opened Timeline

  const Pending: string := "pending"
  const Completed: string := "completed"

  /** `Object.values(TODO_STATUS)`. */
  predicate IsTodoStatus(s: string) {
    s == Pending || s == Completed
  }

  datatype Todo = Todo(
    id: DocId,
    title: string,
    description: Option<string>,
    dueDate: Instant,
    status: string,
    userId: UserId)

  /** A request body. `status` is `None` when absent or null. */
  datatype TodoBody = TodoBody(
    title: string,
    description: Option<string>,
    dueDate: Option<Instant>,
    status: Option<string>)

  /** The body schema: title and due date required; a status, when given, one of the two. */
  function ValidateTodo(b: TodoBody): (r: Option<string>)
    ensures r.None? <==> b.title != "" && b.dueDate.Some? && (b.status.Some? ==> IsTodoStatus(b.status.value))
  {
    if b.title == "" then Some("title is a required field")
    else if b.dueDate.None? then Some("dueDate is a required field")
    else if b.status.Some? && !IsTodoStatus(b.status.value) then
      Some("status must be one of the following values: pending, completed")
    else None
  }

  /** `TodoModel.create({ title, description, dueDate, userId })`: the body's
      status is not passed on, so the schema default applies. */
  function NewTodo(id: DocId, b: TodoBody, userId: UserId): (t: Todo)
    requires b.dueDate.Some?
    ensures t.id == id && t.userId == userId && t.title == b.title
    ensures t.description == b.description && t.dueDate == b.dueDate.value
    ensures t.status == "pending" && IsTodoStatus(t.status)
  {
    Todo(id, b.title, b.description, b.dueDate.value, Pending, userId)
  }

  /** The toggle: completed becomes pending, anything else becomes completed. */
  function SwitchStatus(s: string): (r: string)
    ensures IsTodoStatus(r)
    ensures r == Pending <==> s == Completed
  {
    if s == Completed then Pending else Completed
  }

  /** Toggling twice gives back the status exactly when it is one of the two. */
  lemma SwitchStatusTwice(s: string)
    ensures SwitchStatus(SwitchStatus(s)) == s <==> IsTodoStatus(s)
  {
  }
}

=== FILE: todo_query.dfy ===
/** The todo list predicate: always the owner; text search and status when
    given; a due-date bound from the `dueDate` parameter, which a recognised
    `range` token then replaces. Time is the abstract timeline; `now` is the
    clock reading of the request. */
module TodoQuery {
  import opened Wrappers
  import opened Ids
  import opened Timeline
  import opened TodoModel

  /** A bound on `dueDate`: none, `$gte`/`$lt`, `$gte`/`$lte`, or `$lt` alone. */
  datatype DueBound =
    | AnyDue
    | HalfOpen(from: Instant, until: Instant)
    | Closed(from: Instant, until: Instant)
    | Before(until: Instant)

  predicate InBound(b: DueBound, x: Instant) {
    match b
    case AnyDue => true
    case HalfOpen(from, until) => from <= x < until
    case Closed(from, until) => from <= x <= until
    case Before(until) => x < until
  }

  /** The list parameters; an empty string is an absent parameter, and
      `dueDate` arrives already read as an instant. */
  datatype TodoFilter = TodoFilter(
    search: string, status: string, dueDate: Option<Instant>, range: string, upcoming: string)

  datatype Query = Query(userId: UserId, search: Option<string>, status: Option<string>, due: DueBound)

  /** Days ahead for the closed-ended tokens: today 0, tomorrow 1, next7 7, next30 30. */
  function RangeDays(range: string): (r: Option<nat>)
    ensures r.Some? <==> range in ["today", "tomorrow", "next7", "next30"]
    ensures range == "today" ==> r == Some(0)
    ensures range == "tomorrow" ==> r == Some(1)
    ensures range == "next7" ==> r == Some(7)
    ensures range == "next30" ==> r == Some(30)
  {
    if range == "today" then Some(0)
    else if range == "tomorrow" then Some(1)
    else if range == "next7" then Some(7)
    else if range == "next30" then Some(30)
    else None
  }

  /** The lower bound of a range: the request instant when `upcoming` is the
      string "true", midnight of today otherwise. */
  function RangeStart(now: Instant, upcoming: string): (r: Instant)
    ensures upcoming == "true" ==> r == now
    ensures upcoming != "true" ==> r == StartOfDay(now)
  {
    if upcoming == "true" then now else StartOfDay(now)
  }

  /** The `dueDate` parameter: from that instant up to, but excluding,
      23:59:59.999 of its day. */
  function DueDateBound(dueDate: Option<Instant>): (b: DueBound)
    ensures dueDate.None? ==> b == AnyDue
    ensures dueDate.Some? ==> forall x :: InBound(b, x) <==> dueDate.value <= x < EndOfDay(dueDate.value)
  {
    match dueDate
    case None => AnyDue
    case Some(d) => HalfOpen(d, EndOfDay(d))
  }

  /** The `range` parameter applied after `dueDate`: `overdue` leaves only
      `dueDate < now`; the other tokens end at 23:59:59.999 of the day `n` days
      ahead (exclusive); anything else leaves the bound as it was. */
  function ApplyRange(due: DueBound, range: string, upcoming: string, now: Instant): (b: DueBound)
    ensures range == "overdue" ==> b == Before(now)
    ensures RangeDays(range).Some? ==>
      b == HalfOpen(RangeStart(now, upcoming), EndOfDay(AddDays(now, RangeDays(range).value)))
    ensures range != "overdue" && RangeDays(range).None? ==> b == due
  {
    if range == "" then due
    else if range == "overdue" then Before(now)
    else match RangeDays(range)
      case Some(n) => HalfOpen(RangeStart(now, upcoming), EndOfDay(AddDays(now, n)))
      case None => due
  }

  function BuildQuery(f: TodoFilter, userId: UserId, now: Instant): (q: Query)
    ensures q.userId == userId
    ensures q.search.Some? <==> f.search != ""
    ensures q.search.Some? ==> q.search.value == f.search
    ensures q.status.Some? <==> f.status != ""
    ensures q.status.Some? ==> q.status.value == f.status
    ensures q.due == ApplyRange(DueDateBound(f.dueDate), f.range, f.upcoming, now)
  {
    Query(userId,
          if f.search != "" then Some(f.search) else None,
          if f.status != "" then Some(f.status) else None,
          ApplyRange(DueDateBound(f.dueDate), f.range, f.upcoming, now))
  }

  /** `toDoToday`: the owner's todos due between midnight and 23:59:59.999 of
      today, both ends included. */
  function TodayQuery(userId: UserId, now: Instant): (q: Query)
    ensures q.userId == userId && q.search.None? && q.status.None?
    ensures forall x :: InBound(q.due, x) <==> DayOf(x) == DayOf(now)
  {
    var q := Query(userId, None, None, Closed(StartOfDay(now), EndOfDay(now)));
    assert forall x :: InBound(q.due, x) <==> DayOf(x) == DayOf(now) by {
      forall x ensures InBound(q.due, x) <==> DayOf(x) == DayOf(now) {
        AtOrAfterStartOfDay(now, x);
        AtOrBeforeEndOfDay(now, x);
      }
    }
    q
  }

  /** Whether a todo satisfies a query; full-text search is the opaque `textHit`. */
  predicate Matches(q: Query, t: Todo, textHit: (string, Todo) -> bool) {
    && t.userId == q.userId
    && (q.search.Some? ==> textHit(q.search.value, t))
    && (q.status.Some? ==> t.status == q.status.value)
    && InBound(q.due, t.dueDate)
  }

  // ---------------------------------------------------------------------
  // what the bounds mean, in days

  /** A `dueDate` at midnight selects its day except its last millisecond. */
  lemma DueDateSelectsDayButLastMs(d: Instant, x: Instant)
    requires StartOfDay(d) == d
    ensures InBound(DueDateBound(Some(d)), x) <==> DayOf(x) == DayOf(d) && x != EndOfDay(d)
  {
    AtOrAfterStartOfDay(d, x);
    BeforeEndOfDay(d, x);
  }

  /** The closed-ended tokens without `upcoming`: the days from today to `n`
      days ahead, less the last millisecond of the last day. */
  lemma RangeSelectsDays(range: string, upcoming: string, now: Instant, x: Instant)
    requires RangeDays(range).Some? && upcoming != "true"
    ensures var n := RangeDays(range).value;
      (InBound(ApplyRange(AnyDue, range, upcoming, now), x)
       <==> DayOf(now) <= DayOf(x) <= DayOf(now) + n && x != EndOfDay(AddDays(now, n)))
  {
    var n := RangeDays(range).value;
    AtOrAfterStartOfDay(now, x);
    BeforeEndOfDay(AddDays(now, n), x);
  }

  /** With `upcoming`, the same ranges start at the request instant instead. */
  lemma UpcomingStartsNow(range: string, now: Instant, x: Instant)
    requires RangeDays(range).Some?
    ensures var n := RangeDays(range).value;
      (InBound(ApplyRange(AnyDue, range, "true", now), x)
       <==> now <= x && DayOf(x) <= DayOf(now) + n && x != EndOfDay(AddDays(now, n)))
  {
    var n := RangeDays(range).value;
    BeforeEndOfDay(AddDays(now, n), x);
  }

  /** `overdue` has no lower bound and ignores `upcoming` and `dueDate`. */
  lemma OverdueIsBeforeNow(f: TodoFilter, userId: UserId, now: Instant, x: Instant)
    requires f.range == "overdue"
    ensures InBound(BuildQuery(f, userId, now).due, x) <==> x < now
  {
  }

  /** A recognised token discards the `dueDate` bound; anything else keeps it. */
  lemma RangeOverridesDueDate(f: TodoFilter, userId: UserId, now: Instant)
    ensures f.range in ["today", "tomorrow", "next7", "next30", "overdue"] ==>
      BuildQuery(f, userId, now) == BuildQuery(f.(dueDate := None), userId, now)
    ensures f.range !in ["today", "tomorrow", "next7", "next30", "overdue"] ==>
      BuildQuery(f, userId, now).due == DueDateBound(f.dueDate)
  {
  }

  /** The `today` token and the today handler disagree on exactly one instant:
      23:59:59.999 of today, which only the handler includes. */
  lemma TodayTokenVersusTodayHandler(userId: UserId, now: Instant, t: Todo, textHit: (string, Todo) -> bool)
    ensures Matches(TodayQuery(userId, now), t, textHit)
      <==> Matches(BuildQuery(TodoFilter("", "", None, "today", ""), userId, now), t, textHit)
           || (t.userId == userId && t.dueDate == EndOfDay(now))
  {
    RangeSelectsDays("today", "", now, t.dueDate);
    assert AddDays(now, 0) == now;
  }
}

=== FILE: transaction_aggregate.dfy ===
/** The two aggregation pipelines over the matched transactions: the income /
    expense totals (types compared after trimming and lower-casing), and the
    summary grouped by type and then by category (raw type strings). */
module TransactionAggregate {
  import opened Wrappers
  import opened Seqs
  import opened Text
  import opened TransactionModel

  /** `{ $toLower: { $trim: { input: "$type" } } }`. */
  function NormalizeType(s: string): string {
    AsciiLower(Trim(s))
  }

  datatype Totals = Totals(totalIncome: int, totalExpense: int, count: nat)

  function IncomeAmount(t: Transaction): int {
    if NormalizeType(t.txType) == "income" then t.amount else 0
  }

  function ExpenseAmount(t: Transaction): int {
    if NormalizeType(t.txType) == "expense" then t.amount else 0
  }

  /** One `$group` accumulator step. */
  function AddTo(acc: Totals, t: Transaction): (r: Totals)
    ensures r.count == acc.count + 1
  {
    Totals(acc.totalIncome + IncomeAmount(t), acc.totalExpense + ExpenseAmount(t), acc.count + 1)
  }

  /** The `_id: null` group folded over the matched transactions in order. */
  function GroupTotals(ts: seq<Transaction>): Totals {
    if |ts| == 0 then Totals(0, 0, 0) else AddTo(GroupTotals(ts[..|ts| - 1]), ts[|ts| - 1])
  }

  /** The fold is the three sums: the normalised-income amounts, the
      normalised-expense amounts, and the number of transactions. */
  lemma {:induction false} GroupTotalsAreSums(ts: seq<Transaction>)
    ensures GroupTotals(ts) == Totals(Sum(ts, IncomeAmount), Sum(ts, ExpenseAmount), |ts|)
    decreases |ts|
  {
    if |ts| > 0 {
      GroupTotalsAreSums(ts[..|ts| - 1]);
    }
  }

  /** Totals of two batches add up. */
  lemma GroupTotalsAppend(a: seq<Transaction>, b: seq<Transaction>)
    ensures GroupTotals(a + b).totalIncome == GroupTotals(a).totalIncome + GroupTotals(b).totalIncome
    ensures GroupTotals(a + b).totalExpense == GroupTotals(a).totalExpense + GroupTotals(b).totalExpense
    ensures GroupTotals(a + b).count == GroupTotals(a).count + GroupTotals(b).count
  {
    GroupTotalsAreSums(a);
    GroupTotalsAreSums(b);
    GroupTotalsAreSums(a + b);
    SumAppend(a, b, IncomeAmount);
    SumAppend(a, b, ExpenseAmount);
  }

  /** The pipeline's result: no group at all when nothing matched, otherwise
      the one group. */
  function AggregateTotals(ts: seq<Transaction>): (r: seq<Totals>)
    ensures |r| == 0 <==> |ts| == 0
    ensures |r| <= 1
  {
    if |ts| == 0 then [] else [GroupTotals(ts)]
  }

  /** `result[0] || { totalIncome: 0, totalExpense: 0, count: 0 }`. */
  function TotalsReply(result: seq<Totals>): (r: Totals)
    ensures |result| > 0 ==> r == result[0]
    ensures |result| == 0 ==> r == Totals(0, 0, 0)
  {
    if |result| > 0 then result[0] else Totals(0, 0, 0)
  }

  /** The reply always equals the fold, the empty case included: the default
      object is exactly the fold's starting value. */
  lemma TotalsReplyIsFold(ts: seq<Transaction>)
    ensures TotalsReply(AggregateTotals(ts)) == GroupTotals(ts)
    ensures TotalsReply(AggregateTotals(ts)).count == |ts|
  {
    GroupTotalsAreSums(ts);
  }

  /** The enum values are their own normal form. */
  lemma NormalizeEnumValues()
    ensures NormalizeType("income") == "income"
    ensures NormalizeType("expense") == "expense"
  {
    TrimUnchanged("income");
    TrimUnchanged("expense");
  }

  /** Over schema-valid transactions every amount lands in exactly one of the
      two totals, so together they are the sum of all amounts. */
  lemma {:induction false} ValidTotalsPartition(ts: seq<Transaction>)
    requires forall i :: 0 <= i < |ts| ==> SchemaValid(ts[i])
    ensures GroupTotals(ts).totalIncome + GroupTotals(ts).totalExpense == Sum(ts, (t: Transaction) => t.amount)
    decreases |ts|
  {
    if |ts| > 0 {
      var init, t := ts[..|ts| - 1], ts[|ts| - 1];
      assert forall i :: 0 <= i < |init| ==> init[i] == ts[i];
      ValidTotalsPartition(init);
      ValidAmountSplits(t);
      assert GroupTotals(ts) == AddTo(GroupTotals(init), t);
    }
  }

  /** A schema-valid amount counts as income or as expense, not both. */
  lemma ValidAmountSplits(t: Transaction)
    requires SchemaValid(t)
    ensures IncomeAmount(t) + ExpenseAmount(t) == t.amount
  {
    NormalizeEnumValues();
  }

  lemma TrimStartPadded()
    ensures TrimStart(" Income ") == "Income "
  {
    var s := " Income ";
    assert IsTrimSpace(s[0]) && s[1..] == "Income ";
    assert !IsTrimSpace("Income "[0]);
  }

  lemma TrimEndPadded()
    ensures TrimEnd("Income ") == "Income"
  {
    assert IsTrimSpace("Income "[6]) && "Income "[..6] == "Income";
    assert !IsTrimSpace("Income"[5]);
  }

  lemma TrimPaddedIncome()
    ensures Trim(" Income ") == "Income"
  {
    TrimStartPadded();
    TrimEndPadded();
  }

  lemma LowerIncome()
    ensures AsciiLower("Income") == "income"
  {
    var r := AsciiLower("Income");
    assert LowerChar('I') == 'i';
    forall i | 1 <= i < 6
      ensures r[i] == "income"[i]
    {
      assert "Income"[i] == "income"[i];
    }
  }

  /** Trimming and lower-casing make a stray " Income " count as income. */
  lemma StrayCaseCountsAsIncome()
    ensures NormalizeType(" Income ") == "income"
  {
    TrimPaddedIncome();
    LowerIncome();
  }

  /** One income of 1000000 and nothing else. */
  lemma OneSalaryTotals(t: Transaction)
    requires t.txType == "income" && t.amount == 1000000
    ensures TotalsReply(AggregateTotals([t])) == Totals(1000000, 0, 1)
  {
    NormalizeEnumValues();
    TotalsReplyIsFold([t]);
    GroupTotalsAreSums([t]);
    SumSingleton(t, IncomeAmount);
    SumSingleton(t, ExpenseAmount);
  }

  lemma SumSingleton<T>(x: T, f: T -> int)
    ensures Sum([x], f) == f(x)
  {
    assert [x][..0] == [];
  }

  /** Sum of a sequence after one element is replaced. */
  lemma SumUpdate<T>(s: seq<T>, k: nat, x: T, f: T -> int)
    requires k < |s|
    ensures Sum(s[k := x], f) == Sum(s, f) - f(s[k]) + f(x)
  {
    assert s == s[..k] + [s[k]] + s[k + 1..];
    assert s[k := x] == s[..k] + [x] + s[k + 1..];
    SumAppend(s[..k] + [s[k]], s[k + 1..], f);
    SumAppend(s[..k], [s[k]], f);
    SumAppend(s[..k] + [x], s[k + 1..], f);
    SumAppend(s[..k], [x], f);
    SumSingleton(s[k], f);
    SumSingleton(x, f);
  }

  lemma {:induction false} SumZero<T>(s: seq<T>, f: T -> int)
    requires forall n :: 0 <= n < |s| ==> f(s[n]) == 0
    ensures Sum(s, f) == 0
    decreases |s|
  {
    if |s| > 0 {
      SumZero(s[..|s| - 1], f);
    }
  }

  // ---------------------------------------------------------------------
  // summary by category

  datatype CategoryTotal = CategoryTotal(category: string, total: int)

  /** `{ _id: type, categories: [{ category, total }] }`. */
  datatype TypeGroup = TypeGroup(txType: string, categories: seq<CategoryTotal>)

  /** The amount a transaction adds to the (type, category) group. */
  function PairAmount(txType: string, category: string): Transaction -> int {
    (t: Transaction) => if t.txType == txType && t.category == category then t.amount else 0
  }

  /** The amount a transaction adds to the type group. */
  function TypeAmount(txType: string): Transaction -> int {
    (t: Transaction) => if t.txType == txType then t.amount else 0
  }

  function CategorySum(cs: seq<CategoryTotal>): int {
    Sum(cs, (c: CategoryTotal) => c.total)
  }

  function FindType(gs: seq<TypeGroup>, txType: string): (r: Option<nat>)
    ensures r.Some? ==> r.value < |gs| && gs[r.value].txType == txType
    ensures r.None? ==> forall i :: 0 <= i < |gs| ==> gs[i].txType != txType
  {
    FindFirst(gs, (g: TypeGroup) => g.txType == txType)
  }

  function FindCategory(cs: seq<CategoryTotal>, category: string): (r: Option<nat>)
    ensures r.Some? ==> r.value < |cs| && cs[r.value].category == category
    ensures r.None? ==> forall i :: 0 <= i < |cs| ==> cs[i].category != category
  {
    FindFirst(cs, (c: CategoryTotal) => c.category == category)
  }

  /** Adds one amount to a category list: to its entry, or as a new last entry. */
  function AddToCategories(cs: seq<CategoryTotal>, category: string, amount: int): seq<CategoryTotal> {
    match FindCategory(cs, category)
    case Some(k) => cs[k := CategoryTotal(category, cs[k].total + amount)]
    case None => cs + [CategoryTotal(category, amount)]
  }

  /** Both `$group` stages, one transaction at a time; groups and categories
      appear in the order their first transaction does. */
  function AddToSummary(gs: seq<TypeGroup>, t: Transaction): seq<TypeGroup> {
    match FindType(gs, t.txType)
    case Some(i) => gs[i := TypeGroup(t.txType, AddToCategories(gs[i].categories, t.category, t.amount))]
    case None => gs + [TypeGroup(t.txType, [CategoryTotal(t.category, t.amount)])]
  }

  function Summary(ts: seq<Transaction>): seq<TypeGroup> {
    if |ts| == 0 then [] else AddToSummary(Summary(ts[..|ts| - 1]), ts[|ts| - 1])
  }

  /** The category list of a type group is exact for `ts`: one entry per
      category, each the sum of its transactions, every transaction of the
      type represented, all of them adding up to the type's sum. */
  ghost predicate CategoriesExact(cs: seq<CategoryTotal>, ts: seq<Transaction>, txType: string) {
    && (forall k, l :: 0 <= k < l < |cs| ==> cs[k].category != cs[l].category)
    && (forall k :: 0 <= k < |cs| ==> cs[k].total == Sum(ts, PairAmount(txType, cs[k].category)))
    && (forall n :: 0 <= n < |ts| && ts[n].txType == txType ==> FindCategory(cs, ts[n].category).Some?)
    && CategorySum(cs) == Sum(ts, TypeAmount(txType))
  }

  /** A summary is exact for `ts`: one group per type, each group's category
      list exact, and a group for the type of every transaction. */
  ghost predicate SummaryExact(gs: seq<TypeGroup>, ts: seq<Transaction>) {
    && (forall i, j :: 0 <= i < j < |gs| ==> gs[i].txType != gs[j].txType)
    && (forall i :: 0 <= i < |gs| ==> CategoriesExact(gs[i].categories, ts, gs[i].txType))
    && (forall n :: 0 <= n < |ts| ==> FindType(gs, ts[n].txType).Some?)
  }

  /** A transaction of another type adds nothing to this type's sums. */
  lemma OtherTypeKeepsExact(cs: seq<CategoryTotal>, ts: seq<Transaction>, txType: string, t: Transaction)
    requires CategoriesExact(cs, ts, txType) && t.txType != txType
    ensures CategoriesExact(cs, ts + [t], txType)
  {
    var ts' := ts + [t];
    SumAppend(ts, [t], TypeAmount(txType));
    SumSingleton(t, TypeAmount(txType));
    forall k | 0 <= k < |cs|
      ensures cs[k].total == Sum(ts', PairAmount(txType, cs[k].category))
    {
      SumAppend(ts, [t], PairAmount(txType, cs[k].category));
      SumSingleton(t, PairAmount(txType, cs[k].category));
    }
    forall n | 0 <= n < |ts'| && ts'[n].txType == txType
      ensures FindCategory(cs, ts'[n].category).Some?
    {
      assert n < |ts| && ts'[n] == ts[n];
    }
  }

  /** Adding `t` to an exact category list of its own type keeps it exact. */
  lemma AddToCategoriesKeepsExact(cs: seq<CategoryTotal>, ts: seq<Transaction>, t: Transaction)
    requires CategoriesExact(cs, ts, t.txType)
    ensures CategoriesExact(AddToCategories(cs, t.category, t.amount), ts + [t], t.txType)
  {
    var r := AddToCategories(cs, t.category, t.amount);
    match FindCategory(cs, t.category)
    case Some(k) =>
      assert r == cs[k := CategoryTotal(t.category, cs[k].total + t.amount)];
      AddToExistingCategory(cs, ts, t, k);
    case None =>
      assert r == cs + [CategoryTotal(t.category, t.amount)];
      AddNewCategory(cs, ts, t);
  }

  lemma AddToExistingCategory(cs: seq<CategoryTotal>, ts: seq<Transaction>, t: Transaction, k: nat)
    requires CategoriesExact(cs, ts, t.txType) && FindCategory(cs, t.category) == Some(k)
    ensures CategoriesExact(cs[k := CategoryTotal(t.category, cs[k].total + t.amount)], ts + [t], t.txType)
  {
    var ts' := ts + [t];
    var r := cs[k := CategoryTotal(t.category, cs[k].total + t.amount)];
    ExistingCategoryTotals(cs, ts, t, k);
    ExistingCategorySum(cs, ts, t, k);
    SameCategoryUpdate(cs, k, r[k]);
    forall n | 0 <= n < |ts'| && ts'[n].txType == t.txType
      ensures FindCategory(r, ts'[n].category).Some?
    {
      if n < |ts| {
        assert ts'[n] == ts[n];
        assert FindCategory(cs, ts[n].category).Some?;
      }
    }
  }

  /** Each entry's total stays the sum of its pair after the update. */
  lemma ExistingCategoryTotals(cs: seq<CategoryTotal>, ts: seq<Transaction>, t: Transaction, k: nat)
    requires CategoriesExact(cs, ts, t.txType) && FindCategory(cs, t.category) == Some(k)
    ensures var r := cs[k := CategoryTotal(t.category, cs[k].total + t.amount)];
      forall j :: 0 <= j < |r| ==> r[j].total == Sum(ts + [t], PairAmount(t.txType, r[j].category))
  {
    var r := cs[k := CategoryTotal(t.category, cs[k].total + t.amount)];
    forall j | 0 <= j < |r|
      ensures r[j].total == Sum(ts + [t], PairAmount(t.txType, r[j].category))
    {
      SumAppend(ts, [t], PairAmount(t.txType, r[j].category));
      SumSingleton(t, PairAmount(t.txType, r[j].category));
      if j != k {
        assert r[j] == cs[j] && cs[j].category != t.category;
      }
    }
  }

  /** The entries still add up to the type's sum after the update. */
  lemma ExistingCategorySum(cs: seq<CategoryTotal>, ts: seq<Transaction>, t: Transaction, k: nat)
    requires CategoriesExact(cs, ts, t.txType) && FindCategory(cs, t.category) == Some(k)
    ensures CategorySum(cs[k := CategoryTotal(t.category, cs[k].total + t.amount)]) == Sum(ts + [t], TypeAmount(t.txType))
  {
    var r := cs[k := CategoryTotal(t.category, cs[k].total + t.amount)];
    SumAppend(ts, [t], TypeAmount(t.txType));
    SumSingleton(t, TypeAmount(t.txType));
    SumUpdate(cs, k, r[k], (c: CategoryTotal) => c.total);
  }

  /** Replacing a category entry by one of the same category keeps the
      categories and what `FindCategory` finds. */
  lemma SameCategoryUpdate(cs: seq<CategoryTotal>, k: nat, c: CategoryTotal)
    requires k < |cs| && c.category == cs[k].category
    ensures forall j :: 0 <= j < |cs| ==> cs[k := c][j].category == cs[j].category
    ensures forall x :: FindCategory(cs[k := c], x) == FindCategory(cs, x)
  {
    var r := cs[k := c];
    assert forall j :: 0 <= j < |cs| ==> r[j].category == cs[j].category;
    forall x
      ensures FindCategory(r, x) == FindCategory(cs, x)
    {
      if FindCategory(r, x).Some? {
        assert cs[FindCategory(r, x).value].category == x;
      }
      if FindCategory(cs, x).Some? {
        assert r[FindCategory(cs, x).value].category == x;
      }
    }
  }

  lemma AddNewCategory(cs: seq<CategoryTotal>, ts: seq<Transaction>, t: Transaction)
    requires CategoriesExact(cs, ts, t.txType) && FindCategory(cs, t.category).None?
    ensures CategoriesExact(cs + [CategoryTotal(t.category, t.amount)], ts + [t], t.txType)
  {
    var ty := t.txType;
    var ts' := ts + [t];
    var e := CategoryTotal(t.category, t.amount);
    var r := cs + [e];
    SumAppend(ts, [t], TypeAmount(ty));
    SumSingleton(t, TypeAmount(ty));
    SumAppend(cs, [e], (c: CategoryTotal) => c.total);
    SumSingleton(e, (c: CategoryTotal) => c.total);
    forall n | 0 <= n < |ts|
      ensures PairAmount(ty, t.category)(ts[n]) == 0
    {
      if ts[n].txType == ty {
        var c := FindCategory(cs, ts[n].category).value;
        assert cs[c].category == ts[n].category;
      }
    }
    SumZero(ts, PairAmount(ty, t.category));
    forall j | 0 <= j < |r|
      ensures r[j].total == Sum(ts', PairAmount(ty, r[j].category))
    {
      SumAppend(ts, [t], PairAmount(ty, r[j].category));
      SumSingleton(t, PairAmount(ty, r[j].category));
    }
    forall n | 0 <= n < |ts'| && ts'[n].txType == ty
      ensures FindCategory(r, ts'[n].category).Some?
    {
      if n < |ts| {
        assert ts'[n] == ts[n];
        var c := FindCategory(cs, ts[n].category).value;
        assert r[c].category == ts[n].category;
      } else {
        assert r[|cs|].category == t.category;
      }
    }
  }

  /** Adding a transaction keeps a summary exact. */
  lemma AddToSummaryKeepsExact(gs: seq<TypeGroup>, ts: seq<Transaction>, t: Transaction)
    requires SummaryExact(gs, ts)
    ensures SummaryExact(AddToSummary(gs, t), ts + [t])
  {
    match FindType(gs, t.txType)
    case Some(i) => AddToExistingGroupKeepsExact(gs, ts, t, i);
    case None => AddNewGroupKeepsExact(gs, ts, t);
  }

  /** A transaction of a type already grouped updates that group alone. */
  lemma AddToExistingGroupKeepsExact(gs: seq<TypeGroup>, ts: seq<Transaction>, t: Transaction, i: nat)
    requires SummaryExact(gs, ts) && FindType(gs, t.txType) == Some(i)
    ensures SummaryExact(AddToSummary(gs, t), ts + [t])
  {
    var ts' := ts + [t];
    var g := TypeGroup(t.txType, AddToCategories(gs[i].categories, t.category, t.amount));
    var r := gs[i := g];
    assert AddToSummary(gs, t) == r;
    SameTypeUpdate(gs, i, g);
    forall j | 0 <= j < |r|
      ensures CategoriesExact(r[j].categories, ts', r[j].txType)
    {
      if j == i {
        AddToCategoriesKeepsExact(gs[i].categories, ts, t);
      } else {
        OtherTypeKeepsExact(gs[j].categories, ts, gs[j].txType, t);
      }
    }
    forall n | 0 <= n < |ts'|
      ensures FindType(r, ts'[n].txType).Some?
    {
      if n < |ts| {
        assert ts'[n] == ts[n];
        assert FindType(gs, ts[n].txType).Some?;
      }
    }
  }

  /** Replacing a group by one of the same type keeps the types and what
      `FindType` finds. */
  lemma SameTypeUpdate(gs: seq<TypeGroup>, i: nat, g: TypeGroup)
    requires i < |gs| && g.txType == gs[i].txType
    ensures forall j :: 0 <= j < |gs| ==> gs[i := g][j].txType == gs[j].txType
    ensures forall x :: FindType(gs[i := g], x) == FindType(gs, x)
  {
    var r := gs[i := g];
    assert forall j :: 0 <= j < |gs| ==> r[j].txType == gs[j].txType;
    forall x
      ensures FindType(r, x) == FindType(gs, x)
    {
      SameTypesFindSame(gs, r, x);
    }
  }

  /** Two group lists with the same types position by position find alike. */
  lemma SameTypesFindSame(a: seq<TypeGroup>, b: seq<TypeGroup>, x: string)
    requires |a| == |b| && forall j :: 0 <= j < |a| ==> a[j].txType == b[j].txType
    ensures FindType(a, x) == FindType(b, x)
  {
    if FindType(a, x).Some? {
      assert b[FindType(a, x).value].txType == x;
    }
    if FindType(b, x).Some? {
      assert a[FindType(b, x).value].txType == x;
    }
  }

  /** A transaction of a new type appends a group for it. */
  lemma AddNewGroupKeepsExact(gs: seq<TypeGroup>, ts: seq<Transaction>, t: Transaction)
    requires SummaryExact(gs, ts) && FindType(gs, t.txType).None?
    ensures SummaryExact(AddToSummary(gs, t), ts + [t])
  {
    var ts' := ts + [t];
    var r := gs + [TypeGroup(t.txType, [CategoryTotal(t.category, t.amount)])];
    assert AddToSummary(gs, t) == r;
    forall j | 0 <= j < |r|
      ensures CategoriesExact(r[j].categories, ts', r[j].txType)
    {
      if j < |gs| {
        OtherTypeKeepsExact(gs[j].categories, ts, gs[j].txType, t);
      } else {
        NewGroupExact(gs, ts, t);
      }
    }
    forall n | 0 <= n < |ts'|
      ensures FindType(r, ts'[n].txType).Some?
    {
      if n < |ts| {
        assert ts'[n] == ts[n];
        var c := FindType(gs, ts[n].txType).value;
        assert r[c].txType == ts[n].txType;
      } else {
        assert r[|gs|].txType == t.txType;
      }
    }
  }

  /** The first transaction of a type starts an exact group. */
  lemma NewGroupExact(gs: seq<TypeGroup>, ts: seq<Transaction>, t: Transaction)
    requires SummaryExact(gs, ts) && FindType(gs, t.txType).None?
    ensures CategoriesExact([CategoryTotal(t.category, t.amount)], ts + [t], t.txType)
  {
    var ty := t.txType;
    var cs := [CategoryTotal(t.category, t.amount)];
    forall n | 0 <= n < |ts|
      ensures ts[n].txType != ty
    {
      var c := FindType(gs, ts[n].txType).value;
      assert gs[c].txType == ts[n].txType;
    }
    SumZero(ts, TypeAmount(ty));
    SumZero(ts, PairAmount(ty, t.category));
    SumAppend(ts, [t], TypeAmount(ty));
    SumSingleton(t, TypeAmount(ty));
    SumAppend(ts, [t], PairAmount(ty, t.category));
    SumSingleton(t, PairAmount(ty, t.category));
    SumSingleton(cs[0], (c: CategoryTotal) => c.total);
    forall n | 0 <= n < |ts + [t]| && (ts + [t])[n].txType == ty
      ensures FindCategory(cs, (ts + [t])[n].category).Some?
    {
      assert n == |ts|;
    }
  }

  lemma {:induction false} SummaryExactFor(ts: seq<Transaction>)
    ensures SummaryExact(Summary(ts), ts)
    decreases |ts|
  {
    if |ts| > 0 {
      var init, last := ts[..|ts| - 1], ts[|ts| - 1];
      var before := Summary(init);
      assert init + [last] == ts;
      assert Summary(ts) == AddToSummary(before, last);
      SummaryExactFor(init);
      AddToSummaryKeepsExact(before, init, last);
    }
  }

  /** The summary lists each type once, each category once within its type,
      every transaction's type and category, each category with the sum of its
      amounts, and each type's categories adding up to the type's sum. */
  lemma SummaryIsExact(ts: seq<Transaction>)
    ensures var gs := Summary(ts);
      && (forall i, j :: 0 <= i < j < |gs| ==> gs[i].txType != gs[j].txType)
      && (forall i, k, l :: 0 <= i < |gs| && 0 <= k < l < |gs[i].categories| ==>
            gs[i].categories[k].category != gs[i].categories[l].category)
      && (forall i, k :: 0 <= i < |gs| && 0 <= k < |gs[i].categories| ==>
            gs[i].categories[k].total == Sum(ts, PairAmount(gs[i].txType, gs[i].categories[k].category)))
      && (forall i :: 0 <= i < |gs| ==> CategorySum(gs[i].categories) == Sum(ts, TypeAmount(gs[i].txType)))
      && (forall n :: 0 <= n < |ts| ==>
            && FindType(gs, ts[n].txType).Some?
            && FindCategory(gs[FindType(gs, ts[n].txType).value].categories, ts[n].category).Some?)
  {
    var gs := Summary(ts);
    SummaryExactFor(ts);
    forall n | 0 <= n < |ts|
      ensures FindCategory(gs[FindType(gs, ts[n].txType).value].categories, ts[n].category).Some?
    {
      var i := FindType(gs, ts[n].txType).value;
      assert CategoriesExact(gs[i].categories, ts, gs[i].txType);
    }
  }

  /** Nothing is invented: every group is the type of some transaction. */
  lemma {:induction false} SummaryGroupsComeFromData(ts: seq<Transaction>, i: nat)
    requires i < |Summary(ts)|
    ensures exists n :: 0 <= n < |ts| && ts[n].txType == Summary(ts)[i].txType
    decreases |ts|
  {
    var init := ts[..|ts| - 1];
    var t := ts[|ts| - 1];
    var gs := Summary(init);
    assert Summary(ts) == AddToSummary(gs, t);
    match FindType(gs, t.txType)
    case Some(k) =>
      if i == k {
        assert ts[|ts| - 1].txType == Summary(ts)[i].txType;
      } else {
        SummaryGroupsComeFromData(init, i);
        var n :| 0 <= n < |init| && init[n].txType == gs[i].txType;
        assert ts[n] == init[n];
      }
    case None =>
      if i < |gs| {
        SummaryGroupsComeFromData(init, i);
        var n :| 0 <= n < |init| && init[n].txType == gs[i].txType;
        assert ts[n] == init[n];
      } else {
        assert ts[|ts| - 1].txType == Summary(ts)[i].txType;
      }
  }
}

=== FILE: transaction_controller.dfy ===
/** The transaction handlers. Each first checks the caller's id from the token;
    the store is shared by all owners and most lookups are owner-scoped. */
module TransactionController {
  import opened Wrappers
  import opened Seqs
  import opened Ids
  import opened Response
  import opened Pagination
  import opened TransactionModel
  import opened TransactionQuery
  import opened TransactionAggregate

  const InvalidUserId: string := "Invalid userId!"
  const TransactionNotFound: string := "Transaction not found"

  /** `{ _id: id, userId }`. */
  function OwnedBy(id: DocId, owner: UserId): Transaction -> bool {
    (t: Transaction) => t.id == id && t.userId == owner
  }

  /** Every stored transaction passes the document schema. */
  ghost predicate AllSchemaValid(txs: seq<Transaction>) {
    forall i :: 0 <= i < |txs| ==> SchemaValid(txs[i])
  }

  // ---------------------------------------------------------------------
  // create

  /** `create`: the body schema, then the document schema on save. */
  function CreateTransaction(txs: seq<Transaction>, caller: IdParam, b: TxBody): (st: Step<seq<Transaction>, Transaction>)
    ensures |st.replies| == 1
    ensures caller.Malformed? ==> st == Reply(txs, NotFound("Invalid userId!"))
    ensures caller.ObjectId? && ValidateBody(b).Some? ==> st == Reply(txs, Error(ValidateBody(b).value))
    ensures st.Delivered().meta.status == StatusOk <==>
      caller.ObjectId? && ValidateBody(b).None? && (b.txType == "income" || b.txType == "expense")
    ensures st.Delivered().meta.status != StatusOk ==> st.store == txs
    ensures st.Delivered().meta.status == StatusOk ==>
      |st.store| == |txs| + 1 && st.store[..|txs|] == txs
      && st.Delivered() == Success(Some(st.store[|txs|]), "Create transaction success!")
      && st.store[|txs|].userId == caller.id && st.store[|txs|].amount == b.amount.value
      && st.store[|txs|].category == b.category && st.store[|txs|].txType == b.txType
      && st.store[|txs|] == FromBody(st.store[|txs|].id, b, caller.id)
      && (forall i :: 0 <= i < |txs| ==> txs[i].id != st.store[|txs|].id)
      && SchemaValid(st.store[|txs|])
  {
    match caller
    case Malformed => Reply(txs, NotFound(InvalidUserId))
    case ObjectId(owner) =>
      match ValidateBody(b)
      case Some(msg) => Reply(txs, Error(msg))
      case None =>
        var t := FromBody(NextId(txs, (x: Transaction) => x.id), b, owner);
        BodySchemaAndTypeGiveSchemaValid(t.id, b, owner);
        match ValidateSchema(t)
        case Some(msg) => Reply(txs, Error(msg))
        case None => Reply(txs + [t], Success(Some(t), "Create transaction success!"))
  }

  lemma CreateKeepsSchemaValid(txs: seq<Transaction>, caller: IdParam, b: TxBody)
    requires AllSchemaValid(txs)
    ensures AllSchemaValid(CreateTransaction(txs, caller, b).store)
  {
    var st := CreateTransaction(txs, caller, b);
    if st.Delivered().meta.status == StatusOk {
      forall i | 0 <= i < |st.store|
        ensures SchemaValid(st.store[i])
      {
        if i < |txs| { assert st.store[i] == st.store[..|txs|][i]; }
      }
    }
  }

  // ---------------------------------------------------------------------
  // list

  /** The transactions a query selects, in store order. */
  function Selected(txs: seq<Transaction>, q: Query): seq<Transaction> {
    Filter(txs, (t: Transaction) => Matches(q, t))
  }

  /** `findAll`: a page of the caller's transactions matching type, category
      and month (in store order), with the page meta. */
  function FindAllTransactions(txs: seq<Transaction>, caller: IdParam, txType: string, category: string,
                               month: Option<int>, year: Option<int>, page: int, limit: int): (r: ListReply<Transaction>)
    requires page >= 1 && limit > 0
    ensures caller.Malformed? ==> r == Refused(Meta(StatusNotFound, "Invalid userId!"))
    ensures caller.ObjectId? && BuildQuery(caller.id, txType, category, month, year).Err? ==>
      r == Refused(Meta(StatusBadRequest, BuildQuery(caller.id, txType, category, month, year).message))
    ensures r.Listed? <==> caller.ObjectId? && BuildQuery(caller.id, txType, category, month, year).Ok?
    ensures r.Listed? ==> r.listing.message == "Success get transaction!" && |r.listing.data| <= limit
    ensures r.Listed? ==> forall i :: 0 <= i < |r.listing.data| ==>
      r.listing.data[i] in txs && Matches(BuildQuery(caller.id, txType, category, month, year).value, r.listing.data[i])
    ensures r.Listed? ==>
      r.listing.pagination.total
        == Count(txs, (t: Transaction) => Matches(BuildQuery(caller.id, txType, category, month, year).value, t))
    ensures r.Listed? ==>
      && r.listing.data == Page(Selected(txs, BuildQuery(caller.id, txType, category, month, year).value), page, limit)
      && |r.listing.data| == PageSize(r.listing.pagination.total, page, limit)
      && r.listing.pagination == PageMeta(page, TotalPages(r.listing.pagination.total, limit), r.listing.pagination.total)
  {
    match caller
    case Malformed => Refused(Meta(StatusNotFound, InvalidUserId))
    case ObjectId(owner) =>
      match BuildQuery(owner, txType, category, month, year)
      case Err(msg) => Refused(Meta(StatusBadRequest, msg))
      case Ok(q) =>
        var p := (t: Transaction) => Matches(q, t);
        var matched := Filter(txs, p);
        PageOfFilter(txs, p, page, limit);
        Listed(Listing("Success get transaction!", Page(matched, page, limit), PageMetaOf(|matched|, page, limit)))
  }

  /** The pages `findAll` serves for one caller, filter and page size. */
  function TransactionPages(txs: seq<Transaction>, caller: IdParam, txType: string, category: string,
                            month: Option<int>, year: Option<int>, limit: int): int -> seq<Transaction>
    requires limit > 0
  {
    (p: int) =>
      if p >= 1 then
        match FindAllTransactions(txs, caller, txType, category, month, year, p, limit)
        case Listed(l) => l.data
        case Refused(_) => []
      else []
  }

  /** Requesting pages 1 to `totalPage` returns every selected transaction
      exactly once, in store order. */
  lemma TransactionPagesCoverMatches(txs: seq<Transaction>, caller: IdParam, txType: string, category: string,
                                     month: Option<int>, year: Option<int>, limit: int)
    requires limit > 0
    requires caller.ObjectId? && BuildQuery(caller.id, txType, category, month, year).Ok?
    ensures FindAllTransactions(txs, caller, txType, category, month, year, 1, limit).Listed?
    ensures Walk(TransactionPages(txs, caller, txType, category, month, year, limit),
                 FindAllTransactions(txs, caller, txType, category, month, year, 1, limit).listing.pagination.totalPage)
      == Selected(txs, BuildQuery(caller.id, txType, category, month, year).value)
  {
    var m := Selected(txs, BuildQuery(caller.id, txType, category, month, year).value);
    var pages := TransactionPages(txs, caller, txType, category, month, year, limit);
    forall p | p >= 1
      ensures pages(p) == Page(m, p, limit)
    {
      assert FindAllTransactions(txs, caller, txType, category, month, year, p, limit).Listed?;
    }
    WalkCoversAll(pages, m, limit);
  }

  // ---------------------------------------------------------------------
  // find one

  /** `findOne`: looks the id up by itself, whoever owns the transaction. */
  function FindOneTransaction(txs: seq<Transaction>, caller: IdParam, id: IdParam): (e: Envelope<Transaction>)
    ensures caller.Malformed? ==> e == NotFound("Invalid userId!")
    ensures caller.ObjectId? && id.Malformed? ==> e == NotFound("Id is not found!")
    ensures caller.ObjectId? && id.ObjectId? && (forall i :: 0 <= i < |txs| ==> txs[i].id != id.id) ==>
      e == NotFoundDefault()
    ensures e.meta.status == StatusOk <==>
      caller.ObjectId? && id.ObjectId? && exists i :: 0 <= i < |txs| && txs[i].id == id.id
    ensures e.meta.status == StatusOk ==>
      e.meta.message == "Succes get one transaction!" && e.data.Some? && e.data.value in txs && e.data.value.id == id.id
  {
    match (caller, id)
    case (Malformed, _) => NotFound(InvalidUserId)
    case (ObjectId(_), Malformed) => NotFound("Id is not found!")
    case (ObjectId(_), ObjectId(nid)) =>
      match FindFirst(txs, (t: Transaction) => t.id == nid)
      case None => NotFoundDefault()
      case Some(i) => Success(Some(txs[i]), "Succes get one transaction!")
  }

  /** Any authenticated caller can read another owner's transaction by id. */
  lemma FindOneIgnoresOwner(txs: seq<Transaction>, caller: UserId, i: nat)
    requires i < |txs| && txs[i].userId != caller
    requires forall j :: 0 <= j < |txs| && j != i ==> txs[j].id != txs[i].id
    ensures FindOneTransaction(txs, ObjectId(caller), ObjectId(txs[i].id)) == Success(Some(txs[i]), "Succes get one transaction!")
  {
  }

  // ---------------------------------------------------------------------
  // update

  /** The update document `{ ...body, userId }`; an undefined description is
      dropped from it and the stored one kept. */
  function ApplyBody(t: Transaction, b: TxBody, owner: UserId): (r: Transaction)
    requires b.amount.Some? && b.date.Some?
    ensures r == FromBody(t.id, b.(description := if b.description.Some? then b.description else t.description), owner)
  {
    t.(name := b.name,
       description := if b.description.Some? then b.description else t.description,
       amount := b.amount.value, date := b.date.value, category := b.category, txType := b.txType,
       userId := owner)
  }

  /** `update` as written: after the body schema the update is applied with no
      document validation, and when the owner has no such transaction the 404
      is followed (no `return`) by the success reply. */
  function UpdateTransaction(txs: seq<Transaction>, caller: IdParam, id: IdParam, b: TxBody): (st: Step<seq<Transaction>, Transaction>)
    ensures |st.replies| >= 1
    ensures caller.Malformed? ==> st == Reply(txs, NotFound("Invalid userId!"))
    ensures caller.ObjectId? && id.Malformed? ==> st == Reply(txs, NotFound("Id not found"))
    ensures caller.ObjectId? && id.ObjectId? && ValidateBody(b).Some? ==> st == Reply(txs, Error(ValidateBody(b).value))
    ensures caller.ObjectId? && id.ObjectId? && ValidateBody(b).None?
            && (forall i :: 0 <= i < |txs| ==> !OwnedBy(id.id, caller.id)(txs[i])) ==>
      st == Step(txs, [NotFound("Transaction not found"), Success(None, "Transaction update success!")])
    ensures |st.store| == |txs|
    ensures forall i :: 0 <= i < |txs| ==> st.store[i].id == txs[i].id && st.store[i].userId == txs[i].userId
    ensures st.Delivered().meta.status == StatusOk ==>
      |st.replies| == 1 && st.Delivered().meta.message == "Transaction update success!"
      && (exists i :: 0 <= i < |txs| && OwnedBy(id.id, caller.id)(txs[i])
            && st.store == txs[i := ApplyBody(txs[i], b, caller.id)]
            && st.Delivered().data == Some(st.store[i]))
    ensures caller.ObjectId? && id.ObjectId? && ValidateBody(b).None?
            && (exists i :: 0 <= i < |txs| && OwnedBy(id.id, caller.id)(txs[i])) ==>
      st.Delivered().meta.status == StatusOk
  {
    match (caller, id)
    case (Malformed, _) => Reply(txs, NotFound(InvalidUserId))
    case (ObjectId(_), Malformed) => Reply(txs, NotFound("Id not found"))
    case (ObjectId(owner), ObjectId(nid)) =>
      match ValidateBody(b)
      case Some(msg) => Reply(txs, Error(msg))
      case None =>
        match FindFirst(txs, OwnedBy(nid, owner))
        case None => Step(txs, [NotFound(TransactionNotFound), Success(None, "Transaction update success!")])
        case Some(i) =>
          var updated := ApplyBody(txs[i], b, owner);
          var after := txs[i := updated];
          assert after[i] == updated;
          Reply(after, Success(Some(updated), "Transaction update success!"))
  }

  /** The update can store a document the schema forbids: a valid transaction
      updated with type "Income" and an expense category keeps that type. */
  lemma UpdateStoresForeignType(t: Transaction)
    requires SchemaValid(t)
    ensures var b := TxBody("Makan siang", None, Some(50000), Some(0), "Income", "Belanja");
      var st := UpdateTransaction([t], ObjectId(t.userId), ObjectId(t.id), b);
      st.Delivered().meta.status == StatusOk && !AllSchemaValid(st.store)
  {
    BodySchemaAllowsForeignType();
    var b := TxBody("Makan siang", None, Some(50000), Some(0), "Income", "Belanja");
    var st := UpdateTransaction([t], ObjectId(t.userId), ObjectId(t.id), b);
    assert OwnedBy(t.id, t.userId)([t][0]);
    assert st.store[0].txType == "Income";
  }

  /** `update` with the document schema applied to the result (the store's
      validators on update): a result the schema forbids is refused and the
      store kept. The missing `return` is kept as written. */
  function UpdateTransactionValidated(txs: seq<Transaction>, caller: IdParam, id: IdParam, b: TxBody): (st: Step<seq<Transaction>, Transaction>)
    ensures |st.replies| >= 1
    ensures caller.Malformed? ==> st == Reply(txs, NotFound("Invalid userId!"))
    ensures caller.ObjectId? && id.Malformed? ==> st == Reply(txs, NotFound("Id not found"))
    ensures caller.ObjectId? && id.ObjectId? && ValidateBody(b).Some? ==> st == Reply(txs, Error(ValidateBody(b).value))
    ensures caller.ObjectId? && id.ObjectId? && ValidateBody(b).None?
            && (forall i :: 0 <= i < |txs| ==> !OwnedBy(id.id, caller.id)(txs[i])) ==>
      st == Step(txs, [NotFound("Transaction not found"), Success(None, "Transaction update success!")])
    ensures caller.ObjectId? && id.ObjectId? && ValidateBody(b).None? && b.txType != "income" && b.txType != "expense" ==>
      st.store == txs && st.Delivered().meta.status != StatusOk
    ensures |st.store| == |txs|
    ensures st.Delivered().meta.status == StatusOk ==>
      |st.replies| == 1 && st.Delivered().meta.message == "Transaction update success!"
      && (exists i :: 0 <= i < |txs| && OwnedBy(id.id, caller.id)(txs[i])
            && st.store == txs[i := ApplyBody(txs[i], b, caller.id)]
            && SchemaValid(st.store[i]) && st.Delivered().data == Some(st.store[i]))
    ensures caller.ObjectId? && id.ObjectId? && ValidateBody(b).None? && (b.txType == "income" || b.txType == "expense")
            && (exists i :: 0 <= i < |txs| && OwnedBy(id.id, caller.id)(txs[i])) ==>
      st.Delivered().meta.status == StatusOk
  {
    match (caller, id)
    case (Malformed, _) => Reply(txs, NotFound(InvalidUserId))
    case (ObjectId(_), Malformed) => Reply(txs, NotFound("Id not found"))
    case (ObjectId(owner), ObjectId(nid)) =>
      match ValidateBody(b)
      case Some(msg) => Reply(txs, Error(msg))
      case None =>
        match FindFirst(txs, OwnedBy(nid, owner))
        case None => Step(txs, [NotFound(TransactionNotFound), Success(None, "Transaction update success!")])
        case Some(i) =>
          var updated := ApplyBody(txs[i], b, owner);
          match ValidateSchema(updated)
          case Some(msg) => Reply(txs, Error(msg))
          case None =>
            var after := txs[i := updated];
            assert after[i] == updated;
            Reply(after, Success(Some(updated), "Transaction update success!"))
  }

  lemma ValidatedUpdateKeepsSchemaValid(txs: seq<Transaction>, caller: IdParam, id: IdParam, b: TxBody)
    requires AllSchemaValid(txs)
    ensures AllSchemaValid(UpdateTransactionValidated(txs, caller, id, b).store)
  {
  }

  // ---------------------------------------------------------------------
  // delete

  /** `delete`: removes the caller's transaction and returns it. */
  function DeleteTransaction(txs: seq<Transaction>, caller: IdParam, id: IdParam): (st: Step<seq<Transaction>, Transaction>)
    ensures |st.replies| == 1
    ensures caller.Malformed? ==> st == Reply(txs, NotFound("Invalid userId!"))
    ensures caller.ObjectId? && id.Malformed? ==> st == Reply(txs, NotFound("Id not found"))
    ensures caller.ObjectId? && id.ObjectId? && (forall i :: 0 <= i < |txs| ==> !OwnedBy(id.id, caller.id)(txs[i])) ==>
      st == Reply(txs, NotFound("Transaction not found"))
    ensures st.Delivered().meta.status != StatusOk ==> st.store == txs
    ensures st.Delivered().meta.status == StatusOk ==>
      st.Delivered().meta.message == "Delete transaction success!"
      && st.Delivered().data.Some? && OwnedBy(id.id, caller.id)(st.Delivered().data.value)
      && |st.store| == |txs| - 1
      && multiset(st.store) + multiset{st.Delivered().data.value} == multiset(txs)
    ensures caller.ObjectId? && id.ObjectId? && (exists i :: 0 <= i < |txs| && OwnedBy(id.id, caller.id)(txs[i])) ==>
      st.Delivered().meta.status == StatusOk
  {
    match (caller, id)
    case (Malformed, _) => Reply(txs, NotFound(InvalidUserId))
    case (ObjectId(_), Malformed) => Reply(txs, NotFound("Id not found"))
    case (ObjectId(owner), ObjectId(nid)) =>
      match FindFirst(txs, OwnedBy(nid, owner))
      case None => Reply(txs, NotFound(TransactionNotFound))
      case Some(i) =>
        var r := RemoveAt(txs, i);
        assert txs == txs[..i] + [txs[i]] + txs[i + 1..];
        assert r == txs[..i] + txs[i + 1..];
        Reply(r, Success(Some(txs[i]), "Delete transaction success!"))
  }

  // ---------------------------------------------------------------------
  // totals and summary

  /** `total`: the income and expense totals and the count of the caller's
      transactions in the month (or all of them). */
  function TotalTransactions(txs: seq<Transaction>, caller: IdParam, month: Option<int>, year: Option<int>): (e: Envelope<Totals>)
    ensures caller.Malformed? ==> e == NotFound("Invalid userId!")
    ensures caller.ObjectId? && BuildQuery(caller.id, "", "", month, year).Err? ==>
      e == Error(BuildQuery(caller.id, "", "", month, year).message)
    ensures e.meta.status == StatusOk <==> caller.ObjectId? && BuildQuery(caller.id, "", "", month, year).Ok?
    ensures e.meta.status == StatusOk ==>
      var matched := Filter(txs, (t: Transaction) => Matches(BuildQuery(caller.id, "", "", month, year).value, t));
      e.meta.message == "Success get totals!"
      && e.data == Some(Totals(Sum(matched, IncomeAmount), Sum(matched, ExpenseAmount), |matched|))
  {
    match caller
    case Malformed => NotFound(InvalidUserId)
    case ObjectId(owner) =>
      match BuildQuery(owner, "", "", month, year)
      case Err(msg) => Error(msg)
      case Ok(q) =>
        var matched := Filter(txs, (t: Transaction) => Matches(q, t));
        TotalsReplyIsFold(matched);
        GroupTotalsAreSums(matched);
        Success(Some(TotalsReply(AggregateTotals(matched))), "Success get totals!")
  }

  /** `summaryByCategory`: the caller's transactions in the month (and of the
      type, when given), grouped by type and then by category. */
  function SummaryByCategory(txs: seq<Transaction>, caller: IdParam, month: Option<int>, year: Option<int>,
                             txType: string): (e: Envelope<seq<TypeGroup>>)
    ensures caller.Malformed? ==> e == NotFound("Invalid User Id!")
    ensures caller.ObjectId? && BuildQuery(caller.id, txType, "", month, year).Err? ==>
      e == Error(BuildQuery(caller.id, txType, "", month, year).message)
    ensures e.meta.status == StatusOk <==> caller.ObjectId? && BuildQuery(caller.id, txType, "", month, year).Ok?
    ensures e.meta.status == StatusOk ==>
      e.meta.message == "Success get summary by categories" && e.data.Some?
      && (forall i :: 0 <= i < |e.data.value| ==> txType != "" ==> e.data.value[i].txType == txType)
    ensures e.meta.status == StatusOk ==>
      var matched := Selected(txs, BuildQuery(caller.id, txType, "", month, year).value);
      var gs := e.data.value;
      && (forall i, j :: 0 <= i < j < |gs| ==> gs[i].txType != gs[j].txType)
      && (forall i, k, l :: 0 <= i < |gs| && 0 <= k < l < |gs[i].categories| ==>
            gs[i].categories[k].category != gs[i].categories[l].category)
      && (forall i, k :: 0 <= i < |gs| && 0 <= k < |gs[i].categories| ==>
            gs[i].categories[k].total == Sum(matched, PairAmount(gs[i].txType, gs[i].categories[k].category)))
      && (forall i :: 0 <= i < |gs| ==> CategorySum(gs[i].categories) == Sum(matched, TypeAmount(gs[i].txType)))
      && (forall n :: 0 <= n < |matched| ==>
            && FindType(gs, matched[n].txType).Some?
            && FindCategory(gs[FindType(gs, matched[n].txType).value].categories, matched[n].category).Some?)
  {
    match caller
    case Malformed => NotFound("Invalid User Id!")
    case ObjectId(owner) =>
      match BuildQuery(owner, txType, "", month, year)
      case Err(msg) => Error(msg)
      case Ok(q) =>
        SummaryIsExact(Selected(txs, q));
        SummaryKeepsQueryType(txs, q);
        Success(Some(Summary(Selected(txs, q))), "Success get summary by categories")
  }

  /** With a type filter, every group of the summary is of that type. */
  lemma SummaryKeepsQueryType(txs: seq<Transaction>, q: Query)
    ensures forall i :: 0 <= i < |Summary(Selected(txs, q))| && q.txType.Some? ==>
      Summary(Selected(txs, q))[i].txType == q.txType.value
  {
    var m := Selected(txs, q);
    forall i | 0 <= i < |Summary(m)| && q.txType.Some?
      ensures Summary(m)[i].txType == q.txType.value
    {
      SummaryGroupsComeFromData(m, i);
      var n :| 0 <= n < |m| && m[n].txType == Summary(m)[i].txType;
      assert Matches(q, m[n]);
    }
  }
}

=== FILE: transaction_model.dfy ===
/** The transaction record: the two category lists, the request-body schema
    (whose category list depends on the type), and the stored-document schema
    (whose enums are looser on category and stricter on type). */
module TransactionModel {
  import opened Wrappers
  import opened Ids
  import opened Timeline

  const IncomeCategories: seq<string> :=
    ["Gaji", "Bonus", "Freelance", "Investasi", "Usaha", "Hadiah", "Lainnya"]

  const ExpenseCategories: seq<string> :=
    ["Makanan & Minuman", "Transportasi", "Perumahan (Listrik/Air/Internet)", "Belanja", "Hiburan",
     "Kesehatan", "Pendidikan", "Travel", "Subscription (Spotify/Netflix)", "Donasi", "Lainnya"]

  const Income: string := "income"
  const Expense: string := "expense"

  /** Amounts are whole numbers here; `type` and `category` are free strings
      because nothing but validation keeps them in their enums. */
  datatype Transaction = Transaction(
    id: DocId,
    name: string,
    description: Option<string>,
    amount: int,
    date: Instant,
    category: string,
    txType: string,
    userId: UserId)

  /** A request body; a missing number or date is `None`, a missing string "". */
  datatype TxBody = TxBody(
    name: string,
    description: Option<string>,
    amount: Option<int>,
    date: Option<Instant>,
    txType: string,
    category: string)

  /** The categories the body schema allows for a type: the income list for
      exactly "income", the expense list for anything else. */
  function CategoriesFor(txType: string): (cs: seq<string>)
    ensures txType == "income" ==> cs == IncomeCategories
    ensures txType != "income" ==> cs == ExpenseCategories
  {
    if txType == Income then IncomeCategories else ExpenseCategories
  }

  /** `values.join(", ")`. */
  function CommaList(vs: seq<string>): string {
    if |vs| == 0 then "" else if |vs| == 1 then vs[0] else vs[0] + ", " + CommaList(vs[1..])
  }

  /** The body schema: name, amount, date, type and category required, and the
      category one of the list for the type. Errors in field order. */
  function ValidateBody(b: TxBody): (r: Option<string>)
    ensures r.None? <==>
      b.name != "" && b.amount.Some? && b.date.Some? && b.txType != "" && b.category in CategoriesFor(b.txType)
  {
    if b.name == "" then Some("name is a required field")
    else if b.amount.None? then Some("amount is a required field")
    else if b.date.None? then Some("date is a required field")
    else if b.txType == "" then Some("type is a required field")
    else if b.category == "" then Some("category is a required field")
    else if b.category !in CategoriesFor(b.txType) then
      Some("category must be one of the following values: " + CommaList(CategoriesFor(b.txType)))
    else None
  }

  /** The stored-document schema: name present, type one of the two, category
      in either list. */
  predicate SchemaValid(t: Transaction) {
    && t.name != ""
    && (t.txType == Income || t.txType == Expense)
    && t.category in IncomeCategories + ExpenseCategories
  }

  /** Schema validation on save: after the body schema has passed only the type
      enum can fail, reported as the store's validation error. */
  function ValidateSchema(t: Transaction): (r: Option<string>)
    ensures r.None? <==> SchemaValid(t)
  {
    if t.name == "" then Some("Transaction validation failed: name: Path `name` is required.")
    else if t.txType != Income && t.txType != Expense then
      Some("Transaction validation failed: type: `" + t.txType + "` is not a valid enum value for path `type`.")
    else if t.category !in IncomeCategories + ExpenseCategories then
      Some("Transaction validation failed: category: `" + t.category + "` is not a valid enum value for path `category`.")
    else None
  }

  /** The document a valid body describes, owned by `owner`. */
  function FromBody(id: DocId, b: TxBody, owner: UserId): (t: Transaction)
    requires b.amount.Some? && b.date.Some?
    ensures t.id == id && t.userId == owner && t.name == b.name && t.description == b.description
    ensures t.amount == b.amount.value && t.date == b.date.value
    ensures t.txType == b.txType && t.category == b.category
  {
    Transaction(id, b.name, b.description, b.amount.value, b.date.value, b.category, b.txType, owner)
  }

  /** "Lainnya" is in both lists, so it passes the body schema for any type. */
  lemma OtherFitsEveryType(txType: string)
    ensures "Lainnya" in CategoriesFor(txType)
  {
    if txType == Income { assert IncomeCategories[6] == "Lainnya"; }
    else { assert ExpenseCategories[10] == "Lainnya"; }
  }

  /** A body that passes its schema describes a schema-valid document exactly
      when its type is one of the two enum values. */
  lemma BodySchemaAndTypeGiveSchemaValid(id: DocId, b: TxBody, owner: UserId)
    requires ValidateBody(b).None?
    ensures SchemaValid(FromBody(id, b, owner)) <==> b.txType == Income || b.txType == Expense
  {
    assert b.category in IncomeCategories + ExpenseCategories;
  }

  /** The body schema alone lets through a type outside the enum: "Income"
      with an expense category. */
  lemma BodySchemaAllowsForeignType()
    ensures var b := TxBody("Makan siang", None, Some(50000), Some(0), "Income", "Belanja");
      ValidateBody(b).None? && !SchemaValid(FromBody(0, b, 0))
  {
    var b := TxBody("Makan siang", None, Some(50000), Some(0), "Income", "Belanja");
    assert b.txType != Income;
    assert ExpenseCategories[3] == "Belanja";
  }
}

=== FILE: transaction_query.dfy ===
/** The transaction filters shared by the list, totals and summary handlers:
    the owner always, type and category when given, and the month window
    `[first of month, first of next month)` when both month and year are. */
module TransactionQuery {
  import opened Wrappers
  import opened Ids
  import opened Timeline
  import opened Calendar
  import opened TransactionModel

  /** `{ $gte: from, $lt: until }` on the date. */
  datatype Window = Window(from: Instant, until: Instant)

  /** Month 12 rolls over to January of the next year. */
  function NextMonth(year: int, month: int): (r: (int, int))
    ensures month == 12 ==> r == (year + 1, 1)
    ensures month != 12 ==> r == (year, month + 1)
  {
    if month == 12 then (year + 1, 1) else (year, month + 1)
  }

  /** Both ends are built as `YYYY-MM-01` texts and read back as dates; a text
      that is not a real date gives no window. */
  function MonthWindow(year: int, month: int): Option<Window> {
    var (ny, nm) := NextMonth(year, month);
    match (ParseIsoDate(MonthFirstText(year, month)), ParseIsoDate(MonthFirstText(ny, nm)))
    case (Some(from), Some(until)) => Some(Window(from, until))
    case _ => None
  }

  /** The years whose months, and the month after, print as four digits. */
  predicate FourDigitMonth(year: int, month: int) {
    1 <= month <= 12 && 1000 <= year && (if month == 12 then year + 1 else year) <= 9999
  }

  /** For a real month, the window runs from midnight of its first day to
      midnight of the first day of the next month. */
  lemma MonthWindowOfMonth(year: int, month: int)
    requires FourDigitMonth(year, month)
    ensures MonthWindow(year, month) == Some(Window(Midnight(year, month, 1),
      Midnight(NextMonth(year, month).0, NextMonth(year, month).1, 1)))
  {
    var next := NextMonth(year, month);
    MonthFirstTextParses(year, month);
    MonthFirstTextParses(next.0, next.1);
    WindowOfParsedTexts(year, month, Midnight(year, month, 1), Midnight(next.0, next.1, 1));
  }

  lemma WindowOfParsedTexts(year: int, month: int, from: Instant, until: Instant)
    requires ParseIsoDate(MonthFirstText(year, month)) == Some(from)
    requires ParseIsoDate(MonthFirstText(NextMonth(year, month).0, NextMonth(year, month).1)) == Some(until)
    ensures MonthWindow(year, month) == Some(Window(from, until))
  {
  }

  /** A month outside 1 to 12 (with a four-digit year) gives no window. */
  lemma NoWindowOutsideMonths(year: int, month: int)
    requires 1000 <= year <= 9999 && !(1 <= month <= 12)
    ensures MonthWindow(year, month).None?
  {
    OutOfRangeMonthTextFails(year, month);
  }

  /** The window holds exactly the instants of the month's days, and it is
      as long as the month. */
  lemma MonthWindowIsTheMonth(year: int, month: int, x: Instant)
    requires FourDigitMonth(year, month)
    ensures MonthWindow(year, month).Some?
    ensures MonthWindow(year, month).value.until - MonthWindow(year, month).value.from
      == DaysInMonth(year, month) * DayMs
    ensures MonthWindow(year, month).value.from <= x < MonthWindow(year, month).value.until <==>
      EpochDay(year, month, 1) <= DayOf(x) < EpochDay(year, month, 1) + DaysInMonth(year, month)
  {
    var next := NextMonth(year, month);
    var first := EpochDay(year, month, 1);
    var len := DaysInMonth(year, month);
    MonthWindowOfMonth(year, month);
    MonthLength(year, month);
    assert EpochDay(next.0, next.1, 1) == first + len;
    var w := MonthWindow(year, month).value;
    assert w.from == first * DayMs;
    assert w.until == (first + len) * DayMs;
    DaySpan(first, first + len, x);
  }

  /** Consecutive months' windows meet with neither a gap nor an overlap. */
  lemma MonthWindowsTile(year: int, month: int, nextYear: int, nextMonth: int)
    requires FourDigitMonth(year, month) && NextMonth(year, month) == (nextYear, nextMonth)
    requires FourDigitMonth(nextYear, nextMonth)
    ensures MonthWindow(year, month).Some? && MonthWindow(nextYear, nextMonth).Some?
    ensures MonthWindow(year, month).value.until == MonthWindow(nextYear, nextMonth).value.from
  {
    MonthWindowOfMonth(year, month);
    MonthWindowOfMonth(nextYear, nextMonth);
  }

  datatype Query = Query(userId: UserId, txType: Option<string>, category: Option<string>, date: Option<Window>)

  const InvalidDate: string :=
    "Cast to date failed for value \"Invalid Date\" (type Date) at path \"date\" for model \"Transaction\""

  /** The query of a request. Month and year are the integers read from
      non-empty parameters (`None` when a parameter is absent or empty); the
      window applies only when both are given, and a window that does not read
      as dates is an error. */
  function BuildQuery(userId: UserId, txType: string, category: string,
                      month: Option<int>, year: Option<int>): (r: Result<Query>)
    ensures r.Err? <==> month.Some? && year.Some? && MonthWindow(year.value, month.value).None?
    ensures r.Ok? ==> r.value.userId == userId
    ensures r.Ok? ==> (r.value.txType.Some? <==> txType != "") && (r.value.txType.Some? ==> r.value.txType.value == txType)
    ensures r.Ok? ==> (r.value.category.Some? <==> category != "") && (r.value.category.Some? ==> r.value.category.value == category)
    ensures r.Ok? ==> (r.value.date.Some? <==> month.Some? && year.Some?)
    ensures r.Ok? && r.value.date.Some? ==> Some(r.value.date.value) == MonthWindow(year.value, month.value)
  {
    var t := if txType != "" then Some(txType) else None;
    var c := if category != "" then Some(category) else None;
    if month.Some? && year.Some? then
      match MonthWindow(year.value, month.value)
      case None => Err(InvalidDate)
      case Some(w) => Ok(Query(userId, t, c, Some(w)))
    else Ok(Query(userId, t, c, None))
  }

  predicate Matches(q: Query, t: Transaction) {
    && t.userId == q.userId
    && (q.txType.Some? ==> t.txType == q.txType.value)
    && (q.category.Some? ==> t.category == q.category.value)
    && (q.date.Some? ==> q.date.value.from <= t.date < q.date.value.until)
  }

  /** With month and year given, a transaction of the owner (no type or
      category filter) matches exactly when its date falls on a day of that month. */
  lemma MonthFilterSelectsMonth(userId: UserId, month: int, year: int, t: Transaction)
    requires FourDigitMonth(year, month)
    ensures BuildQuery(userId, "", "", Some(month), Some(year)).Ok?
    ensures Matches(BuildQuery(userId, "", "", Some(month), Some(year)).value, t) <==>
      t.userId == userId
      && EpochDay(year, month, 1) <= DayOf(t.date) < EpochDay(year, month, 1) + DaysInMonth(year, month)
  {
    MonthWindowIsTheMonth(year, month, t.date);
    var w := MonthWindow(year, month).value;
    assert BuildQuery(userId, "", "", Some(month), Some(year)) == Ok(Query(userId, None, None, Some(w)));
  }
}

=== FILE: user_model.dfy ===
/** The user record: role enumeration and default, default profile picture,
    unique email and username, and the pre-save hook that hashes the password.
    The hash function is opaque and passed in. */
module UserModel {
  import opened Ids
  import opened Wrappers

  const RoleAdmin: string := "admin"
  const RoleUser: string := "user"
  const DefaultProfilePicture: string := "profile-picture-default.jpg"

  predicate IsRole(r: string) {
    r == RoleAdmin || r == RoleUser
  }

  datatype User = User(
    id: UserId,
    fullname: string,
    email: string,
    username: string,
    password: string,
    profilePicture: string,
    role: string)

  /** The pre-save hook: every save replaces the stored password with its hash,
      whether or not the password was modified. Nothing else changes. */
  function PreSave(u: User, hash: string -> string): (r: User)
    ensures r.password == hash(u.password)
    ensures r.(password := u.password) == u
  {
    u.(password := hash(u.password))
  }

  /** `UserModel.create`: schema defaults applied, then the pre-save hook. */
  function CreateUser(id: UserId, fullname: string, email: string, username: string,
                      password: string, hash: string -> string): (u: User)
    ensures u.id == id && u.fullname == fullname && u.email == email && u.username == username
    ensures u.password == hash(password)
    ensures u.role == "user" && IsRole(u.role)
    ensures u.profilePicture == "profile-picture-default.jpg"
  {
    PreSave(User(id, fullname, email, username, password, DefaultProfilePicture, RoleUser), hash)
  }

  /** Saving a stored user again hashes the already-hashed password. */
  lemma SaveAgainHashesTwice(u: User, hash: string -> string)
    ensures PreSave(PreSave(u, hash), hash).password == hash(hash(u.password))
  {
  }

  /** The unique indexes on email and username, and distinct document ids. */
  ghost predicate UniqueAccounts(users: seq<User>) {
    forall i, j :: 0 <= i < j < |users| ==>
      users[i].email != users[j].email && users[i].username != users[j].username && users[i].id != users[j].id
  }

  predicate EmailInUse(users: seq<User>, email: string) {
    exists i :: 0 <= i < |users| && users[i].email == email
  }

  predicate UsernameInUse(users: seq<User>, username: string) {
    exists i :: 0 <= i < |users| && users[i].username == username
  }

  /** An insert as the unique indexes allow it: refused on a duplicate email or
      username (the driver's duplicate-key error), appended otherwise. */
  function Insert(users: seq<User>, u: User): (r: Result<seq<User>>)
    ensures r.Ok? <==> !EmailInUse(users, u.email) && !UsernameInUse(users, u.username)
    ensures r.Ok? ==> r.value == users + [u]
  {
    if EmailInUse(users, u.email) || UsernameInUse(users, u.username) then Err("E11000 duplicate key error")
    else Ok(users + [u])
  }

  /** An insert the indexes accept keeps the accounts unique, given a fresh id. */
  lemma InsertKeepsUnique(users: seq<User>, u: User)
    requires UniqueAccounts(users)
    requires forall i :: 0 <= i < |users| ==> users[i].id != u.id
    requires Insert(users, u).Ok?
    ensures UniqueAccounts(Insert(users, u).value)
  {
    var r := users + [u];
    forall i, j | 0 <= i < j < |r|
      ensures r[i].email != r[j].email && r[i].username != r[j].username && r[i].id != r[j].id
    {
      if j == |users| {
        assert r[i] == users[i];
        assert r[j] == u;
      }
    }
  }
}

=== FILE: wrappers.dfy ===
/** Optional values, used wherever the source has a field that may be absent
    (`undefined`, `null` or an empty string in a request) or a lookup that may
    find nothing. */
module Wrappers {

  datatype Option<+T> = None | Some(value: T) {

    /** The carried value, or `default` when there is none. */
    function GetOr(default: T): T {
      match this
      case Some(v) => v
      case None => default
    }
  }

  /** Either a value or an error message. */
  datatype Result<+T> = Ok(value: T) | Err(message: string)
}
